=== FILE: README.md ===
# Volunteer management: a Dafny model

This project models the logic of a volunteer-management web application. The
application is a Java servlet back end with a PHP front end, plus browser
scripts. The model covers:

- **The four data-access classes.** `EventDAO`, `EventRegistrationDAO`,
  `VolunteerDAO` and `UserDAO` become pure functions over immutable tables. A
  table is a sequence of rows plus the next AUTO_INCREMENT key. `WHERE`
  becomes a filter (`Query.Where`), `ORDER BY` a sorted permutation
  (`Query.OrderBy`), and `COUNT(*)` a count. A statement that affects no row
  becomes `false` or an error value. BCrypt's hash and verify functions are
  parameters.
- **The entities' predicates.** `Event`, `EventRegistration`, `User` and
  `Volunteer`, with "today" as a parameter.
- **Input validation in three languages.** Java's `ValidationUtil` and
  `PasswordUtil`, the `Validator` object of app.js, main.js, and the helpers
  of helpers/functions.php. Each language gets its own whitespace class:
  - Java's `\s` and PCRE's `\s` are six ASCII characters.
  - JavaScript's `\s` (also what `trim` removes) is the ECMAScript
    WhiteSpace and LineTerminator set.
  - Java's `trim` removes every character up to U+0020.
- **The two servlet filters.** Each is a decision over an optional session.
- **PHP flash messages and session guards.** Operations on a `$_SESSION`
  map.
- **Browser helpers** in events.js and volunteers.js: `getBaseUrl`, the
  query-string filters, the card search, the time check, the status toggle,
  the status filter and the profile-form check.

Module `CrossLanguage` relates the three phone rules, the two e-mail rules and
the two password rules to each other.

What the code does, and the model with it, in places where a reader might expect otherwise:

- **No admission control.** `register` inserts a CONFIRMED row with no
  capacity check and no duplicate check. Nothing keeps `volunteers_registered`
  in step with the registration rows. No capacity or uniqueness invariant is
  stated.
  - `EventRegistrationDao.DuplicateRegistrationAccepted` proves that
    registering a pair twice gives two CONFIRMED rows.
- **Inconsistent status spellings.**
  - The registration DAO writes upper-case status names, but
    `EventRegistration.isConfirmed` compares with lower-case "confirmed"
    (`EventRegistrationDao.RegisteredRowIsNotEntityConfirmed`).
  - `VolunteerDAO.findAllActive` selects `'ACTIVE'` while the events table is
    filtered on `'active'`.
- **Source that does not compile as shown.**
  - `EventDAO` calls `event.getStatusString()`, which `Event` does not
    declare; the model reads it as the status field.
  - The DAOs name the enums `EventRegistration.RegistrationStatus` and
    `Volunteer.VolunteerStatus`, which are not declared. The registration
    status argument is modelled as `Confirmed | Cancelled | Other(name)`,
    and the volunteer status as its name. A registration row stores the
    status name, as the SQL column does, so `Other("CONFIRMED")` and
    `Confirmed` write the same row.
  - `setRegisteredAt` is given a `LocalDateTime` where a `Timestamp` is
    declared.
  - In the same way, `EventDAO` passes `rs.getTimestamp(..).toLocalDateTime()`
    to `setCreatedAt` and `setUpdatedAt`, which take a `Timestamp`
    (EventDAO.java:268-269). `VolunteerDAO` does the same with
    `setCreatedAt` (VolunteerDAO.java:199). The model stores the column value
    unchanged.
  - `VolunteerDAO.create` and `update` call `getStatus().name()` on a
    `String` status (VolunteerDAO.java:110 and :147). The model writes the
    status string as it is.
  - The context listener calls a `DatabaseUtil.shutdown()` that does not
    exist.
- **Null arguments.** A finder given a null parameter matches nothing, as SQL
  `= NULL` does. Unboxing a null `Integer` becomes the `NullPointer` error,
  in the DAOs and in `Event.isFull` alike.

volunteers.js declares a `getBaseUrl` textually identical to the events.js
one (src/main/webapp/js/volunteers.js:70-78). Both are the single function
`EventsJs.GetBaseUrl`.

## Model

| member | source | states |
|---|---|---|
| EventModel.IsFull | src/main/java/com/volunteermanagement/model/Event.java:173-175 | a null number needed is the null-pointer failure; otherwise the event is full iff the registered count, unset reading as zero, has reached the number needed |
| EventModel.IsActive | src/main/java/com/volunteermanagement/model/Event.java:177-179 | active iff the status is set and lower-cases to "active"; a null status is not active |
| EventModel.IsPast | src/main/java/com/volunteermanagement/model/Event.java:181-183 | past iff the date is set and strictly before today; an undated event is never past |
| EventModel.FullIsMonotone | src/main/java/com/volunteermanagement/model/Event.java:173-175 | a full event stays full when its registered count rises |
| EventModel.FullWithUnsetCount | src/main/java/com/volunteermanagement/model/Event.java:116-118 | an unset registered count gives the verdict of a count of 0: full iff at most 0 volunteers are needed |
| EventModel.PastIsMonotone | src/main/java/com/volunteermanagement/model/Event.java:181-183 | an event past on one day is past on every later day; no event is past on its own date and every dated event is past the day after; an undated event is never past |
| EventModel.ActiveIgnoresCase | src/main/java/com/volunteermanagement/model/Event.java:177-179 | two statuses equal up to case give the same verdict; "ACTIVE" and "Active" are active |
| RegistrationModel.StatusPredicatesExclusive | src/main/java/com/volunteermanagement/model/EventRegistration.java:162-172 | at most one of confirmed, cancelled and attended holds; a null status satisfies none |
| RegistrationModel.UpperCaseIsNotRecognised | src/main/java/com/volunteermanagement/model/EventRegistration.java:162-168 | the comparison is case-sensitive: "CONFIRMED" is not confirmed and "CANCELLED" is not cancelled |
| UserModel.RolesExclusive | src/main/java/com/volunteermanagement/model/User.java:109-115 | no user is both admin and volunteer; a null role is neither |
| UserModel.IsAdmin | src/main/java/com/volunteermanagement/model/User.java:109-111 | admin iff the role is set and lower-cases to "admin" |
| UserModel.IsVolunteer | src/main/java/com/volunteermanagement/model/User.java:113-115 | volunteer iff the role is set and lower-cases to "volunteer" |
| VolunteerModel.ActiveDependsOnStatusOnly | src/main/java/com/volunteermanagement/model/Volunteer.java:178-180 | a null status is inactive, "ACTIVE" is active, and two volunteers with the same status agree |
| VolunteerModel.IsActive | src/main/java/com/volunteermanagement/model/Volunteer.java:178-180 | active iff the status is set and lower-cases to "active" |
| Query.Where | src/main/java/com/volunteermanagement/dao/EventDAO.java:164-180 | the `WHERE` filter returns only table rows satisfying the condition, and every such row |
| Query.CountIsSizeOfWhere | src/main/java/com/volunteermanagement/dao/EventRegistrationDAO.java:190-207 | `COUNT(*)` equals the number of rows the same `WHERE` selects |
| Query.CountPositive | src/main/java/com/volunteermanagement/dao/UserDAO.java:213-227 | `COUNT(*) > 0` iff some row satisfies the condition |
| Query.CountAppend | src/main/java/com/volunteermanagement/dao/EventRegistrationDAO.java:190-207 | the count over two concatenated tables is the sum of the counts |
| Query.CountAgree | src/main/java/com/volunteermanagement/dao/EventRegistrationDAO.java:190-207 | conditions that agree on every row count the same rows |
| Query.First | src/main/java/com/volunteermanagement/dao/EventRegistrationDAO.java:17-34 | a single-row read returns a matching table row, and nothing only when no row matches |
| Query.FirstAppendMissing | src/main/java/com/volunteermanagement/dao/VolunteerDAO.java:36-53 | after appending the only matching row, the single-row read returns it |
| Query.Insert | src/main/java/com/volunteermanagement/dao/EventDAO.java:147-162 | inserting into a sorted list keeps it sorted and adds exactly that element |
| Query.OrderBy | src/main/java/com/volunteermanagement/dao/EventDAO.java:147-162 | `ORDER BY` returns a sorted permutation of its input |
| Query.Select | src/main/java/com/volunteermanagement/dao/EventDAO.java:164-180 | `WHERE ... ORDER BY` returns exactly the matching rows, as a sorted permutation of the filtered rows |
| Query.WhereKeepsDistinct | src/main/java/com/volunteermanagement/dao/EventRegistrationDAO.java:176-188 | filtering keeps primary keys distinct |
| Query.WhereAll | src/main/java/com/volunteermanagement/dao/EventDAO.java:147-162 | a condition every row meets selects the whole table |
| Query.UpdateWhere | src/main/java/com/volunteermanagement/dao/EventRegistrationDAO.java:156-170 | `UPDATE ... WHERE` rewrites exactly the matching rows and keeps the others and the row order |
| Query.UpdateNothing | src/main/java/com/volunteermanagement/dao/EventRegistrationDAO.java:156-170 | an update that matches no row leaves the table unchanged |
| Query.LikeLiteralPrefix | src/main/java/com/volunteermanagement/dao/VolunteerDAO.java:74-93 | a wildcard-free prefix of a `LIKE` pattern must match the text literally |
| Query.LikePercent | src/main/java/com/volunteermanagement/dao/VolunteerDAO.java:74-93 | the pattern `%` matches every string |
| Query.LikeLeadingPercent | src/main/java/com/volunteermanagement/dao/VolunteerDAO.java:74-93 | a leading `%` matches iff the rest of the pattern matches some suffix |
| Query.LikeIsContains | src/main/java/com/volunteermanagement/dao/VolunteerDAO.java:74-93 | `LIKE '%k%'` with a wildcard-free `k` is substring search |
| Query.Limit | src/main/java/com/volunteermanagement/dao/EventDAO.java:201-219 | `LIMIT n` returns a prefix of at most n rows, exactly n when there are enough |
| EventDao.ToEvent | src/main/java/com/volunteermanagement/dao/EventDAO.java:241-272 | reading a row copies its key, date, counts, status, category and creator into the entity |
| EventDao.ToEvents | src/main/java/com/volunteermanagement/dao/EventDAO.java:241-272 | a result list maps every row, in order |
| EventDao.OrderingsArePreorders | src/main/java/com/volunteermanagement/dao/EventDAO.java:147-239 | the three `ORDER BY` clauses of the class are total preorders |
| EventDao.FindById | src/main/java/com/volunteermanagement/dao/EventDAO.java:21-37 | an event is found iff a row has that key, and it is that row's entity |
| EventDao.FindAll | src/main/java/com/volunteermanagement/dao/EventDAO.java:147-162 | one event per row of the table, read from a permutation of all rows sorted by date descending with ties by creation time descending |
| EventDao.FindActiveEvents | src/main/java/com/volunteermanagement/dao/EventDAO.java:164-180 | exactly the events with status "active" dated today or later, one per such row, read from a permutation of those rows in non-decreasing date order |
| EventDao.FindUpcomingEvents | src/main/java/com/volunteermanagement/dao/EventDAO.java:201-219 | a prefix of the active events of length at most the limit, all of them when they fit; a negative limit gives none |
| EventDao.FindByCategory | src/main/java/com/volunteermanagement/dao/EventDAO.java:182-199 | exactly the events of that category, one per such row, read from a permutation of those rows sorted latest first; a null category matches nothing |
| EventDao.FindByDateRange | src/main/java/com/volunteermanagement/dao/EventDAO.java:221-239 | exactly the events dated within the range with both ends included, one per such row, read from a permutation of those rows in date order; a null bound is a null-pointer failure |
| EventDao.Create | src/main/java/com/volunteermanagement/dao/EventDAO.java:39-76 | appends one row under the next key, leaves the others alone and returns the entity with that id; a null date, need or creator fails |
| EventDao.Edit | src/main/java/com/volunteermanagement/dao/EventDAO.java:78-108 | the `SET` list rewrites the editable columns and keeps the key, the registered count, the creator and the creation time |
| EventDao.Update | src/main/java/com/volunteermanagement/dao/EventDAO.java:78-108 | rewrites only the row with the entity's id; a missing id or an absent row is an error; keys stay valid |
| EventDao.UpdateRegistrationCount | src/main/java/com/volunteermanagement/dao/EventDAO.java:110-125 | changes only the registered count of that row; an absent key silently changes nothing |
| EventDao.Delete | src/main/java/com/volunteermanagement/dao/EventDAO.java:127-145 | removes exactly that row; an absent key is the "no rows affected" error |
| EventDao.ActiveEventsAreActive | src/main/java/com/volunteermanagement/dao/EventDAO.java:164-180 | every event from `findActiveEvents` satisfies the entity's `isActive` and is not past |
| EventDao.CreateThenFind | src/main/java/com/volunteermanagement/dao/EventDAO.java:39-76 | reading back a created event by its new key gives the returned entity with a zero count |
| EventDao.UpdateKeepsCounter | src/main/java/com/volunteermanagement/dao/EventDAO.java:78-108 | `update` never changes the registered count, the creator or the key |
| EventDao.DeleteThenFind | src/main/java/com/volunteermanagement/dao/EventDAO.java:127-145 | a deleted event is gone, and deleting it again fails |
| EventDao.DateRangeIsInclusive | src/main/java/com/volunteermanagement/dao/EventDAO.java:221-239 | events dated on either bound are included |
| EventRegistrationDao.OrderingsArePreorders | src/main/java/com/volunteermanagement/dao/EventRegistrationDAO.java:56-117 | both registration-time orderings are total preorders |
| EventRegistrationDao.FindById | src/main/java/com/volunteermanagement/dao/EventRegistrationDAO.java:17-34 | a registration is found iff a row has that key |
| EventRegistrationDao.FindByEventAndVolunteer | src/main/java/com/volunteermanagement/dao/EventRegistrationDAO.java:36-54 | some row for the pair, whatever its status, and none only when no row has the pair |
| EventRegistrationDao.FindByEventId | src/main/java/com/volunteermanagement/dao/EventRegistrationDAO.java:56-75 | exactly the event's rows, oldest first |
| EventRegistrationDao.FindByVolunteerId | src/main/java/com/volunteermanagement/dao/EventRegistrationDAO.java:77-96 | exactly the volunteer's rows, newest first |
| EventRegistrationDao.FindConfirmedByEventId | src/main/java/com/volunteermanagement/dao/EventRegistrationDAO.java:98-117 | exactly the event's CONFIRMED rows, oldest first |
| EventRegistrationDao.IsVolunteerRegistered | src/main/java/com/volunteermanagement/dao/EventRegistrationDAO.java:209-227 | holds iff some row for the pair is not CANCELLED, whatever other status it has |
| EventRegistrationDao.Register | src/main/java/com/volunteermanagement/dao/EventRegistrationDAO.java:119-154 | appends exactly one row with status "CONFIRMED" for the pair under a fresh key and leaves every existing row unchanged, whatever rows exist |
| EventRegistrationDao.UpdateStatus | src/main/java/com/volunteermanagement/dao/EventRegistrationDAO.java:156-170 | a null status is the null-pointer failure and nothing else is; otherwise stores the status's name in the row with that key and changes nothing else, and reports false and changes nothing when there is none |
| EventRegistrationDao.Cancel | src/main/java/com/volunteermanagement/dao/EventRegistrationDAO.java:172-174 | sets that row's status to "CANCELLED" and keeps its other columns, every other row, the row count and the key counter; false and no change for an absent key |
| EventRegistrationDao.Delete | src/main/java/com/volunteermanagement/dao/EventRegistrationDAO.java:176-188 | removes only the row with that key; false and no change when absent |
| EventRegistrationDao.CountConfirmedByEventId | src/main/java/com/volunteermanagement/dao/EventRegistrationDAO.java:190-207 | the number of the event's rows whose status is "CONFIRMED"; positive iff such a row exists |
| EventRegistrationDao.CountMatchesFind | src/main/java/com/volunteermanagement/dao/EventRegistrationDAO.java:190-207 | the confirmed count equals the length of the confirmed list |
| EventRegistrationDao.RegisterCounts | src/main/java/com/volunteermanagement/dao/EventRegistrationDAO.java:119-154 | after `register(e, v)` the confirmed count of e grows by one and every other event's count is unchanged |
| EventRegistrationDao.RegisteredAfterRegister | src/main/java/com/volunteermanagement/dao/EventRegistrationDAO.java:209-227 | `isVolunteerRegistered(e, v)` holds right after `register(e, v)` |
| EventRegistrationDao.DuplicateRegistrationAccepted | src/main/java/com/volunteermanagement/dao/EventRegistrationDAO.java:119-131 | registering the same pair twice succeeds with two distinct CONFIRMED rows and raises the count by two |
| EventRegistrationDao.CancelIdempotent | src/main/java/com/volunteermanagement/dao/EventRegistrationDAO.java:172-174 | cancelling twice leaves the same table and report as cancelling once |
| EventRegistrationDao.CancelAfterRegister | src/main/java/com/volunteermanagement/dao/EventRegistrationDAO.java:172-227 | for an event with no confirmed rows, cancelling a fresh registration brings the count back to 0 and `isVolunteerRegistered` back to false, but `findByEventAndVolunteer` still finds the row |
| EventRegistrationDao.RegisteredRowIsNotEntityConfirmed | src/main/java/com/volunteermanagement/dao/EventRegistrationDAO.java:119-154 | the upper-case status of a newly registered row is not `confirmed` for the entity |
| EventRegistrationDao.StatusIsComparedByName | src/main/java/com/volunteermanagement/dao/EventRegistrationDAO.java:156-207 | rows store the status name, so setting a status named "CONFIRMED" counts exactly as setting CONFIRMED, and the row then counts |
| UserDao.ToUser | src/main/java/com/volunteermanagement/dao/UserDAO.java:251-263 | reading a row gives the entity the stored hash as its password |
| UserDao.ToUsers | src/main/java/com/volunteermanagement/dao/UserDAO.java:195-208 | a result list maps every row, in order |
| UserDao.CreatedDescIsPreorder | src/main/java/com/volunteermanagement/dao/UserDAO.java:195-208 | newest-first ordering is a total preorder |
| UserDao.GetById | src/main/java/com/volunteermanagement/dao/UserDAO.java:56-70 | a user is returned iff a row has that key |
| UserDao.GetByUsername | src/main/java/com/volunteermanagement/dao/UserDAO.java:75-89 | a user with that username, and null only when none has it or the argument is null |
| UserDao.GetByEmail | src/main/java/com/volunteermanagement/dao/UserDAO.java:94-108 | a user with that e-mail, and null only when none has it or the argument is null |
| UserDao.GetAll | src/main/java/com/volunteermanagement/dao/UserDAO.java:195-208 | every user and only users of the table, read from all rows sorted newest first |
| UserDao.UsernameExists | src/main/java/com/volunteermanagement/dao/UserDAO.java:213-227 | holds iff `getByUsername` finds a user |
| UserDao.EmailExists | src/main/java/com/volunteermanagement/dao/UserDAO.java:232-246 | holds iff `getByEmail` finds a user |
| UserDao.Authenticate | src/main/java/com/volunteermanagement/dao/UserDAO.java:113-134 | null when no username or e-mail matches; a null password with a matching row is the null-pointer failure; a returned user matches the login and its stored hash verifies the password |
| UserDao.Create | src/main/java/com/volunteermanagement/dao/UserDAO.java:22-51 | appends one row storing the hash of the password, never the password, and returns the fresh key; a null password fails |
| UserDao.Update | src/main/java/com/volunteermanagement/dao/UserDAO.java:139-156 | rewrites the profile columns of that row only, never a password hash; reports whether the row existed |
| UserDao.UpdatePassword | src/main/java/com/volunteermanagement/dao/UserDAO.java:161-174 | stores the hash of the new password in that row only; reports whether the row existed |
| UserDao.Delete | src/main/java/com/volunteermanagement/dao/UserDAO.java:179-190 | removes only that row; false and no change when absent |
| UserDao.NewPasswordAuthenticates | src/main/java/com/volunteermanagement/dao/UserDAO.java:113-174 | after `updatePassword`, logging in with the new password succeeds when verify accepts its own hashes |
| UserDao.FirstAt | src/main/java/com/volunteermanagement/dao/UserDAO.java:113-134 | the login lookup returns the first matching row |
| UserDao.AuthenticateAtFirstMatch | src/main/java/com/volunteermanagement/dao/UserDAO.java:113-134 | with row k the first whose username or e-mail is the login: a null password fails with a null pointer, a password its hash verifies returns that row's user, any other gives null |
| UserDao.WrongPasswordRejected | src/main/java/com/volunteermanagement/dao/UserDAO.java:122-128 | a password the first matching row's hash rejects gives null |
| UserDao.UpdateKeepsPassword | src/main/java/com/volunteermanagement/dao/UserDAO.java:139-156 | after `update` the stored password of every user is what it was |
| UserDao.FirstIndex | src/main/java/com/volunteermanagement/dao/UserDAO.java:113-134 | the position of the first row the login matches |
| VolunteerDao.ToVolunteer | src/main/java/com/volunteermanagement/dao/VolunteerDAO.java:190-207 | reading a row copies key, user, skills and status; experience and interests are not read |
| VolunteerDao.ToVolunteers | src/main/java/com/volunteermanagement/dao/VolunteerDAO.java:190-207 | a result list maps every row, in order |
| VolunteerDao.SkillPattern | src/main/java/com/volunteermanagement/dao/VolunteerDAO.java:74-93 | the pattern is the skill between two `%`, with a null skill written as "null" |
| VolunteerDao.CreatedDescIsPreorder | src/main/java/com/volunteermanagement/dao/VolunteerDAO.java:55-93 | newest-first ordering is a total preorder |
| VolunteerDao.FindById | src/main/java/com/volunteermanagement/dao/VolunteerDAO.java:17-34 | a profile is found iff a row has that key |
| VolunteerDao.FindByUserId | src/main/java/com/volunteermanagement/dao/VolunteerDAO.java:36-53 | a profile of that user, and none only when the user has none |
| VolunteerDao.FindAllActive | src/main/java/com/volunteermanagement/dao/VolunteerDAO.java:55-72 | the entities of exactly the rows whose status is "ACTIVE", read from those rows sorted newest first |
| VolunteerDao.FindBySkill | src/main/java/com/volunteermanagement/dao/VolunteerDAO.java:74-93 | the entities of exactly the active rows whose skills match `%skill%`, read from those rows sorted newest first |
| VolunteerDao.Create | src/main/java/com/volunteermanagement/dao/VolunteerDAO.java:95-130 | appends one row under a fresh key and leaves the others; a null user id or status fails |
| VolunteerDao.Update | src/main/java/com/volunteermanagement/dao/VolunteerDAO.java:132-155 | rewrites skills, availability, emergency contact and phone and status of that row only, never its user; false when absent |
| VolunteerDao.UpdateStatus | src/main/java/com/volunteermanagement/dao/VolunteerDAO.java:160-174 | changes only the status of that row; false and no change when absent; a null status fails |
| VolunteerDao.Delete | src/main/java/com/volunteermanagement/dao/VolunteerDAO.java:176-188 | removes only that row; false and no change when absent |
| VolunteerDao.SkillResultsAreActive | src/main/java/com/volunteermanagement/dao/VolunteerDAO.java:74-93 | every skill-search result is in `findAllActive` |
| VolunteerDao.SkillSearchIsSubstringSearch | src/main/java/com/volunteermanagement/dao/VolunteerDAO.java:74-93 | for a wildcard-free skill, a row is found iff it is active and its skills contain the skill |
| VolunteerDao.NullSkillSearchesForNull | src/main/java/com/volunteermanagement/dao/VolunteerDAO.java:74-93 | a null skill searches for the text "null" |
| VolunteerDao.UnderscoreMatchesAnySkill | src/main/java/com/volunteermanagement/dao/VolunteerDAO.java:74-93 | "_" is a wildcard and matches every non-empty skills text |
| VolunteerDao.StatusDecidesActiveList | src/main/java/com/volunteermanagement/dao/VolunteerDAO.java:55-72 | after setting a profile's status, it is listed as active iff the status is "ACTIVE" |
| VolunteerDao.CreateThenFindByUser | src/main/java/com/volunteermanagement/dao/VolunteerDAO.java:36-53 | a user's only profile is found by user id right after `create` |
| ValidationUtil.EscapeChar | src/main/java/com/volunteermanagement/util/ValidationUtil.java:38-63 | each of the six special characters becomes an entity starting with '&' and ending with ';'; every other character is kept; no unsafe character is produced |
| ValidationUtil.EscapeHtml | src/main/java/com/volunteermanagement/util/ValidationUtil.java:34-64 | the output has none of `< > " ' /`; it is at least as long as the input, equally long iff no special character occurs |
| ValidationUtil.EscapeAppend | src/main/java/com/volunteermanagement/util/ValidationUtil.java:34-64 | escaping is per character: escaping a concatenation concatenates the escapes |
| ValidationUtil.UnescapeStep | src/main/java/com/volunteermanagement/util/ValidationUtil.java:38-63 | decoding one escaped character gives it back |
| ValidationUtil.UnescapeEscape | src/main/java/com/volunteermanagement/util/ValidationUtil.java:34-64 | escaping loses nothing: decoding the escape gives back the input |
| ValidationUtil.Sanitize | src/main/java/com/volunteermanagement/util/ValidationUtil.java:21-26 | null stays null; otherwise exactly the HTML escape of the trimmed input, which has only safe characters and no trimmable ends and decodes to the trimmed input |
| ValidationUtil.IsValidEmail | src/main/java/com/volunteermanagement/util/ValidationUtil.java:72-74 | holds iff the address is non-null and the e-mail pattern matches all of it |
| ValidationUtil.EmailSplitIsCanonical | src/main/java/com/volunteermanagement/util/ValidationUtil.java:11-12 | any match places the '@' at its first occurrence and the literal '.' at the last one |
| ValidationUtil.ValidEmailShape | src/main/java/com/volunteermanagement/util/ValidationUtil.java:11-12 | a valid address has exactly one '@', a non-empty local part over `[A-Za-z0-9+_.-]`, and at least two letters after the last '.' |
| ValidationUtil.IsValidPhone | src/main/java/com/volunteermanagement/util/ValidationUtil.java:82-88 | holds iff the number is non-null and exactly ten ASCII digits remain after deleting Java whitespace and '-' |
| ValidationUtil.CleanPhone | src/main/java/com/volunteermanagement/util/ValidationUtil.java:159-164 | digits only, no longer than the input, a character kept iff it is a digit of the input; a digits-only number comes back unchanged; null gives the empty string |
| ValidationUtil.CleanPhoneAppend | src/main/java/com/volunteermanagement/util/ValidationUtil.java:159-164 | cleaning works character by character: cleaning a concatenation concatenates the cleaned parts, so the digits keep their order |
| ValidationUtil.CleanPhoneIdempotent | src/main/java/com/volunteermanagement/util/ValidationUtil.java:159-164 | cleaning twice is cleaning once |
| ValidationUtil.ValidPhoneCleansToTenDigits | src/main/java/com/volunteermanagement/util/ValidationUtil.java:82-88 | a valid number cleans to its ten digits |
| ValidationUtil.IsEmpty | src/main/java/com/volunteermanagement/util/ValidationUtil.java:96-98 | holds iff the string is null or consists of characters up to U+0020 only |
| ValidationUtil.IsNotEmpty | src/main/java/com/volunteermanagement/util/ValidationUtil.java:106-108 | holds iff the string has a character above U+0020, the negation of `isEmpty` |
| ValidationUtil.ParseDecimal | src/main/java/com/volunteermanagement/util/ValidationUtil.java:145-151 | accepts exactly an optionally signed, non-empty run of ASCII digits; the value is at most 0 after a '-' and at least 0 otherwise |
| ValidationUtil.ParseInt | src/main/java/com/volunteermanagement/util/ValidationUtil.java:145-151 | the result is a 32-bit value; null or malformed text gives the default; well-formed text gives the value it spells when that fits in 32 bits, and the default when it does not |
| ValidationUtil.ParseSigned | src/main/java/com/volunteermanagement/util/ValidationUtil.java:145-151 | a sign (none, '+' or '-') followed by digits reads as the digits' value, negated after '-' |
| ValidationUtil.ZerosThenDecimal | src/main/java/com/volunteermanagement/util/ValidationUtil.java:145-151 | leading zeros before a decimal notation give a digit string of the same value |
| ValidationUtil.ParseDecimalValue | src/main/java/com/volunteermanagement/util/ValidationUtil.java:145-151 | a sign, any leading zeros and the decimal notation of n read as n, negated after '-' |
| ValidationUtil.ParseIntValue | src/main/java/com/volunteermanagement/util/ValidationUtil.java:145-151 | `parseInt` of a sign, any leading zeros and the notation of n gives that signed value when it fits in 32 bits and the default otherwise, so "+5", "007" and "-0" read as 5, 7 and 0 |
| ValidationUtil.ParseIntRoundTrip | src/main/java/com/volunteermanagement/util/ValidationUtil.java:145-151 | parsing the decimal notation of any 32-bit value gives the value back |
| ValidationUtil.ParseIntRejects | src/main/java/com/volunteermanagement/util/ValidationUtil.java:145-151 | empty text, a lone sign and a value just beyond the 32-bit range give the default |
| PasswordUtil.IsValidPassword | src/main/java/com/volunteermanagement/util/PasswordUtil.java:39-41 | a null password is invalid; a valid one has at least six characters |
| PasswordUtil.OnlyLengthMatters | src/main/java/com/volunteermanagement/util/PasswordUtil.java:39-41 | passwords of equal length get the same verdict |
| PasswordUtil.SixSpacesAreValid | src/main/java/com/volunteermanagement/util/PasswordUtil.java:39-41 | no character class is required: six spaces pass |
| PasswordUtil.AppendKeepsValid | src/main/java/com/volunteermanagement/util/PasswordUtil.java:39-41 | appending to a valid password keeps it valid |
| AuthenticationFilter.DoFilter | src/main/java/com/volunteermanagement/filter/AuthenticationFilter.java:25-49 | the chain runs iff a session exists with a `userId` attribute; a redirect goes to the context path plus "/auth/login" |
| AuthenticationFilter.PathIsIrrelevant | src/main/java/com/volunteermanagement/filter/AuthenticationFilter.java:31-35 | the decision does not depend on the request path, which is only logged |
| AuthenticationFilter.AnyUserIdPasses | src/main/java/com/volunteermanagement/filter/AuthenticationFilter.java:38-43 | any `userId` value, even 0 or "", lets the request through |
| AuthorizationFilter.RoleOf | src/main/java/com/volunteermanagement/filter/AuthorizationFilter.java:40 | reading the role fails with a cast error exactly when the attribute is present and not a string |
| AuthorizationFilter.DoFilter | src/main/java/com/volunteermanagement/filter/AuthorizationFilter.java:26-52 | no session gives 403 "Access denied"; the chain runs iff the role is a string equal to "admin" up to case; a non-string role is a cast failure; a string role other than admin gets 403 "Admin access required"; every error sent is a 403 |
| AuthorizationFilter.StringRoleDecides | src/main/java/com/volunteermanagement/filter/AuthorizationFilter.java:40-51 | with a string role, the chain runs iff the role lower-cased is "admin", and otherwise the answer is 403 "Admin access required" |
| AuthorizationFilter.MissingRoleIsRefused | src/main/java/com/volunteermanagement/filter/AuthorizationFilter.java:45-51 | a session with no role gets 403 "Admin access required" |
| AuthorizationFilter.UpperCaseAdminIsAdmitted | src/main/java/com/volunteermanagement/filter/AuthorizationFilter.java:45-47 | the role "ADMIN" is admitted |
| AppJs.ScanFromSplit | src/main/webapp/js/app.js:45-48 | any match of the e-mail pattern passes the single left-to-right reading |
| AppJs.SplitFromScan | src/main/webapp/js/app.js:45-48 | the single reading finds a match of the pattern whenever it succeeds |
| AppJs.IsValidEmail | src/main/webapp/js/app.js:45-48 | holds iff `/^[^\s@]+@[^\s@]+\.[^\s@]+$/` matches all of the string |
| AppJs.EmailShape | src/main/webapp/js/app.js:45-48 | a valid address has no whitespace, exactly one '@', and after it a '.' with a character on each side |
| AppJs.IsValidUsername | src/main/webapp/js/app.js:51-54 | a valid username has 3 to 20 characters and no whitespace |
| AppJs.UsernameIsTrimmed | src/main/webapp/js/app.js:51-54 | trimming a valid username changes nothing |
| AppJs.IsValidPhone | src/main/webapp/js/app.js:57-60 | a valid number has at least ten characters and no letter |
| AppJs.TenSpacesAreAPhone | src/main/webapp/js/app.js:57-60 | no digit is needed: ten spaces pass |
| AppJs.Score | src/main/webapp/js/app.js:66-76 | the score is 0 for the empty password, at most 6, at least 1 for a non-empty password, and at most 4 below eight characters |
| AppJs.GetPasswordStrength | src/main/webapp/js/app.js:63-81 | an empty password is ("none", 0); otherwise the score is `Score(p)`, 1 to 6, weak iff at most 2, medium iff 3 or 4, strong iff at least 5 |
| AppJs.AnyAppend | src/main/webapp/js/app.js:73-76 | a character class found in a password is still found after appending |
| AppJs.AnySnoc | src/main/webapp/js/app.js:73-76 | a character class occurs in `p + [c]` iff it occurs in `p` or contains `c` |
| AppJs.ScoreStep | src/main/webapp/js/app.js:66-76 | appending one character adds 1 when the length reaches 8 or 12, plus 1 when the character brings a class (lower, upper, digit, symbol) absent before, and nothing else |
| AppJs.AllCriteriaAreStrong | src/main/webapp/js/app.js:63-81 | twelve or more characters with all four classes give ("strong", 6) |
| AppJs.ScoreMonotone | src/main/webapp/js/app.js:69-76 | appending characters never lowers the score |
| AppJs.IsValidPassword | src/main/webapp/js/app.js:84-90 | valid iff at least eight characters with an ASCII lower-case letter, an ASCII upper-case letter and a digit |
| AppJs.ValidPasswordIsNotWeak | src/main/webapp/js/app.js:69-90 | a valid password scores at least 4, so it is medium or strong |
| AppJs.RuleList | src/main/webapp/js/app.js:98-147 | `validateField` checks eight rules in source order, each with its own message |
| AppJs.FirstFailure | src/main/webapp/js/app.js:93-150 | no message iff every applicable rule passes; otherwise the message of the first applicable rule that fails |
| AppJs.FirstFailureAt | src/main/webapp/js/app.js:93-150 | the first applicable rule that fails is unique, so it names the message |
| AppJs.CascadeStaysFailed | src/main/webapp/js/app.js:105-147 | once a rule has failed, the later checks are skipped and the message stays |
| AppJs.CascadeIsFirstFailure | src/main/webapp/js/app.js:98-147 | running the checks in order gives the first failure's verdict |
| AppJs.ValidateField | src/main/webapp/js/app.js:93-150 | the verdict on the trimmed value is the first failing rule's message, or valid |
| AppJs.ValidIffNoMessage | src/main/webapp/js/app.js:93-150 | the field is valid iff the message is empty |
| AppJs.EmptyOptionalFieldFailsMinLength | src/main/webapp/js/app.js:128-132 | an empty optional field with a positive minimum length is rejected with the minimum-length message |
| AppJs.EmptyValueSkipsFormatChecks | src/main/webapp/js/app.js:105-126 | an empty value never gets an e-mail, username, password or phone message |
| AppJs.TrimmedInputSameVerdict | src/main/webapp/js/app.js:94 | trimming the input first changes nothing |
| MainJs.ValidateEmail | src/main/webapp/js/main.js:83-86 | gives the app.js verdict on every input, and holds iff the single left-to-right reading of the pattern succeeds |
| MainJs.ValidatePhone | src/main/webapp/js/main.js:91-95 | a valid number has at least ten characters |
| MainJs.SeparatorsDoNotMatter | src/main/webapp/js/main.js:92 | inserting whitespace or hyphens anywhere never changes the verdict |
| MainJs.DigitCountDecides | src/main/webapp/js/main.js:91-95 | on a string of ASCII digits alone, the number is valid iff there are exactly ten |
| MainJs.BracketOrPlusRejects | src/main/webapp/js/main.js:92-94 | a '(', ')' or '+' anywhere makes the number invalid |
| MainJs.PhoneImpliesAppPhone | src/main/webapp/js/main.js:91-95 | every number main.js accepts, app.js accepts too |
| MainJs.BlankIsTrimmedEmpty | src/main/webapp/js/main.js:44 | a value is blank iff it trims to the empty string |
| MainJs.CheckInput | src/main/webapp/js/main.js:43-74 | an input fails iff it is blank, or a non-empty email or tel value fails its check, or `confirm_password` differs from the password; a failed input shows a message |
| MainJs.ValidateForm | src/main/webapp/js/main.js:39-78 | every required input is examined; the form is valid iff no input fails; each input shows a message iff it fails |
| PhpHelpers.SetFlashMessage | helpers/functions.php:111-113 | the key holds the message and no other key changes |
| PhpHelpers.GetFlashMessage | helpers/functions.php:96-103 | a set message is returned and removed; an absent or null entry gives null and leaves the session; no other key changes |
| PhpHelpers.FlashIsReadOnce | helpers/functions.php:96-113 | a message set and then read is gone, and a second read gives null |
| PhpHelpers.NullFlashIsNotRead | helpers/functions.php:96-113 | a null message is never read back |
| PhpHelpers.IsLoggedIn | helpers/functions.php:36-38 | holds iff `user_id` is present and not PHP-falsy |
| PhpHelpers.FalsyUserIdsAreLoggedOut | helpers/functions.php:36-38 | user ids 0, "0" and "" count as logged out |
| PhpHelpers.IsAdmin | helpers/functions.php:45-47 | holds iff the session has a role and it is the string "admin" exactly |
| PhpHelpers.AdminIsExactlyTheString | helpers/functions.php:45-47 | whatever else the session holds, a role makes the user admin iff it is the string "admin"; the boolean true does not |
| PhpHelpers.UpperCaseAdminIsNotAdmin | helpers/functions.php:45-47 | "ADMIN" is not admin under the strict comparison |
| PhpHelpers.RequireLogin | helpers/functions.php:52-57 | proceeds iff logged in; otherwise sets the error and redirects to the login page |
| PhpHelpers.RequireAdmin | helpers/functions.php:62-68 | proceeds iff logged in and admin, leaving the session unchanged |
| PhpHelpers.RequireAdminOutcomes | helpers/functions.php:26-68 | logged out: login page with the login message, even for the admin role; logged-in non-admin: dashboard with the admin message; admin: no effect |
| PhpHelpers.ValidatePhone | helpers/functions.php:131-136 | a valid number has at least ten characters |
| PhpHelpers.StrayCharacterRejects | helpers/functions.php:133-135 | any character other than a digit, whitespace or '-' makes the number invalid |
| UrlPath.Split | src/main/webapp/js/events.js:57 | splitting at '/' gives at least one piece, none containing '/' |
| UrlPath.SplitAfter | src/main/webapp/js/events.js:57 | a slash-free head followed by '/' splits off as the first piece, the rest splitting as before |
| UrlPath.SplitAfterTwo | src/main/webapp/js/events.js:57 | two slash-free heads, each followed by '/', split off as the first two pieces |
| UrlPath.JoinSplit | src/main/webapp/js/events.js:57-60 | joining the pieces with '/' gives the path back |
| UrlPath.SplitJoin | src/main/webapp/js/events.js:57-60 | splitting a join of slash-free pieces gives the pieces back |
| UrlPath.JoinPrefix | src/main/webapp/js/events.js:60 | the join of leading pieces is a prefix of the join of all |
| EventsJs.GetBaseUrl | src/main/webapp/js/events.js:55-63 | the base always ends with '/'; without the project segment it is "/COMP2140_Software_Project/" |
| EventsJs.LeadingSegments | src/main/webapp/js/events.js:57-60 | the join of leading segments splits back into them and is a prefix of the path |
| EventsJs.ShapeOf | src/main/webapp/js/events.js:57-60 | for any marker that occurs among the segments of a path, the base is the segments up to the marker and `keep` more, joined, plus '/', and that join spells the head of the path |
| EventsJs.BaseUrlShape | src/main/webapp/js/events.js:57-60 | for a path made of slash-free segments containing the project segment at first position k, the base is the first k+2 segments (fewer if the path is shorter) joined plus '/', and the join spells the head of the path |
| EventsJs.RootOf | src/main/webapp/js/events.js:58-60 | on a path `/seg/...`, keeping one segment from `seg` gives `/seg/` and keeping two gives `/seg/<next>/` |
| EventsJs.IntendedBaseUrl | src/main/webapp/js/events.js:55-63 | the corrected base: up to and including the project segment, then '/' |
| EventsJs.ProjectPageSegments | src/main/webapp/js/events.js:57 | a page `/COMP2140_Software_Project/<rest>` splits into an empty piece, the project segment and the pieces of the rest |
| EventsJs.IntendedBaseIsProjectRoot | src/main/webapp/js/events.js:55-63 | the corrected base of every page `/COMP2140_Software_Project/<rest>` is "/COMP2140_Software_Project/", whatever the rest |
| EventsJs.BaseUrlKeepsExtraSegment | src/main/webapp/js/events.js:60 | as written, every page `/COMP2140_Software_Project/<rest>` gets the first piece of the rest added to its base (a directory, a file name, or an empty piece for the root itself), so it never equals the corrected base |
| EventsJs.GetAll | src/main/webapp/js/events.js:10-17 | the values of a query parameter, never more than the pairs |
| EventsJs.Delete | src/main/webapp/js/events.js:14-16 | deleting a parameter removes all its values and keeps every other parameter's values |
| EventsJs.Set | src/main/webapp/js/events.js:12 | after setting, the parameter has exactly the one value; others are untouched |
| EventsJs.FilterByCategory | src/main/webapp/js/events.js:9-18 | no status; the category is the one chosen, or absent for an empty choice; other parameters untouched |
| EventsJs.FilterByStatus | src/main/webapp/js/events.js:23-32 | no category; the status is the one chosen, or absent for an empty choice; other parameters untouched |
| EventsJs.FiltersReplaceEachOther | src/main/webapp/js/events.js:9-32 | choosing a category drops the status filter, and the other way round |
| EventsJs.SearchEvents | src/main/webapp/js/events.js:78-86 | a card is visible iff its lower-cased text contains the lower-cased term |
| EventsJs.EmptyTermShowsAll | src/main/webapp/js/events.js:78-86 | an empty term shows every card |
| EventsJs.ShorterTermShowsMore | src/main/webapp/js/events.js:78-86 | every card visible for a term stays visible for any piece of it |
| EventsJs.ValidateEventForm | src/main/webapp/js/events.js:91-113 | two non-empty times with the end not after the start are rejected with the time message before any date check; the form is accepted iff neither that nor a past date holds; any other rejection is the past-date message for a past date; without the time clash a past date gets the past-date message |
| EventsJs.TwoDigitOrder | src/main/webapp/js/events.js:97 | two-digit numbers compare as their digit strings |
| EventsJs.TimeOrderIsClockOrder | src/main/webapp/js/events.js:97 | for `HH:MM` values the string comparison is the clock order |
| EventsJs.BlankTimeSkipsTimeCheck | src/main/webapp/js/events.js:91-113 | when either time is blank the times are not compared: the result depends only on whether the date is past |
| EventsJs.EventFormClockOrder | src/main/webapp/js/events.js:91-113 | for `HH:MM` times, the time message appears iff the end is not later on the clock than the start, and the form is accepted iff the times are in clock order and the date is not past |
| VolunteersJs.ToggleStatus | src/main/webapp/js/volunteers.js:18-20 | "active" becomes "inactive" and every other status "active"; the action is "activate" iff the new status is "active" |
| VolunteersJs.ToggleTwice | src/main/webapp/js/volunteers.js:19 | toggling "active" or "inactive" twice gives it back |
| VolunteersJs.UnknownStatusBecomesActive | src/main/webapp/js/volunteers.js:19-20 | any status other than exactly "active" becomes "active" with the action "activate" |
| VolunteersJs.ToggleSubmit | src/main/webapp/js/volunteers.js:18-27 | the form is submitted iff the user confirms; it carries the volunteer and the status "inactive" when the current one is "active", "active" otherwise |
| VolunteersJs.DeleteVolunteer | src/main/webapp/js/volunteers.js:32-36 | navigates iff the user confirms, to the page's base URL followed by `controllers/VolunteerController.php?action=delete&id=` and the id |
| VolunteersJs.DeleteUrlStartsWithBase | src/main/webapp/js/volunteers.js:34 | the delete address starts with the page's base URL |
| VolunteersJs.FilterVolunteersByStatus | src/main/webapp/js/volunteers.js:53-65 | one verdict per row; an empty filter shows every row |
| VolunteersJs.FilterMatchesIgnoringCase | src/main/webapp/js/volunteers.js:57-63 | with a filter chosen, a row is shown iff its trimmed badge equals the filter up to ASCII case |
| VolunteersJs.PaddedStatusHidesAll | src/main/webapp/js/volunteers.js:61-62 | the filter is not trimmed: one starting with whitespace hides every row |
| VolunteersJs.FirstBlank | src/main/webapp/js/volunteers.js:87-114 | the first field that trims to nothing, every earlier field being non-blank |
| VolunteersJs.ValidateProfileForm | src/main/webapp/js/volunteers.js:86-115 | the form submits iff none of the four fields is blank |
| VolunteersJs.ProfileAlertIsFirstBlank | src/main/webapp/js/volunteers.js:92-114 | the alert is the message of the first blank field in the order skills, availability, emergency contact, emergency phone |
| CrossLanguage.JavaPhoneIsPhpPhone | helpers/functions.php:131-136 | the PHP and Java phone rules give the same verdict on every string |
| CrossLanguage.JavaPhoneIsFormPhone | src/main/webapp/js/main.js:91-95 | every number the Java rule accepts, main.js accepts too |
| CrossLanguage.FormPhoneIsJavaPhoneOnAsciiSpace | src/main/webapp/js/main.js:91-95 | on input whose whitespace is all Java whitespace, main.js and the Java rule give the same verdict, so main.js keeps the Java rule's exactly-ten-digits requirement |
| CrossLanguage.NoBreakSpaceSplitsPhoneRules | src/main/webapp/js/main.js:92 | ten digits plus a no-break space pass main.js but fail the Java rule |
| CrossLanguage.JavaEmailSplitIsAppSplit | src/main/webapp/js/app.js:46 | every match of the Java e-mail pattern is a match of the app.js pattern |
| CrossLanguage.JavaEmailIsAppEmail | src/main/webapp/js/app.js:45-48 | every address the Java rule accepts, app.js accepts too |
| CrossLanguage.OneLetterDomainSplitsEmailRules | src/main/java/com/volunteermanagement/util/ValidationUtil.java:11-12 | "a@b.c" passes app.js but not the Java rule, which needs two letters after the last '.' |
| CrossLanguage.AppPasswordIsServerPassword | src/main/java/com/volunteermanagement/util/PasswordUtil.java:39-41 | every password app.js accepts, the server accepts too |
| Text.Strip | src/main/webapp/js/app.js:94 | trimming gives a piece of the input with no trimmable ends; empty iff every character is trimmable |
| Text.StripIdempotent | src/main/webapp/js/app.js:94 | trimming twice is trimming once |
| Text.LowerTrimCommute | src/main/webapp/js/volunteers.js:61 | lower-casing and trimming commute |
| Text.EqualsIgnoreCaseIsLowerEquality | src/main/java/com/volunteermanagement/model/User.java:109-115 | `equalsIgnoreCase` holds iff the lower-cased strings are equal |
| Text.IgnoreCaseWithLowerWord | src/main/java/com/volunteermanagement/model/User.java:109-115 | comparing a lower-case word ignoring case holds iff the other string lower-cases to the word |
| Text.Keep | src/main/java/com/volunteermanagement/util/ValidationUtil.java:159-164 | deleting a character class keeps only characters outside it, never lengthening the text |
| Text.KeepMembers | src/main/java/com/volunteermanagement/util/ValidationUtil.java:159-164 | a character survives the deletion iff it occurs and is outside the class |
| Text.IntToDecimal | src/main/webapp/js/app.js:131 | the decimal notation of a number: digits, after a '-' for a negative one |
| Text.DecimalRoundTrip | src/main/java/com/volunteermanagement/util/ValidationUtil.java:145-151 | reading back a natural number's decimal notation gives the number |
| Text.ZerosValue | src/main/java/com/volunteermanagement/util/ValidationUtil.java:145-151 | a run of zeros is worth 0 |
| Text.LeadingZeros | src/main/java/com/volunteermanagement/util/ValidationUtil.java:145-151 | leading zeros do not change a digit string's value |

## Left out

- JDBC mechanics are left out: connections, statement binding, the SQL exceptions the finders log and swallow, and the HikariCP pool. A statement that affects no row becomes `false` or the `NoRowsAffected` error. A finder that would throw on a database error is not modelled.
- BCrypt hashing and verification (`PasswordUtil.hashPassword`/`verifyPassword`) are parameters of the user-table functions, because they are library code.
- Database defaults for `created_at`, `updated_at` and `registered_at` are a `now` parameter. Ties between equal sort keys may come back in any order, as MySQL leaves them unspecified.
- A single-row read (`Query.First`, and through it `UserDao.Authenticate`, `UserDao.GetByUsername`, `UserDao.GetByEmail`, `VolunteerDao.FindByUserId` and `EventRegistrationDao.FindByEventAndVolunteer`) takes the first matching row in storage order. These queries have no ORDER BY, so MySQL does not promise which matching row comes first; the model fixes one choice.
- EventRegistrationDao.Register: returns the stored row, with `registeredAt` set to `now`. The Java object that `register` returns never has `registeredAt` set; only the stored row gets the database default.
- MySQL's collation makes `=` and `LIKE` case-insensitive by default. The model compares exactly, because the collation is a deployment setting.
- Clocks are parameters: `LocalDate.now()` becomes "today", and the date comparison of `validateEventForm` becomes a boolean.
- Case folding is ASCII-only, because the Unicode tables of `toLowerCase` and `equalsIgnoreCase` are library data. A character is a Unicode scalar value: Java and JavaScript count UTF-16 code units and PHP counts bytes, so lengths agree only inside the Basic Multilingual Plane (Java, JavaScript) or ASCII (PHP).
- URL serialisation and percent-encoding in `filterByCategory`/`filterByStatus` are left out. The parameter list is modelled, not the text of the address.
- PHP floats and objects are not session values. The other PHP-helper functions (`sanitize`, `validateEmail`, `generateRandomString` and the date formatters) depend on library defaults or randomness.
- The DOM is left out: event listeners, `showError`/`clearError` markup, toasts, modals, Ajax and the password widgets. Only the decisions they act on are modelled. `viewVolunteer`, `deleteEvent` and `cancelRegistration` are not modelled, because they only show an alert or navigate.
- The servlets, `CharacterEncodingFilter`, the context listener and the configuration files are left out: they are templates, routing and I/O around the modelled validators.
- Date formatting in `ValidationUtil.formatDate`/`formatDateTime` is left out, because it is library formatting.
- AppJs.IsValidUsername: states length and absence of whitespace but not the full `[A-Za-z0-9_]` class, which the function's own body already spells out.
- AppJs.IsValidPhone: states length and absence of letters rather than the full character class.
- MainJs.ValidatePhone: its contract states only the length bound. The ten-digit rule is stated by `DigitCountDecides` (digits alone: valid iff exactly ten) and `CrossLanguage.FormPhoneIsJavaPhoneOnAsciiSpace` (the same verdict as the Java rule when every whitespace character is ASCII). `SeparatorsDoNotMatter` and `BracketOrPlusRejects` state that separators are ignored and other characters reject.
- PhpHelpers.ValidatePhone: its contract states only the length bound; `StrayCharacterRejects` and `CrossLanguage.JavaPhoneIsPhpPhone` state the rest.
- PasswordUtil.IsValidPassword: counts Unicode scalar values where Java's `length()` counts UTF-16 code units, so three characters outside the Basic Multilingual Plane make a valid password in Java (length 6) and an invalid one in the model (length 3).
- AppJs.IsValidPassword: counts Unicode scalar values where JavaScript's `length` counts UTF-16 code units.
- ValidationUtil.ParseInt: reads ASCII digits only, while `Integer.parseInt` also accepts the other Unicode decimal digits (Arabic-Indic digits, for example), which the model answers with the default.

## Findings

| source | as written | input that shows it | evidently intended | confidence | as-written member | corrected member |
|---|---|---|---|---|---|---|
| src/main/webapp/js/events.js:60 | the base keeps `index + 2` path segments, so one segment past the project directory is kept | the page `/COMP2140_Software_Project/views/events.php` gets the base `/COMP2140_Software_Project/views/`, and the delete link goes to `.../views/controllers/EventController.php`; a page directly under the root, `/COMP2140_Software_Project/index.php`, gets `/COMP2140_Software_Project/index.php/` | keep `index + 1` segments, giving `/COMP2140_Software_Project/`, the fallback value and the path of `BASE_URL` in config/config.php:16 | medium, not executed | EventsJs.BaseUrlKeepsExtraSegment | EventsJs.IntendedBaseIsProjectRoot |

=== FILE: app_js.dfy ===
/** The `Validator` object of app.js: the browser-side e-mail, username,
    phone and password checks, password scoring, and `validateField`. */
module AppJs {
  import opened Text

  // ------------------------------------------------------------------ email

  /** `[^\s@]` of an ECMAScript regular expression. */
  predicate IsEmailChar(c: char) { !IsJsSpace(c) && c != '@' }

  /** One way for `/^[^\s@]+@[^\s@]+\.[^\s@]+$/` to match all of `s`: the
      '@' at `a` and the literal '.' at `d`. */
  predicate EmailSplit(s: Str, a: int, d: int) {
    && 0 < a && a + 1 < d && d + 1 < |s|
    && s[a] == '@' && s[d] == '.'
    && All(IsEmailChar, s[..a]) && All(IsEmailChar, s[a + 1..d]) && All(IsEmailChar, s[d + 1..])
  }

  /** The regular expression, as the existence of a split. */
  predicate EmailPattern(s: Str) {
    exists a, d | 0 <= a < |s| && 0 <= d < |s| :: EmailSplit(s, a, d)
  }

  /** A single left-to-right reading of the pattern: the '@' must be the
      first one, nothing after it may be whitespace or '@', and some '.'
      strictly inside the part after it. */
  predicate EmailScan(s: Str) {
    var a := IndexOf(s, '@');
    && 0 < a && a + 4 <= |s|
    && All(IsEmailChar, s[..a]) && All(IsEmailChar, s[a + 1..])
    && '.' in s[a + 2..|s| - 1]
  }

  lemma ScanFromSplit(s: Str, a: int, d: int)
    requires EmailSplit(s, a, d)
    ensures EmailScan(s)
  {
    forall i | 0 <= i < a ensures s[i] != '@' {
      assert s[..a][i] == s[i];
    }
    assert IndexOf(s, '@') == a;
    var tail, left, right := s[a + 1..], s[a + 1..d], s[d + 1..];
    forall i | 0 <= i < |tail| ensures IsEmailChar(tail[i]) {
      var j := a + 1 + i;
      if j < d {
        assert left[i] == s[j];
      } else if j > d {
        assert right[j - d - 1] == s[j];
      }
    }
    assert s[a + 2..|s| - 1][d - a - 2] == '.';
  }

  lemma SplitFromScan(s: Str)
    requires EmailScan(s)
    ensures EmailPattern(s)
  {
    var a := IndexOf(s, '@');
    var t := s[a + 2..|s| - 1];
    var k :| 0 <= k < |t| && t[k] == '.';
    var d := a + 2 + k;
    assert s[d] == '.';
    var tail, left, right := s[a + 1..], s[a + 1..d], s[d + 1..];
    forall i | 0 <= i < |left| ensures IsEmailChar(left[i]) {
      assert left[i] == tail[i];
    }
    forall i | 0 <= i < |right| ensures IsEmailChar(right[i]) {
      assert right[i] == tail[d - a + i];
    }
    assert EmailSplit(s, a, d);
  }

  /** `Validator.isValidEmail`. */
  function IsValidEmail(s: Str): (r: bool)
    ensures r <==> EmailPattern(s)
  {
    if EmailScan(s) then
      SplitFromScan(s);
      true
    else
      assert !EmailPattern(s) by {
        if EmailPattern(s) {
          var a, d :| 0 <= a < |s| && 0 <= d < |s| && EmailSplit(s, a, d);
          ScanFromSplit(s, a, d);
        }
      }
      false
  }

  /** A matching address has no whitespace, exactly one '@', and after it a
      '.' with at least one character on each side. */
  lemma EmailShape(s: Str)
    requires IsValidEmail(s)
    ensures forall i :: 0 <= i < |s| ==> !IsJsSpace(s[i])
    ensures exists a :: OnlyAt(s, '@', a) && DotAfter(s, a)
  {
    var a, d :| 0 <= a < |s| && 0 <= d < |s| && EmailSplit(s, a, d);
    forall i | 0 <= i < |s| ensures !IsJsSpace(s[i]) && (s[i] == '@' ==> i == a) {
      if i < a {
        assert s[..a][i] == s[i];
      } else if a < i < d {
        assert s[a + 1..d][i - a - 1] == s[i];
      } else if d < i {
        assert s[d + 1..][i - d - 1] == s[i];
      }
    }
    assert OnlyAt(s, '@', a);
    assert a + 1 < d < |s| - 1 && s[d] == '.';
    assert DotAfter(s, a);
  }

  /** Some '.' after position `a + 1` and before the last character. */
  predicate DotAfter(s: Str, a: int) {
    exists d :: 0 <= a + 1 < d < |s| - 1 && s[d] == '.'
  }

  // --------------------------------------------------------------- username

  /** `[a-zA-Z0-9_]` */
  predicate IsWordChar(c: char) { IsAlnum(c) || c == '_' }

  /** `Validator.isValidUsername`: `/^[a-zA-Z0-9_]{3,20}$/`. */
  function IsValidUsername(s: Str): (r: bool)
    ensures r ==> 3 <= |s| <= 20
    ensures r ==> forall i :: 0 <= i < |s| ==> !IsJsSpace(s[i])
  {
    3 <= |s| <= 20 && All(IsWordChar, s)
  }

  /** A valid username is its own trimmed value, so `validateField`'s
      trimming never turns an invalid username into a valid one or back. */
  lemma UsernameIsTrimmed(s: Str)
    requires IsValidUsername(s)
    ensures JsTrim(s) == s
  {
    assert StripStart(IsJsSpace, s) == s;
    assert StripEnd(IsJsSpace, s) == s;
  }

  // ------------------------------------------------------------------ phone

  /** `[\d\s\-\+\(\)]`: ECMAScript `\d` is the ten ASCII digits. */
  predicate IsPhoneChar(c: char) {
    IsDigit(c) || IsJsSpace(c) || c == '-' || c == '+' || c == '(' || c == ')'
  }

  /** `Validator.isValidPhone`: `/^[\d\s\-\+\(\)]{10,}$/`. */
  function IsValidPhone(s: Str): (r: bool)
    ensures r ==> |s| >= 10
    ensures r ==> forall i :: 0 <= i < |s| ==> !IsLetter(s[i])
  {
    |s| >= 10 && All(IsPhoneChar, s)
  }

  /** No digit is needed: ten spaces pass. */
  lemma TenSpacesAreAPhone()
    ensures IsValidPhone("          ")
  {
  }

  // --------------------------------------------------------------- password

  /** `[^a-zA-Z0-9]` */
  predicate IsSymbol(c: char) { !IsAlnum(c) }

  /** The `{ strength, score }` object `getPasswordStrength` returns. */
  datatype Strength = Strength(strength: Str, score: nat)

  /** The six criteria, one point each. */
  function Score(p: Str): (n: nat)
    ensures n <= 6
    ensures p == [] ==> n == 0
    ensures p != [] ==> n >= 1
    ensures |p| < 8 ==> n <= 4
  {
    assert p != [] ==> IsLowerAscii(p[0]) || IsUpperAscii(p[0]) || IsDigit(p[0]) || IsSymbol(p[0]);
    (if |p| >= 8 then 1 else 0) + (if |p| >= 12 then 1 else 0)
    + (if Any(IsLowerAscii, p) then 1 else 0) + (if Any(IsUpperAscii, p) then 1 else 0)
    + (if Any(IsDigit, p) then 1 else 0) + (if Any(IsSymbol, p) then 1 else 0)
  }

  /** `Validator.getPasswordStrength`. */
  function GetPasswordStrength(p: Str): (r: Strength)
    ensures p == [] ==> r == Strength("none", 0)
    ensures p != [] ==> 1 <= r.score <= 6
    ensures p != [] ==> r.score == Score(p)
    ensures r.strength == "weak" <==> p != [] && r.score <= 2
    ensures r.strength == "medium" <==> 3 <= r.score <= 4
    ensures r.strength == "strong" <==> r.score >= 5
  {
    if p == [] then Strength("none", 0)
    else
      var n := Score(p);
      if n <= 2 then Strength("weak", n)
      else if n <= 4 then Strength("medium", n)
      else Strength("strong", n)
  }

  lemma AnyAppend(q: char -> bool, p: Str, more: Str)
    requires Any(q, p)
    ensures Any(q, p + more)
  {
    var i :| 0 <= i < |p| && q(p[i]);
    assert (p + more)[i] == p[i];
  }

  lemma AnySnoc(q: char -> bool, p: Str, c: char)
    ensures Any(q, p + [c]) <==> Any(q, p) || q(c)
  {
    if Any(q, p) { AnyAppend(q, p, [c]); }
    if q(c) { assert (p + [c])[|p|] == c; }
    if Any(q, p + [c]) {
      var i :| 0 <= i < |p + [c]| && q((p + [c])[i]);
      if i < |p| { assert (p + [c])[i] == p[i]; }
    }
  }

  /** `c` is the first character of its class (lower-case, upper-case,
      digit or symbol) after `p`. */
  predicate NewClass(p: Str, c: char) {
    || (IsLowerAscii(c) && !Any(IsLowerAscii, p))
    || (IsUpperAscii(c) && !Any(IsUpperAscii, p))
    || (IsDigit(c) && !Any(IsDigit, p))
    || (IsSymbol(c) && !Any(IsSymbol, p))
  }

  /** Typing one more character earns a point for reaching 8 and for
      reaching 12 characters, and a point for a character class seen for
      the first time; nothing else moves the score. With `Score([]) == 0`
      this fixes the score of every password. */
  lemma ScoreStep(p: Str, c: char)
    ensures Score(p + [c]) == Score(p)
      + (if |p| + 1 == 8 || |p| + 1 == 12 then 1 else 0)
      + (if NewClass(p, c) then 1 else 0)
  {
    AnySnoc(IsLowerAscii, p, c);
    AnySnoc(IsUpperAscii, p, c);
    AnySnoc(IsDigit, p, c);
    AnySnoc(IsSymbol, p, c);
  }

  /** Twelve characters or more with all four classes: the full score. */
  lemma AllCriteriaAreStrong(p: Str)
    requires |p| >= 12
    requires Any(IsLowerAscii, p) && Any(IsUpperAscii, p) && Any(IsDigit, p) && Any(IsSymbol, p)
    ensures GetPasswordStrength(p) == Strength("strong", 6)
  {
  }

  /** Appending characters never lowers the score. */
  lemma ScoreMonotone(p: Str, more: Str)
    ensures GetPasswordStrength(p).score <= GetPasswordStrength(p + more).score
  {
    if Any(IsLowerAscii, p) { AnyAppend(IsLowerAscii, p, more); }
    if Any(IsUpperAscii, p) { AnyAppend(IsUpperAscii, p, more); }
    if Any(IsDigit, p) { AnyAppend(IsDigit, p, more); }
    if Any(IsSymbol, p) { AnyAppend(IsSymbol, p, more); }
  }

  /** `Validator.isValidPassword`: at least eight characters with a lower-case
      letter, an upper-case letter and a digit. */
  function IsValidPassword(p: Str): (r: bool)
    ensures r ==> |p| >= 8
    ensures r ==> (exists i :: 0 <= i < |p| && IsLowerAscii(p[i]))
                  && (exists i :: 0 <= i < |p| && IsUpperAscii(p[i]))
                  && (exists i :: 0 <= i < |p| && IsDigit(p[i]))
    ensures |p| >= 8 && Any(IsLowerAscii, p) && Any(IsUpperAscii, p) && Any(IsDigit, p) ==> r
  {
    |p| >= 8 && Any(IsLowerAscii, p) && Any(IsUpperAscii, p) && Any(IsDigit, p)
  }

  /** An accepted password scores at least 4, so it is rated medium or
      strong, never weak. */
  lemma ValidPasswordIsNotWeak(p: Str)
    requires IsValidPassword(p)
    ensures GetPasswordStrength(p).score >= 4
    ensures GetPasswordStrength(p).strength in {"medium", "strong"}
  {
  }

  // ---------------------------------------------------------- validateField

  /** The options of one `validateField` call. `minLength` and `maxLength`
      are 0 when absent: JavaScript treats 0 like a missing option. */
  datatype Rules = Rules(
    required: bool, email: bool, username: bool, password: bool, phone: bool,
    minLength: int, maxLength: int)

  /** The `{ isValid, message }` object `validateField` returns. */
  datatype FieldResult = FieldResult(isValid: bool, message: Str)

  const RequiredMessage: Str := "This field is required"
  const EmailMessage: Str := "Please enter a valid email address"
  const UsernameMessage: Str := "Username must be 3-20 alphanumeric characters or underscores"
  const PasswordMessage: Str := "Password must be at least 8 characters with uppercase, lowercase, and number"
  const PhoneMessage: Str := "Please enter a valid phone number"
  const MatchMessage: Str := "Fields do not match"

  function MinLengthMessage(n: int): Str { "Must be at least " + IntToDecimal(n) + " characters" }
  function MaxLengthMessage(n: int): Str { "Must not exceed " + IntToDecimal(n) + " characters" }

  /** One rule: whether it is checked at all, whether the value passes it,
      and the message shown when it is checked and fails. */
  datatype Rule = Rule(applies: bool, passes: bool, message: Str)

  /** The rules of `validateField` in the order the code tries them, over the
      trimmed value. `other` is the value of the element `rules.matches`
      names, when that option is set and the element exists. The format
      rules are skipped for an empty value; the length rules are not. */
  function RuleList(value: Str, rules: Rules, other: Option<Str>): (rs: seq<Rule>)
    ensures |rs| == 8
    ensures forall i :: 0 <= i < |rs| ==> rs[i].message != []
  {
    assert |MinLengthMessage(rules.minLength)| > 0;
    assert |MaxLengthMessage(rules.maxLength)| > 0;
    [ Rule(rules.required, value != [], RequiredMessage),
      Rule(rules.email && value != [], IsValidEmail(value), EmailMessage),
      Rule(rules.username && value != [], IsValidUsername(value), UsernameMessage),
      Rule(rules.password && value != [], IsValidPassword(value), PasswordMessage),
      Rule(rules.phone && value != [], IsValidPhone(value), PhoneMessage),
      Rule(rules.minLength != 0, |value| >= rules.minLength, MinLengthMessage(rules.minLength)),
      Rule(rules.maxLength != 0, |value| <= rules.maxLength, MaxLengthMessage(rules.maxLength)),
      Rule(other.Some?, other.Some? ==> value == other.value, MatchMessage) ]
  }

  /** Rule `i` is checked and fails, and every earlier rule passed or was
      skipped. */
  predicate FailsFirstAt(rs: seq<Rule>, i: int) {
    && 0 <= i < |rs| && rs[i].applies && !rs[i].passes
    && forall j :: 0 <= j < i ==> !rs[j].applies || rs[j].passes
  }

  /** The message of the first rule that is checked and fails. */
  function FirstFailure(rs: seq<Rule>): (r: Option<Str>)
    ensures r.None? <==> forall i :: 0 <= i < |rs| && rs[i].applies ==> rs[i].passes
    ensures r.Some? ==> exists i :: FailsFirstAt(rs, i) && r.value == rs[i].message
  {
    if rs == [] then None
    else if rs[0].applies && !rs[0].passes then
      assert FailsFirstAt(rs, 0);
      Some(rs[0].message)
    else
      var r := FirstFailure(rs[1..]);
      assert forall i :: 1 <= i < |rs| ==> rs[i] == rs[1..][i - 1];
      if r.Some? then
        var i :| FailsFirstAt(rs[1..], i) && r.value == rs[1..][i].message;
        assert FailsFirstAt(rs, i + 1);
        r
      else r
  }

  /** At most one rule is the first to fail, so it names the message. */
  lemma FirstFailureAt(rs: seq<Rule>, i: int)
    requires FailsFirstAt(rs, i)
    ensures FirstFailure(rs) == Some(rs[i].message)
  {
    var f := FirstFailure(rs);
    var j :| FailsFirstAt(rs, j) && f.value == rs[j].message;
  }

  /** The outcome the first failure dictates. */
  function Verdict(f: Option<Str>): FieldResult {
    match f
    case None => FieldResult(true, "")
    case Some(m) => FieldResult(false, m)
  }

  /** One guarded step of the cascade: once a step has failed the rest are
      skipped; a checked rule resets the message to '' when it passes. */
  function Step(state: FieldResult, rule: Rule): FieldResult {
    if state.isValid && rule.applies then
      (if rule.passes then FieldResult(true, "") else FieldResult(false, rule.message))
    else state
  }

  /** The rules applied one after another, each guarded by `isValid`. */
  function Cascade(state: FieldResult, rs: seq<Rule>): FieldResult
    decreases |rs|
  {
    if rs == [] then state else Cascade(Step(state, rs[0]), rs[1..])
  }

  lemma {:induction false} CascadeStaysFailed(m: Str, rs: seq<Rule>)
    decreases |rs|
    ensures Cascade(FieldResult(false, m), rs) == FieldResult(false, m)
  {
    if rs != [] {
      CascadeStaysFailed(m, rs[1..]);
    }
  }

  /** Started from `{ true, '' }`, the cascade reports the first failure. */
  lemma {:induction false} CascadeIsFirstFailure(rs: seq<Rule>)
    decreases |rs|
    ensures Cascade(FieldResult(true, ""), rs) == Verdict(FirstFailure(rs))
  {
    if rs != [] {
      if rs[0].applies && !rs[0].passes {
        CascadeStaysFailed(rs[0].message, rs[1..]);
      } else {
        CascadeIsFirstFailure(rs[1..]);
      }
    }
  }

  /** `Validator.validateField` on the raw input value: the value is trimmed,
      and the first rule that is checked and fails decides the message. */
  function ValidateField(raw: Str, rules: Rules, other: Option<Str>): (r: FieldResult)
    ensures r == Verdict(FirstFailure(RuleList(JsTrim(raw), rules, other)))
  {
    var rs := RuleList(JsTrim(raw), rules, other);
    CascadeIsFirstFailure(rs);
    Cascade(FieldResult(true, ""), rs)
  }

  /** The verdict and the message agree: a field is valid exactly when no
      message is shown. */
  lemma ValidIffNoMessage(raw: Str, rules: Rules, other: Option<Str>)
    ensures ValidateField(raw, rules, other).isValid <==> ValidateField(raw, rules, other).message == ""
  {
    var rs := RuleList(JsTrim(raw), rules, other);
    var f := FirstFailure(rs);
    if f.Some? {
      var i :| FailsFirstAt(rs, i) && f.value == rs[i].message;
    }
  }

  /** An empty optional field is exempt from the format checks, but not
      from `minLength`: with a positive minimum it is rejected. */
  lemma EmptyOptionalFieldFailsMinLength(raw: Str, rules: Rules, other: Option<Str>)
    requires JsTrim(raw) == [] && !rules.required && rules.minLength > 0
    ensures ValidateField(raw, rules, other) == FieldResult(false, MinLengthMessage(rules.minLength))
  {
    var rs := RuleList(JsTrim(raw), rules, other);
    EmptyValueFailsAtMinLength(JsTrim(raw), rules, other);
    FirstFailureAt(rs, 5);
  }

  /** With an empty value, the `minLength` rule is the first one that
      fails. */
  lemma EmptyValueFailsAtMinLength(v: Str, rules: Rules, other: Option<Str>)
    requires v == [] && !rules.required && rules.minLength > 0
    ensures FailsFirstAt(RuleList(v, rules, other), 5)
  {
  }

  /** For an empty value the e-mail, username, password and phone options
      make no difference. */
  lemma EmptyValueSkipsFormatChecks(raw: Str, rules: Rules, other: Option<Str>)
    requires JsTrim(raw) == []
    ensures ValidateField(raw, rules, other)
      == ValidateField(raw, rules.(email := false, username := false, password := false, phone := false), other)
  {
    EmptyValueRules(JsTrim(raw), rules, other);
  }

  /** The rule list of an empty value is the same with the format options
      switched off. */
  lemma EmptyValueRules(v: Str, rules: Rules, other: Option<Str>)
    requires v == []
    ensures RuleList(v, rules, other)
      == RuleList(v, rules.(email := false, username := false, password := false, phone := false), other)
  {
  }

  /** Only the trimmed value is inspected: trimming the input first changes
      nothing. */
  lemma TrimmedInputSameVerdict(raw: Str, rules: Rules, other: Option<Str>)
    ensures ValidateField(JsTrim(raw), rules, other) == ValidateField(raw, rules, other)
  {
    StripIdempotent(IsJsSpace, raw);
  }
}

=== FILE: authentication_filter.dfy ===
/** `AuthenticationFilter.doFilter`: lets a request through when the
    session carries a user id, and otherwise redirects to the login page. */
module AuthenticationFilter {
  import opened Text
  import opened HttpSession

  /** The request fields the filter reads. */
  datatype Request = Request(servletPath: Str, pathInfo: Option<Str>, contextPath: Str)

  /** The filter either passes the request down the chain or answers with a
      redirect. */
  datatype Outcome = Chain | Redirect(location: Str)

  /** The path the filter logs; it plays no part in the decision. */
  function FullPath(req: Request): Str {
    req.servletPath + (match req.pathInfo case Some(p) => p case None => "")
  }

  /** `doFilter`. */
  function DoFilter(req: Request, session: Option<Session>): (r: Outcome)
    ensures r.Chain? <==> session.Some? && "userId" in session.value
    ensures r.Redirect? ==> r.location == req.contextPath + "/auth/login"
  {
    var authenticated := session.Some? && "userId" in session.value;
    if authenticated then Chain else Redirect(req.contextPath + "/auth/login")
  }

  /** The decision does not depend on the requested path. */
  lemma PathIsIrrelevant(a: Request, b: Request, session: Option<Session>)
    requires a.contextPath == b.contextPath
    ensures DoFilter(a, session) == DoFilter(b, session)
  {
  }

  /** Any user id value, even the integer 0 or an empty string, lets the
      request through: only its presence is checked. */
  lemma AnyUserIdPasses(req: Request, session: Session, id: Attr)
    ensures DoFilter(req, Some(session["userId" := id])) == Chain
  {
  }
}

=== FILE: authorization_filter.dfy ===
/** `AuthorizationFilter.doFilter`: admits a request only when the session's
    role is "admin", ignoring case; otherwise it answers 403. */
module AuthorizationFilter {
  import opened Text
  import opened HttpSession

  const Forbidden := 403
  const AdminRole: Str := "admin"
  const NoSessionMessage: Str := "Access denied"
  const NotAdminMessage: Str := "Admin access required"

  /** The request is passed down the chain, an error is sent, or the cast of
      the role attribute to `String` throws `ClassCastException`. */
  datatype Outcome = Chain | SendError(status: int, message: Str) | ClassCastFailure

  /** `(String) session.getAttribute("role")`: null when absent, and a cast
      failure for a value that is not a string. */
  function RoleOf(session: Session): (r: Option<Option<Str>>)
    ensures r.None? <==> "role" in session && !session["role"].AttrString?
  {
    if "role" !in session then Some(None)
    else match session["role"]
      case AttrString(s) => Some(Some(s))
      case _ => None
  }

  /** `ADMIN_ROLE.equalsIgnoreCase(userRole)`: false for null. */
  predicate IsAdminRole(role: Option<Str>) {
    role.Some? && EqualsIgnoreCase(AdminRole, role.value)
  }

  /** The session's role attribute is a string equal to "admin" up to
      case. */
  predicate HasAdminRole(session: Session) {
    "role" in session && session["role"].AttrString? && EqualsIgnoreCase(AdminRole, session["role"].s)
  }

  /** `doFilter`. */
  function DoFilter(session: Option<Session>): (r: Outcome)
    ensures session.None? ==> r == SendError(Forbidden, NoSessionMessage)
    ensures r.Chain? <==> session.Some? && HasAdminRole(session.value)
    ensures r.ClassCastFailure? <==> session.Some? && "role" in session.value && !session.value["role"].AttrString?
    ensures r.SendError? ==> r.status == Forbidden
    ensures session.Some? && RoleOf(session.value).Some? && !HasAdminRole(session.value) ==>
      r == SendError(Forbidden, NotAdminMessage)
  {
    match session
    case None => SendError(Forbidden, NoSessionMessage)
    case Some(s) =>
      match RoleOf(s)
      case None => ClassCastFailure
      case Some(role) =>
        if IsAdminRole(role) then Chain else SendError(Forbidden, NotAdminMessage)
  }

  /** A session without a role attribute is refused as not admin. */
  lemma MissingRoleIsRefused(session: Session)
    requires "role" !in session
    ensures DoFilter(Some(session)) == SendError(Forbidden, NotAdminMessage)
  {
  }

  /** For a string role the outcome depends on the role alone: the chain
      runs iff it lower-cases to "admin", and every other string is refused
      as not admin. */
  lemma StringRoleDecides(session: Session, role: Str)
    ensures DoFilter(Some(session["role" := AttrString(role)]))
      == if Lower(role) == AdminRole then Chain else SendError(Forbidden, NotAdminMessage)
  {
    IgnoreCaseWithLowerWord(AdminRole, role);
  }

  /** Case is ignored: "ADMIN" is admitted. */
  lemma UpperCaseAdminIsAdmitted(session: Session)
    ensures DoFilter(Some(session["role" := AttrString("ADMIN")])) == Chain
  {
    assert EqualsIgnoreCase(AdminRole, "ADMIN");
  }
}

=== FILE: cross_language.dfy ===
/** How the same check, written separately in Java, PHP and JavaScript,
    agrees or disagrees across the layers: the phone rule of
    `ValidationUtil`, `helpers/functions.php` and main.js, the e-mail rule of
    `ValidationUtil` and app.js, and the password length of `PasswordUtil`
    and app.js. */
module CrossLanguage {
  import opened Text
  import ValidationUtil
  import PhpHelpers
  import MainJs
  import AppJs
  import PasswordUtil

  // ------------------------------------------------------------------ phone

  /** The Java and PHP phone rules give the same verdict on every string:
      both delete `[\s-]` with the same six-character `\s`. */
  lemma JavaPhoneIsPhpPhone(s: Str)
    ensures ValidationUtil.IsValidPhone(Some(s)) == PhpHelpers.ValidatePhone(s)
  {
    forall i | 0 <= i < |s|
      ensures ValidationUtil.NotPhoneSeparator(s[i]) == PhpHelpers.NotSeparator(s[i])
    {
      JavaSpaceIsTrimmable(s[i]);
    }
    KeepAgree(ValidationUtil.NotPhoneSeparator, PhpHelpers.NotSeparator, s);
  }

  /** A number the server accepts is accepted by the browser's form check
      too: it holds only digits and Java separators, on which the two
      filters agree. */
  lemma JavaPhoneIsFormPhone(s: Str)
    requires ValidationUtil.IsValidPhone(Some(s))
    ensures MainJs.ValidatePhone(s)
  {
    var k := Keep(ValidationUtil.NotPhoneSeparator, s);
    forall i | 0 <= i < |s|
      ensures ValidationUtil.NotPhoneSeparator(s[i]) == MainJs.NotSeparator(s[i])
    {
      JavaSpaceIsTrimmable(s[i]);
      if ValidationUtil.NotPhoneSeparator(s[i]) {
        KeepMembers(ValidationUtil.NotPhoneSeparator, s, s[i]);
        var j :| 0 <= j < |k| && k[j] == s[i];
        assert IsDigit(k[j]);
      }
    }
    KeepAgree(ValidationUtil.NotPhoneSeparator, MainJs.NotSeparator, s);
  }

  /** Where every whitespace character of the input is also Java
      whitespace, the browser and the server give the same verdict. */
  lemma FormPhoneIsJavaPhoneOnAsciiSpace(s: Str)
    requires forall i :: 0 <= i < |s| ==> (IsJsSpace(s[i]) ==> IsJavaSpace(s[i]))
    ensures MainJs.ValidatePhone(s) == ValidationUtil.IsValidPhone(Some(s))
  {
    forall i | 0 <= i < |s|
      ensures ValidationUtil.NotPhoneSeparator(s[i]) == MainJs.NotSeparator(s[i])
    {
      JavaSpaceIsTrimmable(s[i]);
    }
    KeepAgree(ValidationUtil.NotPhoneSeparator, MainJs.NotSeparator, s);
  }

  /** The converse fails: a no-break space (U+00A0) after ten digits is
      whitespace to JavaScript, which deletes it, but not to Java, which
      keeps it and rejects the number. */
  lemma NoBreakSpaceSplitsPhoneRules(digits: Str)
    requires |digits| == 10 && AllDigits(digits)
    ensures MainJs.ValidatePhone(digits + "\U{A0}")
    ensures !ValidationUtil.IsValidPhone(Some(digits + "\U{A0}"))
  {
    var nbsp: Str := "\U{A0}";
    var s := digits + nbsp;
    forall i | 0 <= i < |digits| ensures MainJs.NotSeparator(digits[i]) {
      assert IsDigit(digits[i]);
    }
    KeepAll(MainJs.NotSeparator, digits);
    MainJs.SeparatorsDoNotMatter(digits, nbsp, []);
    assert digits + nbsp + [] == s && digits + [] == digits;
    KeepMembers(ValidationUtil.NotPhoneSeparator, s, '\U{A0}');
    assert s[10] == '\U{A0}';
  }

  // ----------------------------------------------------------------- e-mail

  /** Every address the server's pattern accepts, the browser's pattern
      accepts too, with the same split. */
  lemma JavaEmailSplitIsAppSplit(s: Str, a: int, d: int)
    requires ValidationUtil.EmailSplit(s, a, d)
    ensures AppJs.EmailSplit(s, a, d)
  {
    var local, domain, tld := s[..a], s[a + 1..d], s[d + 1..];
    forall i | 0 <= i < |local| ensures AppJs.IsEmailChar(local[i]) {
      assert ValidationUtil.IsEmailLocal(local[i]);
    }
    forall i | 0 <= i < |domain| ensures AppJs.IsEmailChar(domain[i]) {
      assert ValidationUtil.IsEmailDomain(domain[i]);
    }
    forall i | 0 <= i < |tld| ensures AppJs.IsEmailChar(tld[i]) {
      assert IsLetter(tld[i]);
    }
  }

  lemma JavaEmailIsAppEmail(s: Str)
    requires ValidationUtil.IsValidEmail(Some(s))
    ensures AppJs.IsValidEmail(s)
  {
    var a, d :| 0 <= a < |s| && 0 <= d < |s| && ValidationUtil.EmailSplit(s, a, d);
    JavaEmailSplitIsAppSplit(s, a, d);
  }

  /** The converse fails: the browser accepts a one-letter top-level
      domain, which the server refuses. */
  lemma OneLetterDomainSplitsEmailRules()
    ensures AppJs.IsValidEmail("a@b.c") && !ValidationUtil.IsValidEmail(Some("a@b.c"))
  {
    var s: Str := "a@b.c";
    assert AppJs.EmailSplit(s, 1, 3);
  }

  // --------------------------------------------------------------- password

  /** A password the browser calls valid (eight characters or more) passes
      the server's six-character minimum. */
  lemma AppPasswordIsServerPassword(p: Str)
    requires AppJs.IsValidPassword(p)
    ensures PasswordUtil.IsValidPassword(Some(p))
  {
  }
}

=== FILE: event.dfy ===
/** The `Event` entity (model/Event.java): nullable fields and the three
    helper predicates `isFull`, `isActive` and `isPast`. */
module EventModel {
  import opened Text
  import Query

  /** A calendar date as a day number; earlier dates are smaller. */
  type Date = int
  /** A time of day in seconds after midnight. */
  type Time = int

  datatype Event = Event(
    id: Option<int>,
    title: Option<Str>,
    description: Option<Str>,
    location: Option<Str>,
    eventDate: Option<Date>,
    startTime: Option<Time>,
    endTime: Option<Time>,
    volunteersNeeded: Option<int>,
    volunteersRegistered: Option<int>,
    category: Option<Str>,
    status: Option<Str>,
    createdBy: Option<int>)

  /** `getVolunteersRegistered`: an unset count reads as zero. */
  function VolunteersRegistered(e: Event): int {
    if e.volunteersRegistered.Some? then e.volunteersRegistered.value else 0
  }

  /** `isFull`: the registered count (unset reads as zero) has reached
      the number needed. Unboxing a null `volunteersNeeded` throws. */
  function IsFull(e: Event): (r: Query.Result<bool>)
    ensures r.Err? <==> e.volunteersNeeded.None?
    ensures r.Err? ==> r.error == Query.NullPointer
    ensures r.Ok? ==> (r.value <==> e.volunteersNeeded.value <= VolunteersRegistered(e))
  {
    if e.volunteersNeeded.None? then Query.Err(Query.NullPointer)
    else Query.Ok(VolunteersRegistered(e) >= e.volunteersNeeded.value)
  }

  /** `isActive`: the status is "active" up to case; null is not active. */
  function IsActive(e: Event): (r: bool)
    ensures r <==> e.status.Some? && Lower(e.status.value) == "active"
  {
    if e.status.None? then false
    else
      IgnoreCaseWithLowerWord("active", e.status.value);
      EqualsIgnoreCase("active", e.status.value)
  }

  /** `isPast`, with the current date as a parameter: the date is set and
      strictly before today. */
  function IsPast(e: Event, today: Date): (r: bool)
    ensures r ==> e.eventDate.Some?
    ensures e.eventDate.Some? ==> (r <==> e.eventDate.value < today)
  {
    e.eventDate.Some? && e.eventDate.value < today
  }

  /** Raising the registered count never turns a full event into one with
      free places; an unset count behaves like zero. */
  lemma FullIsMonotone(e: Event, count: int)
    requires IsFull(e) == Query.Ok(true) && count >= VolunteersRegistered(e)
    ensures IsFull(e.(volunteersRegistered := Some(count))) == Query.Ok(true)
  {
  }

  lemma FullWithUnsetCount(e: Event)
    requires e.volunteersRegistered.None?
    ensures IsFull(e) == IsFull(e.(volunteersRegistered := Some(0)))
    ensures e.volunteersNeeded.Some? ==> IsFull(e) == Query.Ok(e.volunteersNeeded.value <= 0)
  {
  }

  /** Once past, an event stays past as the days go by; an event is not
      past on its own day but is on the next one, and an undated event is
      never past. */
  lemma PastIsMonotone(e: Event, today: Date, later: Date)
    requires today <= later
    ensures IsPast(e, today) ==> IsPast(e, later)
    ensures e.eventDate.Some? ==> !IsPast(e, e.eventDate.value) && IsPast(e, e.eventDate.value + 1)
    ensures e.eventDate.None? ==> !IsPast(e, later)
  {
  }

  /** Only the status decides, and only up to case: two statuses with the
      same lower-case form are both active or both not; "ACTIVE" and
      "Active" are active. */
  lemma ActiveIgnoresCase(e: Event, s: Str, u: Str)
    requires Lower(s) == Lower(u)
    ensures IsActive(e.(status := Some(s))) == IsActive(e.(status := Some(u)))
    ensures IsActive(e.(status := Some("ACTIVE"))) && IsActive(e.(status := Some("Active")))
  {
    assert Lower("ACTIVE") == "active";
    assert Lower("Active") == "active";
  }
}

=== FILE: event_dao.dfy ===
/** `EventDAO` over the `events` table: insert with a generated key, update
    of the editable columns, the registration counter, delete, and the six
    queries. Database failures other than the DAO's own "no rows affected"
    check are not modelled; a query that would fail returns what the catch
    block returns, an empty list. */
module EventDao {
  import opened Text
  import opened Query
  import opened EventModel

  /** One row of `events`. `event_date`, `volunteers_needed` and
      `created_by` are always written from unboxed values, so they are never
      null in rows this DAO writes. */
  datatype EventRow = EventRow(
    id: int,
    title: Option<Str>,
    description: Option<Str>,
    location: Option<Str>,
    eventDate: Date,
    startTime: Option<Time>,
    endTime: Option<Time>,
    volunteersNeeded: int,
    volunteersRegistered: int,
    category: Option<Str>,
    status: Option<Str>,
    createdBy: int,
    createdAt: int,
    updatedAt: int)

  datatype Table = Table(rows: seq<EventRow>, nextId: int)

  function Key(x: EventRow): int { x.id }

  predicate Valid(t: Table) {
    && DistinctKeys(Key, t.rows)
    && (forall i :: 0 <= i < |t.rows| ==> t.rows[i].id < t.nextId)
  }

  predicate HasId(t: Table, id: int) {
    exists i :: 0 <= i < |t.rows| && t.rows[i].id == id
  }

  /** `mapResultSetToEvent`: every column copied into the entity (the
      timestamps are not part of the entity model). */
  function ToEvent(x: EventRow): (e: Event)
    ensures e.id == Some(x.id) && e.eventDate == Some(x.eventDate)
    ensures e.volunteersNeeded == Some(x.volunteersNeeded)
    ensures e.volunteersRegistered == Some(x.volunteersRegistered)
    ensures e.status == x.status && e.category == x.category
    ensures e.createdBy == Some(x.createdBy)
  {
    Event(Some(x.id), x.title, x.description, x.location, Some(x.eventDate), x.startTime,
          x.endTime, Some(x.volunteersNeeded), Some(x.volunteersRegistered), x.category,
          x.status, Some(x.createdBy))
  }

  function ToEvents(rows: seq<EventRow>): (r: seq<Event>)
    ensures |r| == |rows|
    ensures forall i :: 0 <= i < |rows| ==> r[i] == ToEvent(rows[i])
  {
    seq(|rows|, i requires 0 <= i < |rows| => ToEvent(rows[i]))
  }

  // ------------------------------------------------------ WHERE conditions

  function IdIs(id: int): EventRow -> bool { (x: EventRow) => x.id == id }
  function IdIsNot(id: int): EventRow -> bool { (x: EventRow) => x.id != id }
  /** `status = 'active' AND event_date >= CURDATE()` */
  function ActiveFrom(today: Date): EventRow -> bool {
    (x: EventRow) => x.status == Some("active") && x.eventDate >= today
  }
  /** `category = ?`; a null parameter makes the comparison unknown, so no
      row matches. */
  function CategoryIs(category: Option<Str>): EventRow -> bool {
    (x: EventRow) => category.Some? && x.category == category
  }
  /** `event_date BETWEEN ? AND ?`, both ends included. */
  function DateBetween(start: Date, end: Date): EventRow -> bool {
    (x: EventRow) => start <= x.eventDate <= end
  }

  // ------------------------------------------------------------- orderings

  predicate DateAsc(a: EventRow, b: EventRow) { a.eventDate <= b.eventDate }
  predicate DateDesc(a: EventRow, b: EventRow) { a.eventDate >= b.eventDate }
  /** `ORDER BY event_date DESC, created_at DESC` */
  predicate DateThenCreatedDesc(a: EventRow, b: EventRow) {
    a.eventDate > b.eventDate || (a.eventDate == b.eventDate && a.createdAt >= b.createdAt)
  }

  lemma OrderingsArePreorders()
    ensures TotalPreorder(DateAsc)
    ensures TotalPreorder(DateDesc)
    ensures TotalPreorder(DateThenCreatedDesc)
  {
  }

  // --------------------------------------------------------------- finders

  /** `findById`: the entity read from the row with that key, if any. */
  function FindById(t: Table, id: int): (r: Option<Event>)
    ensures r.Some? <==> HasId(t, id)
    ensures r.Some? ==>
      r.value.id == Some(id) && exists i :: 0 <= i < |t.rows| && t.rows[i].id == id && r.value == ToEvent(t.rows[i])
  {
    match First(IdIs(id), t.rows)
    case None => None
    case Some(x) => Some(ToEvent(x))
  }

  /** The entities read from a newest-first permutation of the table:
      every row appears, and event dates never increase. */
  lemma AllEventsFacts(rows: seq<EventRow>, table: seq<EventRow>)
    requires multiset(rows) == multiset(table) && Sorted(DateThenCreatedDesc, rows)
    ensures |ToEvents(rows)| == |table|
    ensures forall i :: 0 <= i < |rows| ==> exists k :: 0 <= k < |table| && ToEvents(rows)[i] == ToEvent(table[k])
    ensures forall k :: 0 <= k < |table| ==> ToEvent(table[k]) in ToEvents(rows)
    ensures forall i, j :: 0 <= i < j < |rows| ==> rows[i].eventDate >= rows[j].eventDate
  {
    assert |rows| == |multiset(rows)| == |table|;
    forall i | 0 <= i < |rows| ensures exists k :: 0 <= k < |table| && ToEvents(rows)[i] == ToEvent(table[k]) {
      assert rows[i] in multiset(table);
      var k :| 0 <= k < |table| && table[k] == rows[i];
    }
    forall k | 0 <= k < |table| ensures ToEvent(table[k]) in ToEvents(rows) {
      assert table[k] in multiset(rows);
      var i :| 0 <= i < |rows| && rows[i] == table[k];
      assert ToEvents(rows)[i] == ToEvent(table[k]);
    }
  }

  /** `findAll`: every row, latest event date first, ties broken by the
      latest creation time. */
  function FindAll(t: Table): (r: seq<Event>)
    ensures |r| == |t.rows|
    ensures forall i :: 0 <= i < |r| ==>
      r[i].eventDate.Some? && exists k :: 0 <= k < |t.rows| && r[i] == ToEvent(t.rows[k])
    ensures forall i :: 0 <= i < |t.rows| ==> ToEvent(t.rows[i]) in r
    ensures forall i, j :: 0 <= i < j < |r| ==> r[i].eventDate.value >= r[j].eventDate.value
    ensures exists rows ::
              && Sorted(DateThenCreatedDesc, rows)
              && multiset(rows) == multiset(t.rows)
              && r == ToEvents(rows)
  {
    OrderingsArePreorders();
    var s := OrderBy(DateThenCreatedDesc, t.rows);
    AllEventsFacts(s, t.rows);
    ToEvents(s)
  }

  /** `findActiveEvents`: the rows whose status is exactly "active" and
      whose date is today or later, earliest first. */
  function FindActiveEvents(t: Table, today: Date): (r: seq<Event>)
    ensures forall i :: 0 <= i < |r| ==>
      r[i].status == Some("active") && r[i].eventDate.Some? && r[i].eventDate.value >= today
      && exists k :: 0 <= k < |t.rows| && r[i] == ToEvent(t.rows[k])
    ensures forall k :: 0 <= k < |t.rows| && t.rows[k].status == Some("active") && t.rows[k].eventDate >= today ==>
      ToEvent(t.rows[k]) in r
    ensures forall i, j :: 0 <= i < j < |r| ==> r[i].eventDate.value <= r[j].eventDate.value
    ensures exists rows ::
              && Sorted(DateAsc, rows)
              && multiset(rows) == multiset(Where(ActiveFrom(today), t.rows))
              && r == ToEvents(rows)
  {
    OrderingsArePreorders();
    var s := Select(ActiveFrom(today), DateAsc, t.rows);
    ToEvents(s)
  }

  /** `findUpcomingEvents(limit)`: the first `limit` active events. A
      negative limit is an SQL error, caught, so the list is empty. */
  function FindUpcomingEvents(t: Table, today: Date, limit: int): (r: seq<Event>)
    ensures limit < 0 ==> r == []
    ensures limit >= 0 ==> |r| <= limit
    ensures |r| <= |FindActiveEvents(t, today)|
    ensures r == FindActiveEvents(t, today)[..|r|]
    ensures limit >= 0 && |FindActiveEvents(t, today)| <= limit ==> r == FindActiveEvents(t, today)
    ensures limit >= 0 && |FindActiveEvents(t, today)| >= limit ==> |r| == limit
  {
    if limit < 0 then [] else Limit(FindActiveEvents(t, today), limit)
  }

  /** `findByCategory`: the rows of that category, latest first; a null
      category yields no rows. */
  function FindByCategory(t: Table, category: Option<Str>): (r: seq<Event>)
    ensures category.None? ==> r == []
    ensures forall i :: 0 <= i < |r| ==>
      r[i].category == category && r[i].eventDate.Some? && exists k :: 0 <= k < |t.rows| && r[i] == ToEvent(t.rows[k])
    ensures forall k :: 0 <= k < |t.rows| && category.Some? && t.rows[k].category == category ==>
      ToEvent(t.rows[k]) in r
    ensures forall i, j :: 0 <= i < j < |r| ==> r[i].eventDate.value >= r[j].eventDate.value
    ensures exists rows ::
              && Sorted(DateDesc, rows)
              && multiset(rows) == multiset(Where(CategoryIs(category), t.rows))
              && r == ToEvents(rows)
  {
    OrderingsArePreorders();
    var s := Select(CategoryIs(category), DateDesc, t.rows);
    assert category.None? ==> s == [] by {
      if category.None? {
        CountIsSizeOfWhere(CategoryIs(category), t.rows);
        CountPositive(CategoryIs(category), t.rows);
      }
    }
    ToEvents(s)
  }

  /** `findByDateRange`: the rows dated between the two dates inclusive,
      earliest first. A null date makes `Date.valueOf` throw. */
  function FindByDateRange(t: Table, start: Option<Date>, end: Option<Date>): (r: Result<seq<Event>>)
    ensures r.Err? <==> start.None? || end.None?
    ensures r.Err? ==> r.error == NullPointer
    ensures r.Ok? ==> forall i :: 0 <= i < |r.value| ==>
      r.value[i].eventDate.Some? && start.value <= r.value[i].eventDate.value <= end.value
      && exists k :: 0 <= k < |t.rows| && r.value[i] == ToEvent(t.rows[k])
    ensures r.Ok? ==> forall k :: 0 <= k < |t.rows| && start.value <= t.rows[k].eventDate <= end.value ==>
      ToEvent(t.rows[k]) in r.value
    ensures r.Ok? ==> forall i, j :: 0 <= i < j < |r.value| ==>
      r.value[i].eventDate.value <= r.value[j].eventDate.value
    ensures r.Ok? ==> exists rows ::
              && Sorted(DateAsc, rows)
              && multiset(rows) == multiset(Where(DateBetween(start.value, end.value), t.rows))
              && r.value == ToEvents(rows)
  {
    if start.None? || end.None? then Err(NullPointer)
    else
      OrderingsArePreorders();
      Ok(ToEvents(Select(DateBetween(start.value, end.value), DateAsc, t.rows)))
  }

  // -------------------------------------------------------------- updates

  /** `create`: inserts the event under a fresh key and returns the same
      entity with its id set. Unboxing a null date, volunteers-needed count
      or creator throws before anything is written. `volunteers_registered`
      is not in the insert and takes the column default, zero. */
  function Create(t: Table, e: Event, now: int): (r: Result<(Table, Event)>)
    ensures r.Err? <==> e.eventDate.None? || e.volunteersNeeded.None? || e.createdBy.None?
    ensures r.Err? ==> r.error == NullPointer
    ensures r.Ok? ==>
      var (t', created) := r.value;
      && |t'.rows| == |t.rows| + 1 && t'.rows[..|t.rows|] == t.rows
      && created == e.(id := Some(t.nextId))
      && ToEvent(t'.rows[|t.rows|]) == created.(volunteersRegistered := Some(0))
    ensures r.Ok? && Valid(t) ==> Valid(r.value.0) && !HasId(t, t.nextId)
  {
    if e.eventDate.None? || e.volunteersNeeded.None? || e.createdBy.None? then Err(NullPointer)
    else
      var row := EventRow(t.nextId, e.title, e.description, e.location, e.eventDate.value,
                          e.startTime, e.endTime, e.volunteersNeeded.value, 0, e.category,
                          e.status, e.createdBy.value, now, now);
      Ok((Table(t.rows + [row], t.nextId + 1), e.(id := Some(t.nextId))))
  }

  /** The `SET` list of `update`: the editable columns from the entity and
      a fresh `updated_at`; key, registered count, creator and creation time
      stay. */
  function Edit(x: EventRow, e: Event, now: int): (y: EventRow)
    requires e.eventDate.Some? && e.volunteersNeeded.Some?
    ensures y.id == x.id && y.volunteersRegistered == x.volunteersRegistered
    ensures y.createdBy == x.createdBy && y.createdAt == x.createdAt
    ensures ToEvent(y) == e.(id := Some(x.id), volunteersRegistered := Some(x.volunteersRegistered),
                             createdBy := Some(x.createdBy))
  {
    x.(title := e.title, description := e.description, location := e.location,
       eventDate := e.eventDate.value, startTime := e.startTime, endTime := e.endTime,
       volunteersNeeded := e.volunteersNeeded.value, category := e.category,
       status := e.status, updatedAt := now)
  }

  function EditWith(e: Event, now: int): EventRow -> EventRow
    requires e.eventDate.Some? && e.volunteersNeeded.Some?
  {
    (x: EventRow) => Edit(x, e, now)
  }

  /** `update`: rewrites the row whose key is the entity's id. A null date,
      count or id throws; a key with no row throws "no rows affected". */
  function Update(t: Table, e: Event, now: int): (r: Result<Table>)
    ensures r.Err? <==> e.eventDate.None? || e.volunteersNeeded.None? || e.id.None? || !HasId(t, e.id.value)
    ensures r.Err? && (e.eventDate.None? || e.volunteersNeeded.None? || e.id.None?) ==> r.error == NullPointer
    ensures r.Ok? ==>
      && r.value.nextId == t.nextId && |r.value.rows| == |t.rows|
      && (forall i :: 0 <= i < |t.rows| && t.rows[i].id == e.id.value ==>
            ToEvent(r.value.rows[i]) == e.(volunteersRegistered := Some(t.rows[i].volunteersRegistered),
                                            createdBy := Some(t.rows[i].createdBy))
            && r.value.rows[i].createdAt == t.rows[i].createdAt)
      && (forall i :: 0 <= i < |t.rows| && t.rows[i].id != e.id.value ==> r.value.rows[i] == t.rows[i])
    ensures r.Ok? && Valid(t) ==> Valid(r.value)
  {
    if e.eventDate.None? || e.volunteersNeeded.None? || e.id.None? then Err(NullPointer)
    else
      CountPositive(IdIs(e.id.value), t.rows);
      if Count(IdIs(e.id.value), t.rows) == 0 then Err(NoRowsAffected)
      else Ok(Table(UpdateWhere(IdIs(e.id.value), EditWith(e, now), t.rows), t.nextId))
  }

  function SetRegistered(count: int, now: int): EventRow -> EventRow {
    (x: EventRow) => x.(volunteersRegistered := count, updatedAt := now)
  }

  /** `updateRegistrationCount`: overwrites the counter of the row with that
      key; an absent key is not an error and changes nothing. */
  function UpdateRegistrationCount(t: Table, eventId: int, count: int, now: int): (r: Table)
    ensures r.nextId == t.nextId && |r.rows| == |t.rows|
    ensures forall i :: 0 <= i < |t.rows| && t.rows[i].id == eventId ==>
      r.rows[i] == t.rows[i].(volunteersRegistered := count, updatedAt := now)
    ensures forall i :: 0 <= i < |t.rows| && t.rows[i].id != eventId ==> r.rows[i] == t.rows[i]
    ensures !HasId(t, eventId) ==> r == t
    ensures Valid(t) ==> Valid(r)
  {
    CountPositive(IdIs(eventId), t.rows);
    assert !HasId(t, eventId) ==> Count(IdIs(eventId), t.rows) == 0;
    if !HasId(t, eventId) then
      UpdateNothing(IdIs(eventId), SetRegistered(count, now), t.rows);
      Table(UpdateWhere(IdIs(eventId), SetRegistered(count, now), t.rows), t.nextId)
    else
      Table(UpdateWhere(IdIs(eventId), SetRegistered(count, now), t.rows), t.nextId)
  }

  /** `delete`: removes the row with that key; an absent key throws "no
      rows affected". */
  function Delete(t: Table, id: int): (r: Result<Table>)
    ensures r.Err? <==> !HasId(t, id)
    ensures r.Err? ==> r.error == NoRowsAffected
    ensures r.Ok? ==> r.value.rows == Where(IdIsNot(id), t.rows) && !HasId(r.value, id)
    ensures r.Ok? && Valid(t) ==> Valid(r.value)
  {
    CountPositive(IdIs(id), t.rows);
    if Count(IdIs(id), t.rows) == 0 then Err(NoRowsAffected)
    else
      var rows := Where(IdIsNot(id), t.rows);
      assert Valid(t) ==> DistinctKeys(Key, rows) by {
        if Valid(t) {
          WhereKeepsDistinct(Key, IdIsNot(id), t.rows);
        }
      }
      Ok(Table(rows, t.nextId))
  }

  // --------------------------------------------------------- properties

  /** Every event `findActiveEvents` returns is active and not past in the
      entity's own terms. */
  lemma ActiveEventsAreActive(t: Table, today: Date)
    ensures forall i :: 0 <= i < |FindActiveEvents(t, today)| ==>
      IsActive(FindActiveEvents(t, today)[i]) && !IsPast(FindActiveEvents(t, today)[i], today)
  {
    var r := FindActiveEvents(t, today);
    forall i | 0 <= i < |r| ensures IsActive(r[i]) {
      assert r[i].status == Some("active");
      assert EqualsIgnoreCase("active", "active");
    }
  }

  /** What `findById` reads back after `create` is the returned entity,
      except for the registered count, which the database sets to zero. */
  lemma CreateThenFind(t: Table, e: Event, now: int)
    requires Valid(t)
    requires Create(t, e, now).Ok?
    ensures var (t', created) := Create(t, e, now).value;
            FindById(t', created.id.value) == Some(created.(volunteersRegistered := Some(0)))
  {
    var (t', created) := Create(t, e, now).value;
    var n := |t.rows|;
    assert t'.rows == t.rows + [t'.rows[n]];
    FirstAppendMissing(IdIs(t.nextId), t.rows, t'.rows[n]);
  }

  /** `update` never changes the registered count or the creator, whatever
      the entity carries; only `updateRegistrationCount` moves the count. */
  lemma UpdateKeepsCounter(t: Table, e: Event, now: int, id: int)
    requires Update(t, e, now).Ok?
    ensures var t' := Update(t, e, now).value;
            forall i :: 0 <= i < |t.rows| ==>
              t'.rows[i].volunteersRegistered == t.rows[i].volunteersRegistered
              && t'.rows[i].createdBy == t.rows[i].createdBy && t'.rows[i].id == t.rows[i].id
  {
    var t' := Update(t, e, now).value;
    forall i | 0 <= i < |t.rows|
      ensures t'.rows[i].volunteersRegistered == t.rows[i].volunteersRegistered
      ensures t'.rows[i].createdBy == t.rows[i].createdBy && t'.rows[i].id == t.rows[i].id
    {
      if t.rows[i].id == e.id.value {
        assert ToEvent(t'.rows[i]).volunteersRegistered == Some(t.rows[i].volunteersRegistered);
        assert ToEvent(t'.rows[i]).id == Some(t.rows[i].id);
      }
    }
  }

  /** A deleted event is gone for `findById`, and deleting it again throws. */
  lemma DeleteThenFind(t: Table, id: int)
    requires Delete(t, id).Ok?
    ensures FindById(Delete(t, id).value, id).None?
    ensures Delete(Delete(t, id).value, id) == Err(NoRowsAffected)
  {
  }

  /** An event dated on either end of the range is included. */
  lemma DateRangeIsInclusive(t: Table, k: int, start: Date, end: Date)
    requires 0 <= k < |t.rows|
    requires t.rows[k].eventDate == start || t.rows[k].eventDate == end
    requires start <= end
    ensures ToEvent(t.rows[k]) in FindByDateRange(t, Some(start), Some(end)).value
  {
  }
}

=== FILE: event_registration.dfy ===
/** The `EventRegistration` entity (model/EventRegistration.java): the status
    is a nullable string compared case-sensitively with lower-case literals. */
module RegistrationModel {
  import opened Text

  datatype EventRegistration = EventRegistration(
    id: int,
    eventId: int,
    volunteerId: int,
    status: Option<Str>,
    notes: Option<Str>)

  predicate IsConfirmed(r: EventRegistration) { r.status == Some("confirmed") }
  predicate IsCancelled(r: EventRegistration) { r.status == Some("cancelled") }
  predicate IsAttended(r: EventRegistration) { r.status == Some("attended") }

  /** At most one of the three status predicates holds, and a null status
      satisfies none of them. */
  lemma StatusPredicatesExclusive(r: EventRegistration)
    ensures !(IsConfirmed(r) && IsCancelled(r))
    ensures !(IsConfirmed(r) && IsAttended(r))
    ensures !(IsCancelled(r) && IsAttended(r))
    ensures r.status.None? ==> !IsConfirmed(r) && !IsCancelled(r) && !IsAttended(r)
  {
  }

  /** The comparison is case-sensitive: the upper-case spellings are not
      recognised. */
  lemma UpperCaseIsNotRecognised(r: EventRegistration)
    ensures r.status == Some("CONFIRMED") ==> !IsConfirmed(r)
    ensures r.status == Some("CANCELLED") ==> !IsCancelled(r)
  {
  }
}

=== FILE: event_registration_dao.dfy ===
/** The `event_registrations` table and `EventRegistrationDAO`
    (dao/EventRegistrationDAO.java), with the table as an immutable value.

    The DAO performs no admission control: `register` inserts a CONFIRMED
    row whatever the table already holds — no capacity check, no duplicate
    check, no lock — and nothing here keeps an event's stored
    `volunteers_registered` in step with these rows. The lemmas below state
    what the code does, including the duplicates it lets through. */
module EventRegistrationDao {
  import opened Text
  import opened Query
  import RegistrationModel

  /** The status argument of `updateStatus`: CONFIRMED, CANCELLED, or any
      other constant of the enum, by its name. */
  datatype RegistrationStatus = Confirmed | Cancelled | Other(name: Str)

  const ConfirmedName: Str := "CONFIRMED"
  const CancelledName: Str := "CANCELLED"

  /** The string stored in the status column (`status.name()`). */
  function StatusName(s: RegistrationStatus): Str {
    match s
    case Confirmed => ConfirmedName
    case Cancelled => CancelledName
    case Other(n) => n
  }

  /** One row; the status is the string in the column, which is what the
      queries compare, and `registeredAt` is the database's default
      timestamp. */
  datatype Registration = Registration(
    id: int,
    eventId: int,
    volunteerId: int,
    status: Str,
    registeredAt: int)

  /** The table: its rows in storage order and the next AUTO_INCREMENT key. */
  datatype Table = Table(rows: seq<Registration>, nextId: int)

  function Key(x: Registration): int { x.id }

  /** Primary-key discipline: ids are distinct and below the next key. */
  predicate Valid(t: Table) {
    && DistinctKeys(Key, t.rows)
    && (forall i :: 0 <= i < |t.rows| ==> t.rows[i].id < t.nextId)
  }

  predicate HasId(t: Table, id: int) {
    exists i :: 0 <= i < |t.rows| && t.rows[i].id == id
  }

  // ------------------------------------------------------ WHERE conditions

  function IdIs(id: int): Registration -> bool { (x: Registration) => x.id == id }
  function IdIsNot(id: int): Registration -> bool { (x: Registration) => x.id != id }
  function EventIs(eventId: int): Registration -> bool { (x: Registration) => x.eventId == eventId }
  function VolunteerIs(volunteerId: int): Registration -> bool {
    (x: Registration) => x.volunteerId == volunteerId
  }
  function PairIs(eventId: int, volunteerId: int): Registration -> bool {
    (x: Registration) => x.eventId == eventId && x.volunteerId == volunteerId
  }
  /** `event_id = ? AND status = 'CONFIRMED'` */
  function ConfirmedFor(eventId: int): Registration -> bool {
    (x: Registration) => x.eventId == eventId && x.status == ConfirmedName
  }
  /** `event_id = ? AND volunteer_id = ? AND status != 'CANCELLED'` */
  function ActiveFor(eventId: int, volunteerId: int): Registration -> bool {
    (x: Registration) => x.eventId == eventId && x.volunteerId == volunteerId && x.status != CancelledName
  }

  // ------------------------------------------------------------- orderings

  predicate RegisteredAtAsc(a: Registration, b: Registration) { a.registeredAt <= b.registeredAt }
  predicate RegisteredAtDesc(a: Registration, b: Registration) { a.registeredAt >= b.registeredAt }

  lemma OrderingsArePreorders()
    ensures TotalPreorder(RegisteredAtAsc)
    ensures TotalPreorder(RegisteredAtDesc)
  {
  }

  // --------------------------------------------------------------- finders

  /** `findById`: the row with that key, if any. */
  function FindById(t: Table, id: int): (r: Option<Registration>)
    ensures r.Some? ==> r.value in t.rows && r.value.id == id
    ensures r.None? <==> !HasId(t, id)
  {
    First(IdIs(id), t.rows)
  }

  /** `findByEventAndVolunteer`: SOME row for the pair, whatever its status
      (the query has no status filter). */
  function FindByEventAndVolunteer(t: Table, eventId: int, volunteerId: int): (r: Option<Registration>)
    ensures r.Some? ==> r.value in t.rows && r.value.eventId == eventId && r.value.volunteerId == volunteerId
    ensures r.None? <==> forall i :: 0 <= i < |t.rows| ==>
      !(t.rows[i].eventId == eventId && t.rows[i].volunteerId == volunteerId)
  {
    First(PairIs(eventId, volunteerId), t.rows)
  }

  /** `findByEventId`: exactly the event's rows, oldest registration first. */
  function FindByEventId(t: Table, eventId: int): (r: seq<Registration>)
    ensures Sorted(RegisteredAtAsc, r)
    ensures multiset(r) == multiset(Where(EventIs(eventId), t.rows))
    ensures forall i :: 0 <= i < |r| ==> r[i] in t.rows && r[i].eventId == eventId
    ensures forall i :: 0 <= i < |t.rows| && t.rows[i].eventId == eventId ==> t.rows[i] in r
  {
    OrderingsArePreorders();
    Select(EventIs(eventId), RegisteredAtAsc, t.rows)
  }

  /** `findByVolunteerId`: exactly the volunteer's rows, newest first. */
  function FindByVolunteerId(t: Table, volunteerId: int): (r: seq<Registration>)
    ensures Sorted(RegisteredAtDesc, r)
    ensures multiset(r) == multiset(Where(VolunteerIs(volunteerId), t.rows))
    ensures forall i :: 0 <= i < |r| ==> r[i] in t.rows && r[i].volunteerId == volunteerId
    ensures forall i :: 0 <= i < |t.rows| && t.rows[i].volunteerId == volunteerId ==> t.rows[i] in r
  {
    OrderingsArePreorders();
    Select(VolunteerIs(volunteerId), RegisteredAtDesc, t.rows)
  }

  /** `findConfirmedByEventId`: exactly the event's CONFIRMED rows, oldest
      first. */
  function FindConfirmedByEventId(t: Table, eventId: int): (r: seq<Registration>)
    ensures Sorted(RegisteredAtAsc, r)
    ensures multiset(r) == multiset(Where(ConfirmedFor(eventId), t.rows))
    ensures forall i :: 0 <= i < |r| ==> r[i] in t.rows && r[i].eventId == eventId && r[i].status == ConfirmedName
    ensures forall i :: 0 <= i < |t.rows| && t.rows[i].eventId == eventId && t.rows[i].status == ConfirmedName ==>
      t.rows[i] in r
  {
    OrderingsArePreorders();
    Select(ConfirmedFor(eventId), RegisteredAtAsc, t.rows)
  }

  /** `countConfirmedByEventId`: `SELECT COUNT(*)` over the same condition. */
  function CountConfirmedByEventId(t: Table, eventId: int): (r: nat)
    ensures r == |Where(ConfirmedFor(eventId), t.rows)|
    ensures r > 0 <==> exists i :: 0 <= i < |t.rows| && t.rows[i].eventId == eventId && t.rows[i].status == ConfirmedName
  {
    CountIsSizeOfWhere(ConfirmedFor(eventId), t.rows);
    CountPositive(ConfirmedFor(eventId), t.rows);
    Count(ConfirmedFor(eventId), t.rows)
  }

  /** `isVolunteerRegistered`: some row for the pair is not CANCELLED — any
      status other than CANCELLED counts, not only CONFIRMED. */
  function IsVolunteerRegistered(t: Table, eventId: int, volunteerId: int): (r: bool)
    ensures r <==>
      exists i :: 0 <= i < |t.rows| && t.rows[i].eventId == eventId
        && t.rows[i].volunteerId == volunteerId && t.rows[i].status != CancelledName
  {
    CountPositive(ActiveFor(eventId, volunteerId), t.rows);
    Count(ActiveFor(eventId, volunteerId), t.rows) > 0
  }

  // -------------------------------------------------------------- updates

  /** `register`: inserts one CONFIRMED row under a fresh key and returns
      it. It never fails, whatever rows exist for the event or the pair. */
  function Register(t: Table, eventId: int, volunteerId: int, now: int): (r: (Table, Registration))
    ensures r.0.rows == t.rows + [r.1]
    ensures r.1.eventId == eventId && r.1.volunteerId == volunteerId && r.1.status == ConfirmedName
    ensures Valid(t) ==> !HasId(t, r.1.id) && Valid(r.0)
  {
    var row := Registration(t.nextId, eventId, volunteerId, StatusName(Confirmed), now);
    (Table(t.rows + [row], t.nextId + 1), row)
  }

  /** `updateStatus`: rewrites the status of the row with that key and
      reports whether there was one; nothing else changes. A null status
      throws at `status.name()` before anything is written. */
  function UpdateStatus(t: Table, id: int, status: Option<RegistrationStatus>): (r: Result<(Table, bool)>)
    ensures r.Err? <==> status.None?
    ensures r.Err? ==> r.error == NullPointer
    ensures r.Ok? ==> (r.value.1 <==> HasId(t, id))
    ensures r.Ok? ==> r.value.0.nextId == t.nextId && |r.value.0.rows| == |t.rows|
    ensures r.Ok? ==> forall i :: 0 <= i < |t.rows| ==>
      && r.value.0.rows[i].(status := t.rows[i].status) == t.rows[i]
      && (t.rows[i].id == id ==> r.value.0.rows[i].status == StatusName(status.value))
      && (t.rows[i].id != id ==> r.value.0.rows[i] == t.rows[i])
    ensures r.Ok? && !r.value.1 ==> r.value.0 == t
    ensures r.Ok? && Valid(t) ==> Valid(r.value.0)
  {
    if status.None? then Err(NullPointer)
    else
      var rows := seq(|t.rows|, i requires 0 <= i < |t.rows| =>
        if t.rows[i].id == id then t.rows[i].(status := StatusName(status.value)) else t.rows[i]);
      Ok((Table(rows, t.nextId), HasId(t, id)))
  }

  /** `cancel` is `updateStatus` with CANCELLED. */
  function Cancel(t: Table, id: int): (r: (Table, bool))
    ensures r.1 <==> HasId(t, id)
    ensures !r.1 ==> r.0 == t
    ensures r.0.nextId == t.nextId && |r.0.rows| == |t.rows|
    ensures forall i :: 0 <= i < |t.rows| ==>
      && r.0.rows[i].(status := t.rows[i].status) == t.rows[i]
      && (t.rows[i].id == id ==> r.0.rows[i].status == CancelledName)
      && (t.rows[i].id != id ==> r.0.rows[i] == t.rows[i])
    ensures Valid(t) ==> Valid(r.0)
  {
    UpdateStatus(t, id, Some(Cancelled)).value
  }

  /** `delete`: removes the row with that key and reports whether there was
      one; every other row stays, in order. */
  function Delete(t: Table, id: int): (r: (Table, bool))
    ensures r.1 <==> HasId(t, id)
    ensures r.0.nextId == t.nextId
    ensures r.0.rows == Where(IdIsNot(id), t.rows)
    ensures !HasId(r.0, id)
    ensures !r.1 ==> r.0 == t
    ensures Valid(t) ==> Valid(r.0)
  {
    var rows := Where(IdIsNot(id), t.rows);
    assert !HasId(t, id) ==> rows == t.rows by {
      if !HasId(t, id) {
        WhereAll(IdIsNot(id), t.rows);
      }
    }
    assert Valid(t) ==> DistinctKeys(Key, rows) by {
      if Valid(t) {
        WhereKeepsDistinct(Key, IdIsNot(id), t.rows);
      }
    }
    (Table(rows, t.nextId), HasId(t, id))
  }

  // --------------------------------------------------------- properties

  /** The count and the list of an event's confirmed registrations agree. */
  lemma CountMatchesFind(t: Table, eventId: int)
    ensures CountConfirmedByEventId(t, eventId) == |FindConfirmedByEventId(t, eventId)|
  {
    CountIsSizeOfWhere(ConfirmedFor(eventId), t.rows);
  }

  /** After `register(e, v)` the confirmed count of e is exactly one larger
      and every other event's count is unchanged — with no precondition on
      the event's capacity or on earlier rows for the pair. */
  lemma RegisterCounts(t: Table, e: int, v: int, now: int, other: int)
    ensures CountConfirmedByEventId(Register(t, e, v, now).0, e) == CountConfirmedByEventId(t, e) + 1
    ensures other != e ==>
      CountConfirmedByEventId(Register(t, e, v, now).0, other) == CountConfirmedByEventId(t, other)
  {
    var row := Register(t, e, v, now).1;
    CountAppend(ConfirmedFor(e), t.rows, [row]);
    CountAppend(ConfirmedFor(other), t.rows, [row]);
  }

  /** `isVolunteerRegistered(e, v)` holds right after `register(e, v)`. */
  lemma RegisteredAfterRegister(t: Table, e: int, v: int, now: int)
    ensures IsVolunteerRegistered(Register(t, e, v, now).0, e, v)
  {
    var after := Register(t, e, v, now).0;
    assert ActiveFor(e, v)(after.rows[|after.rows| - 1]);
  }

  /** Registering the same pair twice is accepted and leaves two CONFIRMED
      rows for it: the DAO has no duplicate check. */
  lemma DuplicateRegistrationAccepted(t: Table, e: int, v: int, now: int)
    requires Valid(t)
    ensures var (t1, r1) := Register(t, e, v, now);
            var (t2, r2) := Register(t1, e, v, now);
            && r1.id != r2.id
            && r1.eventId == r2.eventId && r1.volunteerId == r2.volunteerId
            && r1.status == r2.status == ConfirmedName
            && CountConfirmedByEventId(t2, e) == CountConfirmedByEventId(t, e) + 2
  {
    var t1 := Register(t, e, v, now).0;
    RegisterCounts(t, e, v, now, e);
    RegisterCounts(t1, e, v, now, e);
  }

  /** The queries compare the stored string, so a status given as another
      enum constant whose name is "CONFIRMED" counts as confirmed, like the
      row `register` writes. */
  lemma StatusIsComparedByName(t: Table, id: int, e: int)
    requires Valid(t)
    requires exists i :: 0 <= i < |t.rows| && t.rows[i].id == id && t.rows[i].eventId == e
    ensures CountConfirmedByEventId(UpdateStatus(t, id, Some(Other(ConfirmedName))).value.0, e)
         == CountConfirmedByEventId(UpdateStatus(t, id, Some(Confirmed)).value.0, e)
    ensures CountConfirmedByEventId(UpdateStatus(t, id, Some(Confirmed)).value.0, e) > 0
  {
    var a := UpdateStatus(t, id, Some(Other(ConfirmedName))).value.0;
    var b := UpdateStatus(t, id, Some(Confirmed)).value.0;
    assert a.rows == b.rows;
    var i :| 0 <= i < |t.rows| && t.rows[i].id == id && t.rows[i].eventId == e;
    assert b.rows[i].eventId == e && b.rows[i].status == ConfirmedName;
  }

  /** Cancelling a row twice leaves the table as cancelling it once. */
  lemma {:induction false} CancelIdempotent(t: Table, id: int)
    ensures Cancel(Cancel(t, id).0, id).0 == Cancel(t, id).0
    ensures Cancel(Cancel(t, id).0, id).1 == Cancel(t, id).1
  {
    var once := Cancel(t, id).0;
    var twice := Cancel(once, id).0;
    assert |twice.rows| == |once.rows|;
    forall i | 0 <= i < |once.rows| ensures twice.rows[i] == once.rows[i] {
      assert once.rows[i].id == t.rows[i].id;
    }
    if HasId(t, id) {
      var i :| 0 <= i < |t.rows| && t.rows[i].id == id;
      assert once.rows[i].id == id;
    } else {
      assert once == t;
    }
  }

  /** Cancelling moves the row out of the event's confirmed count and out of
      `isVolunteerRegistered`, but `findByEventAndVolunteer` still finds a
      row for the pair. */
  lemma CancelAfterRegister(t: Table, e: int, v: int, now: int)
    requires Valid(t)
    requires CountConfirmedByEventId(t, e) == 0
    requires !IsVolunteerRegistered(t, e, v)
    ensures var (t1, row) := Register(t, e, v, now);
            var t2 := Cancel(t1, row.id).0;
            && CountConfirmedByEventId(t2, e) == 0
            && !IsVolunteerRegistered(t2, e, v)
            && FindByEventAndVolunteer(t2, e, v).Some?
  {
    var (t1, row) := Register(t, e, v, now);
    var t2 := Cancel(t1, row.id).0;
    var n := |t.rows|;
    assert t1.rows[n] == row;
    assert t2.rows[n].status == CancelledName;
    forall i | 0 <= i < n ensures t2.rows[i] == t.rows[i] {
      assert t1.rows[i] == t.rows[i];
    }
    assert t2.rows == t.rows + [t2.rows[n]];
    CountAppend(ConfirmedFor(e), t.rows, [t2.rows[n]]);
    CountAppend(ActiveFor(e, v), t.rows, [t2.rows[n]]);
    assert t2.rows[n].eventId == e && t2.rows[n].volunteerId == v;
  }

  /** The row `register` writes carries the upper-case status name, which the
      entity's `isConfirmed` (a case-sensitive comparison with "confirmed")
      rejects. */
  lemma RegisteredRowIsNotEntityConfirmed(t: Table, e: int, v: int, now: int)
    ensures var row := Register(t, e, v, now).1;
            !RegistrationModel.IsConfirmed(RegistrationModel.EventRegistration(
               row.id, row.eventId, row.volunteerId, Some(row.status), None))
  {
  }
}

=== FILE: events_js.dfy ===
/** events.js: the base-URL helper, the category and status filters over
    the query string, the card search, and the time check of the event
    form. */
module EventsJs {
  import opened Text
  import opened UrlPath

  // ------------------------------------------------------------ getBaseUrl

  const ProjectSegment: Str := "COMP2140_Software_Project"
  const DefaultBase: Str := "/COMP2140_Software_Project/"

  function Min(a: int, b: int): int { if a <= b then a else b }

  /** The rule of `getBaseUrl` over the segments of the path, for a marker
      segment `seg`: the segments before the first `seg` and `keep` more
      starting with `seg` itself (fewer if the path ends sooner), joined
      and followed by '/'; `fallback` when `seg` does not occur. */
  function BaseOf(parts: seq<Str>, seg: Str, keep: nat, fallback: Str): Str {
    var index := IndexOf(parts, seg);
    if index < |parts| then Join(parts[..Min(index + keep, |parts|)]) + "/" else fallback
  }

  /** `getBaseUrl()` when `window.location.pathname` is `path`: it keeps
      two segments from the project segment on. */
  function GetBaseUrl(path: Str): (r: Str)
    ensures |r| >= 1 && r[|r| - 1] == '/'
    ensures ProjectSegment !in Split(path) ==> r == DefaultBase
  {
    BaseOf(Split(path), ProjectSegment, 2, DefaultBase)
  }

  /** The first `n` segments of a path, joined, split back into the same
      segments and spell a prefix of the path. */
  lemma LeadingSegments(path: Str, n: int)
    requires 1 <= n <= |Split(path)|
    ensures Split(Join(Split(path)[..n])) == Split(path)[..n]
    ensures |Join(Split(path)[..n])| <= |path| && path[..|Join(Split(path)[..n])|] == Join(Split(path)[..n])
  {
    var parts := Split(path);
    var lead := parts[..n];
    forall i | 0 <= i < |lead| ensures '/' !in lead[i] {
      assert lead[i] == parts[i];
    }
    SplitJoin(lead);
    JoinPrefix(parts, n);
    JoinSplit(path);
  }

  /** `r` is the join of the leading segments the rule keeps, followed by
      '/', and that join spells the head of `path`. */
  predicate LeadShape(path: Str, parts: seq<Str>, seg: Str, keep: nat, r: Str) {
    var n := Min(IndexOf(parts, seg) + keep, |parts|);
    && 1 <= n <= |parts|
    && r == Join(parts[..n]) + "/"
    && |Join(parts[..n])| <= |path| && path[..|Join(parts[..n])|] == Join(parts[..n])
  }

  /** The rule, for any marker that occurs and any positive count, on the
      segments of any path they join to. */
  lemma {:induction false} ShapeOf(path: Str, parts: seq<Str>, seg: Str, keep: nat, fallback: Str)
    requires Join(parts) == path && seg in parts && keep >= 1
    ensures LeadShape(path, parts, seg, keep, BaseOf(parts, seg, keep, fallback))
  {
    var n := Min(IndexOf(parts, seg) + keep, |parts|);
    JoinPrefix(parts, n);
  }

  /** For a path made of slash-free segments among which the project
      segment occurs, at first position `k`, the base URL is the first
      `k + 2` segments (fewer if the path ends sooner), joined and followed
      by '/', and without that '/' it is a prefix of the path;
      `LeadingSegments` says those segments are what splitting it gives
      back. */
  lemma BaseUrlShape(parts: seq<Str>)
    requires forall i :: 0 <= i < |parts| ==> '/' !in parts[i]
    requires ProjectSegment in parts
    ensures LeadShape(Join(parts), parts, ProjectSegment, 2, GetBaseUrl(Join(parts)))
  {
    SplitJoin(parts);
    ShapeOf(Join(parts), parts, ProjectSegment, 2, DefaultBase);
  }

  /** The base URL the code evidently means: the segments up to and
      including the project segment, which is what the fallback value and
      the server's `BASE_URL` path are. */
  function IntendedBaseUrl(path: Str): (r: Str)
    ensures |r| >= 1 && r[|r| - 1] == '/'
    ensures ProjectSegment !in Split(path) ==> r == DefaultBase
  {
    BaseOf(Split(path), ProjectSegment, 1, DefaultBase)
  }

  lemma Join2(x: Str, y: Str)
    ensures Join([x, y]) == x + "/" + y
  {
    assert [x, y][1..] == [y];
  }

  lemma Join3(x: Str, y: Str, z: Str)
    ensures Join([x, y, z]) == x + "/" + y + "/" + z
  {
    assert [x, y, z][1..] == [y, z];
    Join2(y, z);
  }

  lemma DefaultBaseIsProjectRoot()
    ensures DefaultBase == "/" + ProjectSegment + "/"
  {
  }

  /** On the segments of a path `/seg/...`, keeping one segment from `seg`
      gives `/seg/` and keeping two gives `/seg/<next>/`. */
  lemma RootOf(parts: seq<Str>, seg: Str, fallback: Str)
    requires seg != [] && |parts| >= 2 && parts[0] == "" && parts[1] == seg
    ensures BaseOf(parts, seg, 1, fallback) == "/" + seg + "/"
    ensures |parts| >= 3 ==> BaseOf(parts, seg, 2, fallback) == "/" + seg + "/" + parts[2] + "/"
  {
    assert parts[0] != seg;
    assert IndexOf(parts, seg) == 1;
    assert parts[..2] == ["", seg];
    Join2("", seg);
    if |parts| >= 3 {
      assert parts[..3] == ["", seg, parts[2]];
      Join3("", seg, parts[2]);
    }
  }

  lemma ProjectSegmentHasNoSlash()
    ensures '/' !in ProjectSegment
  {
  }

  /** A page under `/COMP2140_Software_Project/` splits into an empty
      piece, the project segment and the pieces of the rest. */
  lemma ProjectPageSegments(rest: Str)
    ensures Split(DefaultBase + rest) == ["", ProjectSegment] + Split(rest)
  {
    DefaultBaseIsProjectRoot();
    ProjectSegmentHasNoSlash();
    SplitAfterTwo([], ProjectSegment, rest);
    assert DefaultBase + rest == [] + "/" + ProjectSegment + "/" + rest;
  }

  /** For every page of the application deployed at
      `/COMP2140_Software_Project/`, the intended base is exactly that
      prefix, whatever follows it. */
  lemma IntendedBaseIsProjectRoot(rest: Str)
    ensures IntendedBaseUrl(DefaultBase + rest) == DefaultBase
  {
    ProjectPageSegments(rest);
    RootOf(Split(DefaultBase + rest), ProjectSegment, DefaultBase);
    DefaultBaseIsProjectRoot();
  }

  /** As written, every page under the project root gets the first piece
      after the root added to its base: `/COMP2140_Software_Project/views/events.php`
      gets `/COMP2140_Software_Project/views/`, a page directly under the
      root such as `/COMP2140_Software_Project/index.php` gets
      `/COMP2140_Software_Project/index.php/`, and the root itself gets
      `/COMP2140_Software_Project//`; so the result is never the intended
      base. */
  lemma BaseUrlKeepsExtraSegment(rest: Str)
    ensures GetBaseUrl(DefaultBase + rest) == DefaultBase + Split(rest)[0] + "/"
    ensures GetBaseUrl(DefaultBase + rest) != IntendedBaseUrl(DefaultBase + rest)
  {
    ProjectPageSegments(rest);
    RootOf(Split(DefaultBase + rest), ProjectSegment, DefaultBase);
    DefaultBaseIsProjectRoot();
    IntendedBaseIsProjectRoot(rest);
    assert |GetBaseUrl(DefaultBase + rest)| > |DefaultBase|;
  }

  // ------------------------------------------------- query-string filters

  /** One `name=value` pair of `URLSearchParams`, in order. */
  datatype Param = Param(name: Str, value: Str)

  /** `searchParams.getAll(name)`. */
  function GetAll(ps: seq<Param>, name: Str): (r: seq<Str>)
    ensures |r| <= |ps|
  {
    if ps == [] then []
    else (if ps[0].name == name then [ps[0].value] else []) + GetAll(ps[1..], name)
  }

  /** `searchParams.delete(name)`: every pair with that name goes; the
      others stay in order. */
  function Delete(ps: seq<Param>, name: Str): (r: seq<Param>)
    ensures GetAll(r, name) == []
    ensures forall k :: k != name ==> GetAll(r, k) == GetAll(ps, k)
  {
    if ps == [] then []
    else if ps[0].name == name then Delete(ps[1..], name)
    else [ps[0]] + Delete(ps[1..], name)
  }

  /** `searchParams.set(name, value)`: the first pair with that name takes
      the value and later ones are removed; with none, the pair is
      appended. */
  function Set(ps: seq<Param>, name: Str, value: Str): (r: seq<Param>)
    ensures GetAll(r, name) == [value]
    ensures forall k :: k != name ==> GetAll(r, k) == GetAll(ps, k)
  {
    if ps == [] then [Param(name, value)]
    else if ps[0].name == name then [Param(name, value)] + Delete(ps[1..], name)
    else [ps[0]] + Set(ps[1..], name, value)
  }

  /** `filterByCategory(category)`: the query string it navigates to. */
  function FilterByCategory(ps: seq<Param>, category: Str): (r: seq<Param>)
    ensures GetAll(r, "status") == []
    ensures GetAll(r, "category") == (if category != [] then [category] else [])
    ensures forall k :: k != "category" && k != "status" ==> GetAll(r, k) == GetAll(ps, k)
  {
    var withCategory := if category != [] then Set(ps, "category", category) else Delete(ps, "category");
    Delete(withCategory, "status")
  }

  /** `filterByStatus(status)`: the mirror image of `FilterByCategory`. */
  function FilterByStatus(ps: seq<Param>, status: Str): (r: seq<Param>)
    ensures GetAll(r, "category") == []
    ensures GetAll(r, "status") == (if status != [] then [status] else [])
    ensures forall k :: k != "category" && k != "status" ==> GetAll(r, k) == GetAll(ps, k)
  {
    var withStatus := if status != [] then Set(ps, "status", status) else Delete(ps, "status");
    Delete(withStatus, "category")
  }

  /** Choosing a category after a status forgets the status, and the other
      way round. */
  lemma FiltersReplaceEachOther(ps: seq<Param>, category: Str, status: Str)
    ensures GetAll(FilterByCategory(FilterByStatus(ps, status), category), "status") == []
    ensures GetAll(FilterByStatus(FilterByCategory(ps, category), status), "category") == []
  {
  }

  // ---------------------------------------------------------- searchEvents

  /** `searchEvents(term)`: for each card text, whether the card stays
      visible. */
  function SearchEvents(cards: seq<Str>, term: Str): (r: seq<bool>)
    ensures |r| == |cards|
    ensures forall i :: 0 <= i < |cards| ==> (r[i] <==> Contains(Lower(cards[i]), Lower(term)))
  {
    seq(|cards|, i requires 0 <= i < |cards| => Contains(Lower(cards[i]), Lower(term)))
  }

  /** An empty search term shows every card. */
  lemma EmptyTermShowsAll(cards: seq<Str>)
    ensures forall i :: 0 <= i < |cards| ==> SearchEvents(cards, "")[i]
  {
    forall i | 0 <= i < |cards| ensures SearchEvents(cards, "")[i] {
      ContainsEmpty(Lower(cards[i]));
    }
  }

  /** Shortening the term to a piece of it never hides a card: every card
      visible for `term` stays visible for `piece`. */
  lemma ShorterTermShowsMore(cards: seq<Str>, term: Str, piece: Str)
    requires Contains(term, piece)
    ensures forall i :: 0 <= i < |cards| && SearchEvents(cards, term)[i] ==> SearchEvents(cards, piece)[i]
  {
    LowerKeepsContains(term, piece);
    forall i | 0 <= i < |cards| && SearchEvents(cards, term)[i] ensures SearchEvents(cards, piece)[i] {
      ContainsTransitive(Lower(cards[i]), Lower(term), Lower(piece));
    }
  }

  // ---------------------------------------------------- validateEventForm

  /** `a <= b` on JavaScript strings: lexicographic by code unit. */
  predicate StringLessOrEqual(a: Str, b: Str)
    decreases |a|
  {
    a == [] || (b != [] && (a[0] < b[0] || (a[0] == b[0] && StringLessOrEqual(a[1..], b[1..]))))
  }

  const TimeOrderMessage: Str := "End time must be after start time"
  const PastDateMessage: Str := "Event date cannot be in the past"

  /** The outcome of `validateEventForm`: submit, or an alert. */
  datatype Verdict = Accept | Reject(alert: Str)

  /** `validateEventForm()` with the two time fields and the outcome of the
      date comparison against the clock, which is not modelled. */
  function ValidateEventForm(startTime: Str, endTime: Str, dateInPast: bool): (r: Verdict)
    ensures startTime != [] && endTime != [] && StringLessOrEqual(endTime, startTime) ==> r == Reject(TimeOrderMessage)
    ensures r.Accept? <==>
      !(startTime != [] && endTime != [] && StringLessOrEqual(endTime, startTime)) && !dateInPast
    ensures r.Reject? && r.alert != TimeOrderMessage ==> r.alert == PastDateMessage && dateInPast
    ensures !(startTime != [] && endTime != [] && StringLessOrEqual(endTime, startTime)) && dateInPast ==>
      r == Reject(PastDateMessage)
  {
    if startTime != [] && endTime != [] && StringLessOrEqual(endTime, startTime) then Reject(TimeOrderMessage)
    else if dateInPast then Reject(PastDateMessage)
    else Accept
  }

  /** An `HH:MM` value of a time input. */
  predicate IsClockTime(t: Str) {
    |t| == 5 && IsDigit(t[0]) && IsDigit(t[1]) && t[2] == ':' && IsDigit(t[3]) && IsDigit(t[4])
  }

  function Hours(t: Str): nat
    requires IsClockTime(t)
  {
    10 * DigitValue(t[0]) + DigitValue(t[1])
  }

  function Minutes(t: Str): nat
    requires IsClockTime(t)
  {
    10 * DigitValue(t[3]) + DigitValue(t[4])
  }

  /** For two filled-in `HH:MM` times, the form is refused for its times
      exactly when the end is not later on the clock than the start, and a
      date in the past is only reported for times in the right order. */
  lemma EventFormClockOrder(startTime: Str, endTime: Str, dateInPast: bool)
    requires IsClockTime(startTime) && IsClockTime(endTime)
    ensures var clockOrder :=
      Hours(startTime) < Hours(endTime) || (Hours(startTime) == Hours(endTime) && Minutes(startTime) < Minutes(endTime));
      && (ValidateEventForm(startTime, endTime, dateInPast) == Reject(TimeOrderMessage) <==> !clockOrder)
      && (ValidateEventForm(startTime, endTime, dateInPast) == Accept <==> clockOrder && !dateInPast)
  {
    TimeOrderIsClockOrder(endTime, startTime);
    assert TimeOrderMessage != PastDateMessage;
  }

  /** A blank time field switches the time check off: only the date
      decides, whatever the other field holds. */
  lemma BlankTimeSkipsTimeCheck(time: Str, dateInPast: bool)
    ensures ValidateEventForm(time, [], dateInPast) == ValidateEventForm([], time, dateInPast)
    ensures ValidateEventForm(time, [], dateInPast) == if dateInPast then Reject(PastDateMessage) else Accept
  {
  }

  /** Two-digit numbers compare as their digit strings do. */
  lemma TwoDigitOrder(x0: char, x1: char, y0: char, y1: char)
    requires IsDigit(x0) && IsDigit(x1) && IsDigit(y0) && IsDigit(y1)
    ensures 10 * DigitValue(x0) + DigitValue(x1) < 10 * DigitValue(y0) + DigitValue(y1)
      <==> x0 < y0 || (x0 == y0 && x1 < y1)
    ensures 10 * DigitValue(x0) + DigitValue(x1) <= 10 * DigitValue(y0) + DigitValue(y1)
      <==> x0 < y0 || (x0 == y0 && x1 <= y1)
  {
  }

  /** For two `HH:MM` values the string comparison the form uses is the
      order of the clock times. */
  lemma TimeOrderIsClockOrder(a: Str, b: Str)
    requires IsClockTime(a) && IsClockTime(b)
    ensures StringLessOrEqual(a, b) <==> Hours(a) < Hours(b) || (Hours(a) == Hours(b) && Minutes(a) <= Minutes(b))
  {
    var a1, a2, a3, a4 := a[1..], a[2..], a[3..], a[4..];
    var b1, b2, b3, b4 := b[1..], b[2..], b[3..], b[4..];
    assert a1[1..] == a2 && a2[1..] == a3 && a3[1..] == a4 && a4[1..] == [];
    assert b1[1..] == b2 && b2[1..] == b3 && b3[1..] == b4 && b4[1..] == [];
    assert StringLessOrEqual(a4, b4) <==> a[4] <= b[4];
    assert StringLessOrEqual(a3, b3) <==> a[3] < b[3] || (a[3] == b[3] && a[4] <= b[4]);
    assert StringLessOrEqual(a2, b2) <==> StringLessOrEqual(a3, b3);
    assert StringLessOrEqual(a1, b1) <==> a[1] < b[1] || (a[1] == b[1] && StringLessOrEqual(a2, b2));
    TwoDigitOrder(a[0], a[1], b[0], b[1]);
    TwoDigitOrder(a[3], a[4], b[3], b[4]);
  }
}

=== FILE: http_session.dfy ===
/** The part of the servlet container the two filters read: an optional
    `HttpSession` (what `getSession(false)` returns) and its attributes. */
module HttpSession {
  import opened Text

  /** An attribute value: a `String`, an `Integer` (the login servlet
      stores the user id as one), or any other object. */
  datatype Attr = AttrString(s: Str) | AttrInt(i: int) | AttrObject

  /** The attributes of a session; an absent key reads as `null`. */
  type Session = map<Str, Attr>
}

=== FILE: main_js.dfy ===
/** The form helpers of main.js: `validateEmail`, `validatePhone`, and the
    decision `validateForm` makes over the required inputs of a form. */
module MainJs {
  import opened Text
  import AppJs

  // ------------------------------------------------------------------ email

  /** `validateEmail`: the regular expression of `Validator.isValidEmail`,
      written out a second time in main.js. */
  function ValidateEmail(s: Str): (r: bool)
    ensures r == AppJs.IsValidEmail(s)
    ensures r <==> AppJs.EmailScan(s)
  {
    exists a, d | 0 <= a < |s| && 0 <= d < |s| :: AppJs.EmailSplit(s, a, d)
  }

  // ------------------------------------------------------------------ phone

  /** `[\s\-]`, removed before counting. */
  predicate IsSeparator(c: char) { IsJsSpace(c) || c == '-' }
  predicate NotSeparator(c: char) { !IsSeparator(c) }

  /** `validatePhone`: delete every whitespace character and '-', then
      exactly ten ASCII digits must remain. The PHP helper of the same name
      reads the same way but deletes only PCRE's six ASCII spaces, so the two
      are kept apart (`CrossLanguage.NoBreakSpaceSplitsPhoneRules`). */
  function ValidatePhone(s: Str): (r: bool)
    ensures r ==> |s| >= 10
  {
    var cleaned := Keep(NotSeparator, s);
    |cleaned| == 10 && AllDigits(cleaned)
  }

  /** Inserting separators anywhere never changes the verdict. */
  lemma {:induction false} SeparatorsDoNotMatter(a: Str, sep: Str, b: Str)
    requires forall i :: 0 <= i < |sep| ==> IsSeparator(sep[i])
    ensures ValidatePhone(a + sep + b) == ValidatePhone(a + b)
  {
    KeepAppend(NotSeparator, a + sep, b);
    KeepAppend(NotSeparator, a, sep);
    KeepAppend(NotSeparator, a, b);
    KeepNone(NotSeparator, sep);
    assert Keep(NotSeparator, a + sep + b) == Keep(NotSeparator, a) + Keep(NotSeparator, b);
  }

  /** On a string of digits alone nothing is deleted, so the count decides:
      exactly ten digits pass, and nine or eleven do not. */
  lemma DigitCountDecides(d: Str)
    requires AllDigits(d)
    ensures ValidatePhone(d) <==> |d| == 10
  {
    forall i | 0 <= i < |d| ensures NotSeparator(d[i]) {
      assert IsDigit(d[i]);
    }
    KeepAll(NotSeparator, d);
  }

  /** A '(', ')' or '+' anywhere makes the number invalid. */
  lemma {:induction false} BracketOrPlusRejects(s: Str, i: int)
    requires 0 <= i < |s| && (s[i] == '(' || s[i] == ')' || s[i] == '+')
    ensures !ValidatePhone(s)
  {
    var cleaned := Keep(NotSeparator, s);
    KeepMembers(NotSeparator, s, s[i]);
    assert s[i] in cleaned;
  }

  /** Every number `validatePhone` accepts also passes the looser
      `Validator.isValidPhone` of app.js. */
  lemma {:induction false} PhoneImpliesAppPhone(s: Str)
    requires ValidatePhone(s)
    ensures AppJs.IsValidPhone(s)
  {
    var cleaned := Keep(NotSeparator, s);
    forall i | 0 <= i < |s| ensures AppJs.IsPhoneChar(s[i]) {
      if NotSeparator(s[i]) {
        KeepMembers(NotSeparator, s, s[i]);
      }
    }
  }

  // ----------------------------------------------------------- validateForm

  /** `!value.trim()`: the value trims to the empty string, that is, it
      consists of whitespace only. */
  predicate IsBlank(v: Str) { OnlyOf(IsJsSpace, v) }

  lemma BlankIsTrimmedEmpty(v: Str)
    ensures IsBlank(v) <==> JsTrim(v) == []
  {
    StripEmptyIffOnlyOf(IsJsSpace, v);
  }

  /** A required input of the form: its `type`, `name` and raw `value`. */
  datatype Input = Input(kind: Str, name: Str, value: Str)

  const RequiredMessage: Str := "This field is required"
  const EmailMessage: Str := "Please enter a valid email address"
  const PhoneMessage: Str := "Please enter a valid 10-digit phone number"
  const MismatchMessage: Str := "Passwords do not match"

  /** The conditions under which `validateForm` marks an input as wrong.
      `password` is the value of the form's `input[name="password"]`, when
      there is one. Only the required check trims; the others read the raw
      value. */
  predicate Fails(input: Input, password: Option<Str>) {
    || IsBlank(input.value)
    || (input.kind == "email" && input.value != [] && !ValidateEmail(input.value))
    || (input.kind == "tel" && input.value != [] && !ValidatePhone(input.value))
    || (input.name == "confirm_password" && password.Some? && input.value != password.value)
  }

  /** What examining one input leaves behind: whether it set the form
      invalid, and the error message left on display. */
  datatype Outcome = Outcome(failed: bool, shown: Option<Str>)

  /** The body of the `forEach` for one input. Each `showError` first clears
      the previous message, so the last one shown stays. */
  function CheckInput(input: Input, password: Option<Str>): (r: Outcome)
    ensures r.failed <==> Fails(input, password)
    ensures r.failed <==> r.shown.Some?
  {
    var v := input.value;
    var o1 := if IsBlank(v) then Outcome(true, Some(RequiredMessage)) else Outcome(false, None);
    var o2 := if input.kind == "email" && v != [] && !ValidateEmail(v) then Outcome(true, Some(EmailMessage)) else o1;
    var o3 := if input.kind == "tel" && v != [] && !ValidatePhone(v) then Outcome(true, Some(PhoneMessage)) else o2;
    if input.name == "confirm_password" && password.Some? && v != password.value then Outcome(true, Some(MismatchMessage))
    else o3
  }

  /** `validateForm`: every required input is examined, with no early exit.
      The form is valid exactly when no input fails, and each input ends up
      showing an error exactly when it fails. */
  method ValidateForm(inputs: seq<Input>, password: Option<Str>) returns (ok: bool, shown: seq<Option<Str>>)
    ensures ok <==> forall i :: 0 <= i < |inputs| ==> !Fails(inputs[i], password)
    ensures |shown| == |inputs|
    ensures forall i :: 0 <= i < |inputs| ==> (shown[i].Some? <==> Fails(inputs[i], password))
    ensures forall i :: 0 <= i < |inputs| ==> shown[i] == CheckInput(inputs[i], password).shown
  {
    ok := true;
    shown := [];
    for i := 0 to |inputs|
      invariant |shown| == i
      invariant ok <==> forall j :: 0 <= j < i ==> !CheckInput(inputs[j], password).failed
      invariant forall j :: 0 <= j < i ==> shown[j] == CheckInput(inputs[j], password).shown
    {
      var o := CheckInput(inputs[i], password);
      if o.failed {
        ok := false;
      }
      shown := shown + [o.shown];
    }
    forall i | 0 <= i < |inputs| ensures CheckInput(inputs[i], password).failed <==> Fails(inputs[i], password) {
    }
  }
}

=== FILE: password_util.dfy ===
/** `PasswordUtil.isValidPassword`, the server's only password rule. Hashing
    and verification are BCrypt calls and appear in `UserDao` as
    function-valued parameters. */
module PasswordUtil {
  import opened Text

  /** The minimum length the server accepts. */
  const MinLength := 6

  /** `isValidPassword`: non-null and at least six characters; no
      character-class requirement. */
  function IsValidPassword(password: Option<Str>): (r: bool)
    ensures password.None? ==> !r
    ensures r ==> |password.value| >= MinLength
  {
    password.Some? && |password.value| >= MinLength
  }

  /** Only the length is inspected: two passwords of equal length get the
      same verdict. */
  lemma OnlyLengthMatters(p: Str, q: Str)
    requires |p| == |q|
    ensures IsValidPassword(Some(p)) == IsValidPassword(Some(q))
  {
  }

  /** Only the length is inspected: a password made of six spaces passes. */
  lemma SixSpacesAreValid()
    ensures IsValidPassword(Some("      "))
  {
  }

  /** Appending characters keeps a valid password valid. */
  lemma AppendKeepsValid(password: Str, more: Str)
    requires IsValidPassword(Some(password))
    ensures IsValidPassword(Some(password + more))
  {
  }
}

=== FILE: php_helpers.dfy ===
/** helpers/functions.php: the flash-message store, the session guards
    and the phone check, over an explicit `$_SESSION` map. */
module PhpHelpers {
  import opened Text

  // ------------------------------------------------------------ PHP values

  /** The PHP values a session entry can hold here (floats and objects are
      not modelled; an array is represented by its element count). */
  datatype PhpValue = PhpNull | PhpBool(b: bool) | PhpInt(i: int) | PhpString(s: Str) | PhpArray(count: nat)

  /** `$_SESSION`. */
  type Session = map<Str, PhpValue>

  /** PHP's conversion to boolean yields false. */
  predicate Falsy(v: PhpValue) {
    match v
    case PhpNull => true
    case PhpBool(b) => !b
    case PhpInt(i) => i == 0
    case PhpString(s) => s == "" || s == "0"
    case PhpArray(n) => n == 0
  }

  /** `isset($session[$key])`: present and not null. */
  predicate Isset(session: Session, key: Str) {
    key in session && session[key] != PhpNull
  }

  /** `empty($session[$key])`: absent or falsy. */
  predicate IsEmptyEntry(session: Session, key: Str) {
    !Isset(session, key) || Falsy(session[key])
  }

  // --------------------------------------------------------- flash messages

  /** `setFlashMessage($type, $message)`. */
  function SetFlashMessage(session: Session, kind: Str, message: PhpValue): (r: Session)
    ensures kind in r && r[kind] == message
    ensures forall k :: k != kind ==> (k in r <==> k in session)
    ensures forall k :: k != kind && k in session ==> r[k] == session[k]
  {
    session[kind := message]
  }

  /** `getFlashMessage($type)`: the message and the session after the call.
      A set message is returned and removed; an absent or null entry gives
      null and leaves the session as it was. */
  function GetFlashMessage(session: Session, kind: Str): (r: (PhpValue, Session))
    ensures Isset(session, kind) ==> r.0 == session[kind] && kind !in r.1
    ensures !Isset(session, kind) ==> r == (PhpNull, session)
    ensures forall k :: k != kind ==> (k in r.1 <==> k in session)
    ensures forall k :: k != kind && k in session ==> r.1[k] == session[k]
  {
    if Isset(session, kind) then (session[kind], session - {kind}) else (PhpNull, session)
  }

  /** A message that was set is read back once, then it is gone. */
  lemma FlashIsReadOnce(session: Session, kind: Str, message: PhpValue)
    requires message != PhpNull
    ensures var (m1, s1) := GetFlashMessage(SetFlashMessage(session, kind, message), kind);
      && m1 == message
      && s1 == session - {kind}
      && GetFlashMessage(s1, kind) == (PhpNull, s1)
  {
    var s0 := SetFlashMessage(session, kind, message);
    assert s0 - {kind} == session - {kind};
  }

  /** Setting a null message is the same as having none: nothing is read
      back, and the null entry stays. */
  lemma NullFlashIsNotRead(session: Session, kind: Str)
    ensures GetFlashMessage(SetFlashMessage(session, kind, PhpNull), kind).0 == PhpNull
  {
  }

  // -------------------------------------------------------- session guards

  /** `isLoggedIn()`: `user_id` is set and not PHP-empty. */
  function IsLoggedIn(session: Session): (r: bool)
    ensures r <==> "user_id" in session && !Falsy(session["user_id"])
  {
    Isset(session, "user_id") && !IsEmptyEntry(session, "user_id")
  }

  /** The user ids 0, "0" and "" all count as logged out. */
  lemma FalsyUserIdsAreLoggedOut(session: Session)
    ensures !IsLoggedIn(session["user_id" := PhpInt(0)])
    ensures !IsLoggedIn(session["user_id" := PhpString("0")])
    ensures !IsLoggedIn(session["user_id" := PhpString("")])
  {
  }

  /** `isAdmin()`: `role` is the string 'admin', compared with `===`. */
  function IsAdmin(session: Session): (r: bool)
    ensures r <==> "role" in session && session["role"].PhpString? && session["role"].s == "admin"
  {
    Isset(session, "role") && session["role"] == PhpString("admin")
  }

  /** Whatever else the session holds, storing a role makes the user an
      admin exactly when that role is the string 'admin'; no other value
      that PHP would compare loosely equal to it (such as `true`) passes. */
  lemma AdminIsExactlyTheString(session: Session, role: PhpValue)
    ensures IsAdmin(session["role" := role]) <==> role == PhpString("admin")
    ensures !IsAdmin(session["role" := PhpBool(true)])
  {
  }

  /** Upper case does not pass the strict comparison. */
  lemma UpperCaseAdminIsNotAdmin(session: Session)
    ensures !IsAdmin(session["role" := PhpString("ADMIN")])
  {
    assert "ADMIN"[0] != "admin"[0];
  }

  /** What a guard leaves behind: the page goes on, or `redirect` sent a
      `Location` header and ended the script. */
  datatype Outcome = Proceed(session: Session) | Redirect(location: Str, session: Session)

  const LoginPage: Str := "views/auth/login.php"
  const DashboardPage: Str := "views/dashboard.php"
  const LoginMessage: Str := "Please login to access this page"
  const AdminMessage: Str := "Access denied. Admin privileges required."

  /** `requireLogin()`; `baseUrl` is the `BASE_URL` constant of the
      configuration. */
  function RequireLogin(session: Session, baseUrl: Str): (r: Outcome)
    ensures r.Proceed? <==> IsLoggedIn(session)
    ensures r.Proceed? ==> r.session == session
    ensures r.Redirect? ==> r.location == baseUrl + LoginPage && r.session == session["error" := PhpString(LoginMessage)]
  {
    if !IsLoggedIn(session) then
      Redirect(baseUrl + LoginPage, session["error" := PhpString(LoginMessage)])
    else Proceed(session)
  }

  /** `requireAdmin()`: `requireLogin()` first; because `redirect` exits,
      the admin check only runs for a logged-in user. */
  function RequireAdmin(session: Session, baseUrl: Str): (r: Outcome)
    ensures r.Proceed? <==> IsLoggedIn(session) && IsAdmin(session)
    ensures r.Proceed? ==> r.session == session
  {
    match RequireLogin(session, baseUrl)
    case Redirect(location, s) => Redirect(location, s)
    case Proceed(s) =>
      if !IsAdmin(s) then Redirect(baseUrl + DashboardPage, s["error" := PhpString(AdminMessage)])
      else Proceed(s)
  }

  /** The three outcomes of `requireAdmin`. A logged-out visitor is sent to
      the login page even when the session carries the admin role; a
      logged-in non-admin is sent to the dashboard. */
  lemma RequireAdminOutcomes(session: Session, baseUrl: Str)
    ensures !IsLoggedIn(session) ==>
      RequireAdmin(session, baseUrl) == Redirect(baseUrl + LoginPage, session["error" := PhpString(LoginMessage)])
    ensures IsLoggedIn(session) && !IsAdmin(session) ==>
      RequireAdmin(session, baseUrl) == Redirect(baseUrl + DashboardPage, session["error" := PhpString(AdminMessage)])
    ensures IsLoggedIn(session) && IsAdmin(session) ==> RequireAdmin(session, baseUrl) == Proceed(session)
  {
  }

  // ------------------------------------------------------------------ phone

  /** `[\s\-]` of PCRE, removed before matching. */
  predicate IsSeparator(c: char) { IsPcreSpace(c) || c == '-' }
  predicate NotSeparator(c: char) { !IsSeparator(c) }

  /** `validatePhone($phone)`: delete whitespace and '-', then exactly ten
      ASCII digits must remain. Written like main.js's `validatePhone`, but
      `\s` is PCRE's six ASCII spaces, not JavaScript's Unicode set; it
      agrees with the Java rule instead (`CrossLanguage.JavaPhoneIsPhpPhone`). */
  function ValidatePhone(phone: Str): (r: bool)
    ensures r ==> |phone| >= 10
  {
    var cleaned := Keep(NotSeparator, phone);
    |cleaned| == 10 && AllDigits(cleaned)
  }

  /** Any character other than a digit, whitespace or '-' makes the number
      invalid. */
  lemma {:induction false} StrayCharacterRejects(phone: Str, i: int)
    requires 0 <= i < |phone| && !IsDigit(phone[i]) && !IsSeparator(phone[i])
    ensures !ValidatePhone(phone)
  {
    KeepMembers(NotSeparator, phone, phone[i]);
  }
}

=== FILE: query.dfy ===
/** The relational vocabulary the DAO classes express in SQL, over a table
    held as a sequence of rows: `WHERE` is a filter that keeps table order,
    `COUNT(*)` a count, `ORDER BY` a sort under a total preorder,
    `LIMIT` a prefix, and a single-row `SELECT` the first matching row. */
module Query {
  import opened Text

  /** The rows satisfying `p`, in table order. */
  function Where<T>(p: T -> bool, rows: seq<T>): (r: seq<T>)
    ensures |r| <= |rows|
    ensures forall i :: 0 <= i < |r| ==> r[i] in rows && p(r[i])
    ensures forall i :: 0 <= i < |rows| && p(rows[i]) ==> rows[i] in r
  {
    if rows == [] then [] else (if p(rows[0]) then [rows[0]] else []) + Where(p, rows[1..])
  }

  /** `SELECT COUNT(*) ... WHERE p`. */
  function Count<T>(p: T -> bool, rows: seq<T>): nat
  {
    if rows == [] then 0 else (if p(rows[0]) then 1 else 0) + Count(p, rows[1..])
  }

  lemma {:induction false} CountIsSizeOfWhere<T>(p: T -> bool, rows: seq<T>)
    ensures Count(p, rows) == |Where(p, rows)|
  {
    if rows != [] {
      CountIsSizeOfWhere(p, rows[1..]);
    }
  }

  lemma {:induction false} CountPositive<T>(p: T -> bool, rows: seq<T>)
    ensures Count(p, rows) > 0 <==> exists i :: 0 <= i < |rows| && p(rows[i])
  {
    if rows != [] {
      CountPositive(p, rows[1..]);
      if !p(rows[0]) && exists i :: 0 <= i < |rows| && p(rows[i]) {
        var i :| 0 <= i < |rows| && p(rows[i]);
        assert p(rows[1..][i - 1]);
      }
    }
  }

  lemma {:induction false} CountAppend<T>(p: T -> bool, a: seq<T>, b: seq<T>)
    ensures Count(p, a + b) == Count(p, a) + Count(p, b)
  {
    if a != [] {
      assert (a + b)[1..] == a[1..] + b;
      CountAppend(p, a[1..], b);
    } else {
      assert a + b == b;
    }
  }

  /** Two predicates that agree on every row of a table count the same rows. */
  lemma {:induction false} CountAgree<T>(p: T -> bool, q: T -> bool, rows: seq<T>)
    requires forall i :: 0 <= i < |rows| ==> (p(rows[i]) <==> q(rows[i]))
    ensures Count(p, rows) == Count(q, rows)
  {
    if rows != [] {
      CountAgree(p, q, rows[1..]);
    }
  }

  /** The first row satisfying `p`: a single-row `SELECT` read with
      `if (rs.next())`. */
  function First<T>(p: T -> bool, rows: seq<T>): (r: Option<T>)
    ensures r.Some? ==> r.value in rows && p(r.value)
    ensures r.None? <==> forall i :: 0 <= i < |rows| ==> !p(rows[i])
  {
    if rows == [] then None else if p(rows[0]) then Some(rows[0]) else First(p, rows[1..])
  }

  /** A single-row SELECT over rows none of which match, followed by one
      row that does, finds that row. */
  lemma {:induction false} FirstAppendMissing<T>(p: T -> bool, rows: seq<T>, x: T)
    requires forall i :: 0 <= i < |rows| ==> !p(rows[i])
    requires p(x)
    ensures First(p, rows + [x]) == Some(x)
  {
    if rows != [] {
      assert (rows + [x])[1..] == rows[1..] + [x];
      FirstAppendMissing(p, rows[1..], x);
    }
  }

  // -------------------------------------------------------------- ORDER BY

  /** `le` orders rows the way an `ORDER BY` clause does: every two rows are
      comparable, and the order is transitive (ties are allowed). */
  ghost predicate TotalPreorder<T(!new)>(le: (T, T) -> bool) {
    && (forall x, y :: le(x, y) || le(y, x))
    && (forall x, y, z :: le(x, y) && le(y, z) ==> le(x, z))
  }

  predicate Sorted<T>(le: (T, T) -> bool, s: seq<T>) {
    forall i, j :: 0 <= i < j < |s| ==> le(s[i], s[j])
  }

  function Insert<T(!new)>(le: (T, T) -> bool, x: T, s: seq<T>): (r: seq<T>)
    requires TotalPreorder(le)
    requires Sorted(le, s)
    ensures Sorted(le, r)
    ensures multiset(r) == multiset(s) + multiset{x}
  {
    if s == [] || le(x, s[0]) then
      InsertAtFront(le, x, s);
      [x] + s
    else
      var tail := Insert(le, x, s[1..]);
      InsertAfterHead(le, x, s, tail);
      [s[0]] + tail
  }

  /** An element no greater than the head of a sorted list can go in front. */
  lemma InsertAtFront<T(!new)>(le: (T, T) -> bool, x: T, s: seq<T>)
    requires TotalPreorder(le)
    requires Sorted(le, s)
    requires s == [] || le(x, s[0])
    ensures Sorted(le, [x] + s)
  {
    assert forall j :: 0 <= j < |s| ==> le(x, s[j]) by {
      if s != [] {
        assert forall j :: 0 <= j < |s| ==> le(s[0], s[j]) ==> le(x, s[j]);
      }
    }
  }

  /** An element above the head goes into the tail; the head stays first. */
  lemma InsertAfterHead<T(!new)>(le: (T, T) -> bool, x: T, s: seq<T>, tail: seq<T>)
    requires TotalPreorder(le)
    requires Sorted(le, s)
    requires s != [] && !le(x, s[0])
    requires Sorted(le, tail)
    requires multiset(tail) == multiset(s[1..]) + multiset{x}
    ensures Sorted(le, [s[0]] + tail)
    ensures multiset([s[0]] + tail) == multiset(s) + multiset{x}
  {
    assert le(s[0], x);
    assert forall y :: y in multiset(tail) ==> le(s[0], y) by {
      forall y | y in multiset(tail) ensures le(s[0], y) {
        assert y in multiset(s[1..]) || y == x;
        if y in multiset(s[1..]) {
          var k :| 0 <= k < |s[1..]| && s[1..][k] == y;
          assert s[k + 1] == y;
        }
      }
    }
    assert forall j :: 0 <= j < |tail| ==> le(s[0], tail[j]) by {
      forall j | 0 <= j < |tail| ensures le(s[0], tail[j]) {
        assert tail[j] in multiset(tail);
      }
    }
    assert s == [s[0]] + s[1..];
  }

  /** `ORDER BY le`: a sorted permutation of the rows. */
  function OrderBy<T(!new)>(le: (T, T) -> bool, rows: seq<T>): (r: seq<T>)
    requires TotalPreorder(le)
    ensures Sorted(le, r)
    ensures multiset(r) == multiset(rows)
    ensures |r| == |rows|
  {
    if rows == [] then []
    else
      assert rows == [rows[0]] + rows[1..];
      Insert(le, rows[0], OrderBy(le, rows[1..]))
  }

  /** `SELECT ... WHERE p ORDER BY le`: exactly the rows satisfying `p`,
      each as often as in the table, sorted. */
  function Select<T(!new)>(p: T -> bool, le: (T, T) -> bool, rows: seq<T>): (r: seq<T>)
    requires TotalPreorder(le)
    ensures Sorted(le, r)
    ensures multiset(r) == multiset(Where(p, rows))
    ensures forall i :: 0 <= i < |r| ==> r[i] in rows && p(r[i])
    ensures forall i :: 0 <= i < |rows| && p(rows[i]) ==> rows[i] in r
  {
    var w := Where(p, rows);
    var r := OrderBy(le, w);
    assert forall i :: 0 <= i < |r| ==> r[i] in w by {
      forall i | 0 <= i < |r| ensures r[i] in w {
        assert r[i] in multiset(r);
      }
    }
    assert forall i :: 0 <= i < |w| ==> w[i] in r by {
      forall i | 0 <= i < |w| ensures w[i] in r {
        assert w[i] in multiset(w);
      }
    }
    r
  }

  /** No two rows share a key. */
  predicate DistinctKeys<T>(key: T -> int, rows: seq<T>) {
    forall i, j :: 0 <= i < j < |rows| ==> key(rows[i]) != key(rows[j])
  }

  lemma {:induction false} WhereKeepsDistinct<T>(key: T -> int, p: T -> bool, rows: seq<T>)
    requires DistinctKeys(key, rows)
    ensures DistinctKeys(key, Where(p, rows))
  {
    if rows != [] {
      WhereKeepsDistinct(key, p, rows[1..]);
      var tail := Where(p, rows[1..]);
      forall j | 0 <= j < |tail| ensures key(rows[0]) != key(tail[j]) {
        var k :| 0 <= k < |rows[1..]| && rows[1..][k] == tail[j];
        assert rows[k + 1] == tail[j];
      }
    }
  }

  lemma {:induction false} WhereAll<T>(p: T -> bool, rows: seq<T>)
    requires forall i :: 0 <= i < |rows| ==> p(rows[i])
    ensures Where(p, rows) == rows
  {
    if rows != [] {
      WhereAll(p, rows[1..]);
    }
  }

  /** `UPDATE ... SET f WHERE p`: every row satisfying `p` rewritten by `f`,
      the others untouched, in table order. */
  function UpdateWhere<T>(p: T -> bool, f: T -> T, rows: seq<T>): (r: seq<T>)
    ensures |r| == |rows|
    ensures forall i :: 0 <= i < |rows| && p(rows[i]) ==> r[i] == f(rows[i])
    ensures forall i :: 0 <= i < |rows| && !p(rows[i]) ==> r[i] == rows[i]
  {
    seq(|rows|, i requires 0 <= i < |rows| => if p(rows[i]) then f(rows[i]) else rows[i])
  }

  /** An update that matches no row leaves the table as it was. */
  lemma UpdateNothing<T>(p: T -> bool, f: T -> T, rows: seq<T>)
    requires Count(p, rows) == 0
    ensures UpdateWhere(p, f, rows) == rows
  {
    CountPositive(p, rows);
  }

  /** Why a JDBC call ends in an exception rather than a result:
      `NullPointer` for unboxing a null `Integer` or `Date.valueOf(null)`,
      `NoRowsAffected` for the DAOs' own check on `executeUpdate`. */
  datatype DbError = NullPointer | NoRowsAffected

  datatype Result<+T> = Ok(value: T) | Err(error: DbError)

  // ------------------------------------------------------------------ LIKE

  /** MySQL's `s LIKE p` with the default escape character: `%` matches any
      run of characters, `_` any one character, a backslash makes the next
      pattern character literal, and every other character matches itself
      (case-sensitive here; see the README on collations). */
  predicate Like(s: Str, p: Str)
    decreases |s| + |p|
  {
    if p == [] then s == []
    else if p[0] == '%' then Like(s, p[1..]) || (s != [] && Like(s[1..], p))
    else if p[0] == '_' then s != [] && Like(s[1..], p[1..])
    else if p[0] == '\\' && |p| >= 2 then s != [] && s[0] == p[1] && Like(s[1..], p[2..])
    else s != [] && s[0] == p[0] && Like(s[1..], p[1..])
  }

  predicate IsLikeSpecial(c: char) { c == '%' || c == '_' || c == '\\' }

  /** A pattern with no special character matches only itself. */
  predicate NoWildcards(k: Str) { forall i :: 0 <= i < |k| ==> !IsLikeSpecial(k[i]) }

  lemma {:induction false} LikeLiteralPrefix(s: Str, k: Str, rest: Str)
    requires NoWildcards(k)
    ensures Like(s, k + rest) <==> |k| <= |s| && s[..|k|] == k && Like(s[|k|..], rest)
    decreases |k|
  {
    if k == [] {
      assert k + rest == rest;
      assert s[|k|..] == s;
    } else {
      assert (k + rest)[0] == k[0];
      assert (k + rest)[1..] == k[1..] + rest;
      if s != [] {
        LikeLiteralPrefix(s[1..], k[1..], rest);
        if |k| <= |s| {
          assert s[1..][|k| - 1..] == s[|k|..];
          assert s[..|k|] == [s[0]] + s[1..][..|k| - 1];
          assert k == [k[0]] + k[1..];
        }
      }
    }
  }

  lemma {:induction false} LikePercent(s: Str)
    ensures Like(s, "%")
  {
    if s != [] {
      LikePercent(s[1..]);
    }
  }

  lemma {:induction false} LikeLeadingPercent(s: Str, q: Str)
    ensures Like(s, ['%'] + q) <==> exists i :: 0 <= i <= |s| && Like(s[i..], q)
  {
    var p := ['%'] + q;
    assert p[1..] == q;
    if s == [] {
      if Like(s, p) {
        assert Like(s[0..], q);
      }
    } else {
      LikeLeadingPercent(s[1..], q);
      if Like(s, p) {
        if !Like(s, q) {
          var i :| 0 <= i <= |s[1..]| && Like(s[1..][i..], q);
          assert s[1..][i..] == s[i + 1..];
        } else {
          assert s[0..] == s;
        }
      }
      if exists i :: 0 <= i <= |s| && Like(s[i..], q) {
        var i :| 0 <= i <= |s| && Like(s[i..], q);
        if i == 0 {
          assert s[i..] == s;
        } else {
          assert s[1..][i - 1..] == s[i..];
        }
      }
    }
  }

  /** `LIKE '%k%'` with a wildcard-free `k` is substring search. */
  lemma LikeIsContains(s: Str, k: Str)
    requires NoWildcards(k)
    ensures Like(s, "%" + k + "%") <==> Contains(s, k)
  {
    assert "%" + k + "%" == ['%'] + (k + "%");
    LikeLeadingPercent(s, k + "%");
    if Like(s, "%" + k + "%") {
      var i :| 0 <= i <= |s| && Like(s[i..], k + "%");
      LikeLiteralPrefix(s[i..], k, "%");
      assert s[i..][..|k|] == s[i..i + |k|];
      assert OccursAt(s, k, i);
    }
    if Contains(s, k) {
      var i :| 0 <= i <= |s| && OccursAt(s, k, i);
      LikeLiteralPrefix(s[i..], k, "%");
      assert s[i..][..|k|] == s[i..i + |k|];
      LikePercent(s[i..][|k|..]);
    }
  }

  /** `LIMIT n` with n >= 0. */
  function Limit<T>(s: seq<T>, n: nat): (r: seq<T>)
    ensures |r| <= n && |r| <= |s|
    ensures r == s[..|r|]
    ensures |s| >= n ==> |r| == n
  {
    if |s| <= n then s else s[..n]
  }
}

=== FILE: text.dfy ===
/** Strings and the string primitives that the Java, JavaScript and PHP code
    of the volunteer management system lean on: character classes, the three
    languages' notions of whitespace, trimming, ASCII case folding, character
    filtering (`replaceAll` with a character class and an empty replacement),
    substring search and decimal notation.

    Strings are sequences of `char`, each a Unicode scalar value. Java and
    JavaScript count UTF-16 code units and PHP counts bytes, so lengths and
    positions here agree with theirs only on text inside the Basic
    Multilingual Plane (Java, JavaScript) or inside ASCII (PHP). */
module Text {

  /** A value that may be null (a Java reference, a JavaScript `null`). */
  datatype Option<+T> = None | Some(value: T)

  type Str = seq<char>

  // ---------------------------------------------------------------- classes

  predicate IsDigit(c: char) { '0' <= c <= '9' }
  predicate IsLowerAscii(c: char) { 'a' <= c <= 'z' }
  predicate IsUpperAscii(c: char) { 'A' <= c <= 'Z' }
  predicate IsLetter(c: char) { IsLowerAscii(c) || IsUpperAscii(c) }
  predicate IsAlnum(c: char) { IsLetter(c) || IsDigit(c) }

  predicate AllDigits(s: Str) { forall i :: 0 <= i < |s| ==> IsDigit(s[i]) }

  /** `\s` of java.util.regex (no UNICODE_CHARACTER_CLASS flag):
      space, tab, line feed, vertical tab, form feed, carriage return. */
  predicate IsJavaSpace(c: char) {
    c == ' ' || c == '\t' || c == '\n' || c == '\U{0B}' || c == '\U{0C}' || c == '\r'
  }

  /** `\s` of PCRE as used by PHP's preg_* functions without the /u modifier
      (byte mode, C locale tables). */
  predicate IsPcreSpace(c: char) {
    c == ' ' || c == '\t' || c == '\n' || c == '\U{0B}' || c == '\U{0C}' || c == '\r'
  }

  /** `\s` of ECMAScript regular expressions, which is also the set of code
      units `String.prototype.trim` removes: WhiteSpace and LineTerminator. */
  predicate IsJsSpace(c: char) {
    || c == '\t' || c == '\n' || c == '\U{0B}' || c == '\U{0C}' || c == '\r' || c == ' '
    || c == '\U{A0}' || c == '\U{1680}' || ('\U{2000}' <= c <= '\U{200A}')
    || c == '\U{2028}' || c == '\U{2029}' || c == '\U{202F}' || c == '\U{205F}'
    || c == '\U{3000}' || c == '\U{FEFF}'
  }

  /** What `java.lang.String.trim` removes: every code unit up to U+0020. */
  predicate IsJavaTrimmable(c: char) { c <= ' ' }

  lemma JavaSpaceIsTrimmable(c: char)
    ensures IsJavaSpace(c) ==> IsJavaTrimmable(c)
    ensures IsJavaSpace(c) ==> IsJsSpace(c)
    ensures IsJavaSpace(c) <==> IsPcreSpace(c)
  {
  }

  // --------------------------------------------------------------- trimming

  /** Drops the leading characters that satisfy `p`. */
  function StripStart(p: char -> bool, s: Str): (r: Str)
    ensures |r| <= |s| && r == s[|s| - |r|..]
    ensures forall i :: 0 <= i < |s| - |r| ==> p(s[i])
    ensures r == [] || !p(r[0])
  {
    if s == [] || !p(s[0]) then s else StripStart(p, s[1..])
  }

  /** Drops the trailing characters that satisfy `p`. */
  function StripEnd(p: char -> bool, s: Str): (r: Str)
    ensures |r| <= |s| && r == s[..|r|]
    ensures forall i :: |r| <= i < |s| ==> p(s[i])
    ensures r == [] || !p(r[|r| - 1])
  {
    if s == [] || !p(s[|s| - 1]) then s else StripEnd(p, s[..|s| - 1])
  }

  /** Drops leading and trailing characters that satisfy `p`; the result is
      a contiguous piece of `s` whose ends do not satisfy `p`. */
  function Strip(p: char -> bool, s: Str): (r: Str)
    ensures Contains(s, r)
    ensures r == [] || (!p(r[0]) && !p(r[|r| - 1]))
    ensures r == [] <==> forall i :: 0 <= i < |s| ==> p(s[i])
  {
    var a := StripStart(p, s);
    var b := StripEnd(p, a);
    assert b == s[|s| - |a|..][..|b|];
    var k := |s| - |a|;
    assert OccursAt(s, b, k);
    b
  }

  /** Stripping twice strips nothing more. */
  lemma StripIdempotent(p: char -> bool, s: Str)
    ensures Strip(p, Strip(p, s)) == Strip(p, s)
  {
    var r := Strip(p, s);
    if r != [] {
      assert StripStart(p, r) == r;
      assert StripEnd(p, r) == r;
    }
  }

  /** `s` consists only of characters that satisfy `p`; written by
      recursion, so that it unfolds only where a proof asks for it. */
  predicate OnlyOf(p: char -> bool, s: Str)
    decreases |s|
  {
    s == [] || (p(s[0]) && OnlyOf(p, s[1..]))
  }

  /** Stripping leaves nothing exactly when the string consists only of
      stripped characters. */
  lemma {:induction false} StripEmptyIffOnlyOf(p: char -> bool, s: Str)
    decreases |s|
    ensures Strip(p, s) == [] <==> OnlyOf(p, s)
  {
    if s != [] {
      StripEmptyIffOnlyOf(p, s[1..]);
      if Strip(p, s[1..]) == [] && p(s[0]) {
        forall i | 0 <= i < |s| ensures p(s[i]) {
          if i > 0 {
            assert s[1..][i - 1] == s[i];
          }
        }
      }
    }
  }

  function JavaTrim(s: Str): Str { Strip(IsJavaTrimmable, s) }
  function JsTrim(s: Str): Str { Strip(IsJsSpace, s) }

  // ----------------------------------------------------------- case folding

  /** Lower-casing restricted to ASCII letters; every other character maps to
      itself. */
  function LowerChar(c: char): (r: char)
    ensures IsUpperAscii(c) ==> IsLowerAscii(r)
    ensures !IsUpperAscii(c) ==> r == c
  {
    if IsUpperAscii(c) then (c as int + 32) as char else c
  }

  function Lower(s: Str): (r: Str)
    ensures |r| == |s|
    ensures forall i :: 0 <= i < |s| ==> r[i] == LowerChar(s[i])
  {
    seq(|s|, i requires 0 <= i < |s| => LowerChar(s[i]))
  }

  lemma LowerSlice(s: Str, i: int, j: int)
    requires 0 <= i <= j <= |s|
    ensures Lower(s)[i..j] == Lower(s[i..j])
  {
    var a, b := Lower(s)[i..j], Lower(s[i..j]);
    forall k | 0 <= k < |a| ensures a[k] == b[k] {
      assert a[k] == Lower(s)[i + k];
    }
  }

  /** ASCII lower-casing leaves whitespace alone and creates none. */
  lemma LowerCharKeepsSpace(c: char)
    ensures IsJsSpace(LowerChar(c)) <==> IsJsSpace(c)
  {
  }

  /** Lower-casing and trimming JavaScript whitespace commute. */
  lemma LowerTrimCommute(s: Str)
    ensures JsTrim(Lower(s)) == Lower(JsTrim(s))
  {
    forall c ensures IsJsSpace(LowerChar(c)) == IsJsSpace(c) {
      LowerCharKeepsSpace(c);
    }
    LowerStripStart(IsJsSpace, s);
    LowerStripEnd(IsJsSpace, StripStart(IsJsSpace, s));
  }

  lemma {:induction false} LowerStripStart(p: char -> bool, s: Str)
    requires forall c :: p(LowerChar(c)) == p(c)
    decreases |s|
    ensures StripStart(p, Lower(s)) == Lower(StripStart(p, s))
  {
    if s != [] {
      var l := Lower(s);
      assert l[0] == LowerChar(s[0]);
      if p(s[0]) {
        LowerSlice(s, 1, |s|);
        assert s[1..|s|] == s[1..] && l[1..|s|] == l[1..];
        LowerStripStart(p, s[1..]);
      }
    }
  }

  lemma {:induction false} LowerStripEnd(p: char -> bool, s: Str)
    requires forall c :: p(LowerChar(c)) == p(c)
    decreases |s|
    ensures StripEnd(p, Lower(s)) == Lower(StripEnd(p, s))
  {
    if s != [] {
      var n := |s| - 1;
      var l := Lower(s);
      assert l[n] == LowerChar(s[n]);
      if p(s[n]) {
        LowerSlice(s, 0, n);
        assert s[0..n] == s[..n] && l[0..n] == l[..n];
        LowerStripEnd(p, s[..n]);
      }
    }
  }

  /** `equalsIgnoreCase` over ASCII case folding. */
  predicate EqualsIgnoreCase(a: Str, b: Str) {
    |a| == |b| && forall i :: 0 <= i < |a| ==> LowerChar(a[i]) == LowerChar(b[i])
  }

  lemma EqualsIgnoreCaseIsLowerEquality(a: Str, b: Str)
    ensures EqualsIgnoreCase(a, b) <==> Lower(a) == Lower(b)
  {
    if Lower(a) == Lower(b) {
      assert |a| == |b|;
      forall i | 0 <= i < |a| ensures LowerChar(a[i]) == LowerChar(b[i]) {
        assert Lower(a)[i] == Lower(b)[i];
      }
    }
  }

  /** Comparing with a word that has no upper-case letter up to case is
      comparing the lower-cased text with the word itself. */
  lemma IgnoreCaseWithLowerWord(word: Str, s: Str)
    requires forall i :: 0 <= i < |word| ==> !IsUpperAscii(word[i])
    ensures EqualsIgnoreCase(word, s) <==> Lower(s) == word
  {
    EqualsIgnoreCaseIsLowerEquality(word, s);
    assert Lower(word) == word;
  }

  // ------------------------------------------------------------- filtering

  /** The characters of `s` that satisfy `keep`, in order: what
      `replaceAll("[class]", "")` and `replace(/[class]/g, '')` compute when the
      class is the complement of `keep`. */
  function Keep(keep: char -> bool, s: Str): (r: Str)
    ensures |r| <= |s|
    ensures forall i :: 0 <= i < |r| ==> keep(r[i])
  {
    if s == [] then [] else (if keep(s[0]) then [s[0]] else []) + Keep(keep, s[1..])
  }

  /** `Keep` keeps exactly the characters that satisfy `keep`. */
  lemma {:induction false} KeepMembers(keep: char -> bool, s: Str, c: char)
    ensures c in Keep(keep, s) <==> c in s && keep(c)
  {
    if s != [] {
      KeepMembers(keep, s[1..], c);
      assert s == [s[0]] + s[1..];
    }
  }

  lemma {:induction false} KeepAppend(keep: char -> bool, a: Str, b: Str)
    ensures Keep(keep, a + b) == Keep(keep, a) + Keep(keep, b)
  {
    if a == [] {
      assert a + b == b;
    } else {
      assert (a + b)[1..] == a[1..] + b;
      KeepAppend(keep, a[1..], b);
    }
  }

  /** Keeping what satisfies `p` after keeping what satisfies `q`, where `p`
      implies `q`, is keeping what satisfies `p`. */
  lemma {:induction false} KeepKeep(p: char -> bool, q: char -> bool, s: Str)
    requires forall c :: p(c) ==> q(c)
    ensures Keep(p, Keep(q, s)) == Keep(p, s)
  {
    if s != [] {
      KeepKeep(p, q, s[1..]);
      var head := if q(s[0]) then [s[0]] else [];
      KeepAppend(p, head, Keep(q, s[1..]));
    }
  }

  lemma {:induction false} KeepAll(p: char -> bool, s: Str)
    requires forall i :: 0 <= i < |s| ==> p(s[i])
    ensures Keep(p, s) == s
  {
    if s != [] {
      KeepAll(p, s[1..]);
    }
  }

  /** Two filters that agree on every character of `s` keep the same
      characters. */
  lemma {:induction false} KeepAgree(p: char -> bool, q: char -> bool, s: Str)
    requires forall i :: 0 <= i < |s| ==> p(s[i]) == q(s[i])
    ensures Keep(p, s) == Keep(q, s)
  {
    if s != [] {
      KeepAgree(p, q, s[1..]);
    }
  }

  /** Nothing is kept from a string none of whose characters qualify. */
  lemma {:induction false} KeepNone(p: char -> bool, s: Str)
    requires forall i :: 0 <= i < |s| ==> !p(s[i])
    ensures Keep(p, s) == []
  {
    if s != [] {
      KeepNone(p, s[1..]);
    }
  }

  // ------------------------------------------------------- substring search

  /** `s.includes(t)` / `s.contains(t)`. */
  predicate Contains(s: Str, t: Str) {
    exists i | 0 <= i <= |s| :: OccursAt(s, t, i)
  }

  predicate OccursAt(s: Str, t: Str, i: int) {
    0 <= i <= |s| - |t| && s[i..i + |t|] == t
  }

  lemma ContainsEmpty(s: Str)
    ensures Contains(s, [])
  {
    assert OccursAt(s, [], 0);
  }

  /** A piece of a piece of `a` is a piece of `a`. */
  lemma ContainsTransitive(a: Str, b: Str, c: Str)
    requires Contains(a, b) && Contains(b, c)
    ensures Contains(a, c)
  {
    var i :| 0 <= i <= |a| && OccursAt(a, b, i);
    var j :| 0 <= j <= |b| && OccursAt(b, c, j);
    forall k | 0 <= k < |c| ensures a[i + j + k] == c[k] {
      assert a[i..i + |b|][j + k] == b[j + k];
      assert b[j..j + |c|][k] == c[k];
    }
    assert a[i + j..i + j + |c|] == c;
    assert OccursAt(a, c, i + j);
  }

  /** Lower-casing both sides keeps an occurrence. */
  lemma LowerKeepsContains(s: Str, t: Str)
    requires Contains(s, t)
    ensures Contains(Lower(s), Lower(t))
  {
    var i :| 0 <= i <= |s| && OccursAt(s, t, i);
    forall k | 0 <= k < |t| ensures Lower(s)[i + k] == Lower(t)[k] {
      assert s[i..i + |t|][k] == t[k];
    }
    assert Lower(s)[i..i + |t|] == Lower(t);
    assert OccursAt(Lower(s), Lower(t), i);
  }

  /** The position of the first `c` in `s`, or `|s|` when there is none. */
  function IndexOf<T(==)>(s: seq<T>, c: T): (r: nat)
    ensures r <= |s|
    ensures r < |s| ==> s[r] == c
    ensures forall i :: 0 <= i < r ==> s[i] != c
  {
    if s == [] then 0 else if s[0] == c then 0 else 1 + IndexOf(s[1..], c)
  }

  /** The position of the last `c` in `s`, or -1 when there is none. */
  function LastIndexOf(s: Str, c: char): (r: int)
    ensures -1 <= r < |s|
    ensures r >= 0 ==> s[r] == c
    ensures forall i :: r < i < |s| ==> s[i] != c
  {
    if s == [] then -1 else if s[|s| - 1] == c then |s| - 1 else LastIndexOf(s[..|s| - 1], c)
  }

  /** Every character of `s` satisfies `p`. */
  predicate All(p: char -> bool, s: Str) { forall i :: 0 <= i < |s| ==> p(s[i]) }

  /** Some character of `s` satisfies `p` (a one-character regex class
      found anywhere, as `/[...]/.test(s)`). */
  predicate Any(p: char -> bool, s: Str) { exists i :: 0 <= i < |s| && p(s[i]) }

  /** `c` occurs in `s` at `a` and nowhere else. */
  predicate OnlyAt(s: Str, c: char, a: int) {
    0 <= a < |s| && s[a] == c && forall i :: 0 <= i < |s| && s[i] == c ==> i == a
  }

  /** The last `c` in `s` is at `d`. */
  predicate LastAt(s: Str, c: char, d: int) {
    0 <= d < |s| && s[d] == c && forall i :: d < i < |s| ==> s[i] != c
  }


  // ------------------------------------------------------ decimal notation

  function DigitChar(d: nat): (c: char)
    requires d < 10
    ensures IsDigit(c)
  {
    (48 + d) as char
  }

  function DigitValue(c: char): (d: nat)
    requires IsDigit(c)
    ensures d < 10 && DigitChar(d) == c
  {
    c as int - 48
  }

  /** The value of a string of ASCII digits, most significant first. */
  function DecimalValue(s: Str): nat
    requires AllDigits(s)
  {
    if s == [] then 0 else DecimalValue(s[..|s| - 1]) * 10 + DigitValue(s[|s| - 1])
  }

  /** A run of zeros is worth nothing. */
  lemma {:induction false} ZerosValue(z: Str)
    requires forall i :: 0 <= i < |z| ==> z[i] == '0'
    ensures AllDigits(z) && DecimalValue(z) == 0
  {
    if z != [] {
      ZerosValue(z[..|z| - 1]);
    }
  }

  /** Leading zeros do not change the value of a decimal. */
  lemma {:induction false} LeadingZeros(z: Str, t: Str)
    requires forall i :: 0 <= i < |z| ==> z[i] == '0'
    requires AllDigits(t)
    decreases |t|
    ensures AllDigits(z + t) && DecimalValue(z + t) == DecimalValue(t)
  {
    ZerosValue(z);
    if t == [] {
      assert z + t == z;
    } else {
      var u := t[..|t| - 1];
      LeadingZeros(z, u);
      assert (z + t)[..|z + t| - 1] == z + u;
      assert (z + t)[|z + t| - 1] == t[|t| - 1];
    }
  }

  /** Decimal notation of a natural number, with no leading zeros. */
  function NatToDecimal(n: nat): (s: Str)
    ensures |s| >= 1 && AllDigits(s)
    ensures s[0] == '0' ==> n == 0
  {
    if n < 10 then [DigitChar(n)] else NatToDecimal(n / 10) + [DigitChar(n % 10)]
  }

  /** `Integer.toString` / JavaScript's `String(n)` for an integer. */
  function IntToDecimal(n: int): (s: Str)
    ensures |s| >= 1
    ensures n >= 0 ==> AllDigits(s)
    ensures n < 0 ==> s[0] == '-' && AllDigits(s[1..])
  {
    if n < 0 then "-" + NatToDecimal(-n) else NatToDecimal(n)
  }

  lemma {:induction false} DecimalRoundTrip(n: nat)
    ensures DecimalValue(NatToDecimal(n)) == n
  {
    if n >= 10 {
      var s := NatToDecimal(n);
      assert s[..|s| - 1] == NatToDecimal(n / 10);
      DecimalRoundTrip(n / 10);
    }
  }
}

=== FILE: url_path.dfy ===
/** Splitting a URL path at '/' and joining it back, as the browser's
    `String.prototype.split('/')` and `Array.prototype.join('/')` do. */
module UrlPath {
  import opened Text

  /** `s.split('/')`: the pieces between slashes, in order; there is always
      at least one, and none contains a slash. */
  function Split(s: Str): (parts: seq<Str>)
    ensures |parts| >= 1
    ensures forall i :: 0 <= i < |parts| ==> '/' !in parts[i]
    decreases |s|
  {
    var i := IndexOf(s, '/');
    if i == |s| then
      assert forall k :: 0 <= k < |s| ==> s[k] != '/';
      [s]
    else
      var head := s[..i];
      assert forall k :: 0 <= k < |head| ==> head[k] != '/';
      [head] + Split(s[i + 1..])
  }

  /** `parts.join('/')`. */
  function Join(parts: seq<Str>): Str
    decreases |parts|
  {
    if |parts| == 0 then []
    else if |parts| == 1 then parts[0]
    else parts[0] + "/" + Join(parts[1..])
  }

  /** A path is the text before a slash, the slash and the text after it. */
  lemma AroundSlash(s: Str, i: nat)
    requires i < |s| && s[i] == '/'
    ensures s == s[..i] + "/" + s[i + 1..]
  {
    assert s[i..] == [s[i]] + s[i + 1..];
    assert s == s[..i] + s[i..];
  }

  /** Joining the pieces gives back the path. */
  lemma {:induction false} JoinSplit(s: Str)
    decreases |s|
    ensures Join(Split(s)) == s
  {
    var i := IndexOf(s, '/');
    if i < |s| {
      var head, rest := s[..i], Split(s[i + 1..]);
      assert Split(s) == [head] + rest;
      assert ([head] + rest)[1..] == rest;
      JoinSplit(s[i + 1..]);
      AroundSlash(s, i);
    }
  }

  /** A slash-free head followed by '/' splits off as the first piece. */
  lemma SplitAfter(head: Str, rest: Str)
    requires '/' !in head
    ensures Split(head + "/" + rest) == [head] + Split(rest)
  {
    var s := head + "/" + rest;
    assert s[|head|] == '/';
    forall k | 0 <= k < |head| ensures s[k] != '/' {
      assert s[k] == head[k];
    }
    assert IndexOf(s, '/') == |head|;
    assert s[..|head|] == head;
    assert s[|head| + 1..] == rest;
  }

  /** Two slash-free heads, each followed by '/', split off as the first
      two pieces. */
  lemma SplitAfterTwo(x: Str, y: Str, rest: Str)
    requires '/' !in x && '/' !in y
    ensures Split(x + "/" + y + "/" + rest) == [x, y] + Split(rest)
  {
    var tail := y + "/" + rest;
    var s := x + "/" + tail;
    assert x + "/" + y + "/" + rest == s;
    SplitAfter(x, tail);
    assert Split(s) == [x] + Split(tail);
    SplitAfter(y, rest);
    assert Split(tail) == [y] + Split(rest);
    assert [x] + ([y] + Split(rest)) == [x, y] + Split(rest);
  }

  /** Splitting a join of slash-free pieces gives back the pieces. */
  lemma {:induction false} SplitJoin(parts: seq<Str>)
    requires |parts| >= 1
    requires forall i :: 0 <= i < |parts| ==> '/' !in parts[i]
    decreases |parts|
    ensures Split(Join(parts)) == parts
  {
    var p := parts[0];
    if |parts| == 1 {
      assert IndexOf(p, '/') == |p|;
    } else {
      var s := Join(parts);
      var rest := Join(parts[1..]);
      assert s == p + "/" + rest;
      forall k | 0 <= k < |p| ensures s[k] != '/' {
        assert s[k] == p[k];
      }
      assert s[|p|] == '/';
      assert IndexOf(s, '/') == |p|;
      assert s[..|p|] == p;
      assert s[|p| + 1..] == rest;
      SplitJoin(parts[1..]);
    }
  }

  /** The join of the first `n` pieces is a prefix of the join of all. */
  lemma {:induction false} JoinPrefix(parts: seq<Str>, n: int)
    requires 1 <= n <= |parts|
    decreases n
    ensures |Join(parts[..n])| <= |Join(parts)|
    ensures Join(parts)[..|Join(parts[..n])|] == Join(parts[..n])
  {
    if n == |parts| {
      assert parts[..n] == parts;
    } else if n == 1 {
      assert Join(parts[..1]) == parts[0];
    } else {
      JoinPrefix(parts[1..], n - 1);
      assert parts[..n][1..] == parts[1..][..n - 1];
    }
  }
}

=== FILE: user.dfy ===
/** The `User` entity (model/User.java) and its role predicates. */
module UserModel {
  import opened Text

  datatype User = User(
    id: Option<int>,
    username: Option<Str>,
    email: Option<Str>,
    password: Option<Str>,
    fullName: Option<Str>,
    phone: Option<Str>,
    role: Option<Str>)

  /** `isAdmin`: the role is "admin" up to case. */
  function IsAdmin(u: User): (r: bool)
    ensures r <==> u.role.Some? && Lower(u.role.value) == "admin"
  {
    if u.role.None? then false
    else
      IgnoreCaseWithLowerWord("admin", u.role.value);
      EqualsIgnoreCase("admin", u.role.value)
  }

  /** `isVolunteer`: the role is "volunteer" up to case. */
  function IsVolunteer(u: User): (r: bool)
    ensures r <==> u.role.Some? && Lower(u.role.value) == "volunteer"
  {
    if u.role.None? then false
    else
      IgnoreCaseWithLowerWord("volunteer", u.role.value);
      EqualsIgnoreCase("volunteer", u.role.value)
  }

  /** No user is both an administrator and a volunteer; a user without a
      role is neither. */
  lemma RolesExclusive(u: User)
    ensures !(IsAdmin(u) && IsVolunteer(u))
    ensures u.role.None? ==> !IsAdmin(u) && !IsVolunteer(u)
  {
  }
}

=== FILE: user_dao.dfy ===
/** `UserDAO` over the `users` table. The BCrypt functions of `PasswordUtil`
    are parameters: `hash` stands for `hashPassword` and `verify` for
    `verifyPassword`, about which nothing is assumed unless a lemma says
    so. */
module UserDao {
  import opened Text
  import opened Query
  import opened UserModel

  /** One row of `users`. The password column holds the hash of the
      password, which `hashPassword` never returns as null. */
  datatype UserRow = UserRow(
    id: int,
    username: Option<Str>,
    email: Option<Str>,
    passwordHash: Str,
    fullName: Option<Str>,
    phone: Option<Str>,
    role: Option<Str>,
    createdAt: int)

  datatype Table = Table(rows: seq<UserRow>, nextId: int)

  function Key(x: UserRow): int { x.id }

  predicate Valid(t: Table) {
    && DistinctKeys(Key, t.rows)
    && (forall i :: 0 <= i < |t.rows| ==> t.rows[i].id < t.nextId)
  }

  predicate HasId(t: Table, id: int) {
    exists i :: 0 <= i < |t.rows| && t.rows[i].id == id
  }

  /** `mapResultSetToUser`: the entity's password field receives the stored
      hash. */
  function ToUser(x: UserRow): (u: User)
    ensures u.id == Some(x.id) && u.username == x.username && u.email == x.email
    ensures u.password == Some(x.passwordHash) && u.role == x.role
  {
    User(Some(x.id), x.username, x.email, Some(x.passwordHash), x.fullName, x.phone, x.role)
  }

  function ToUsers(rows: seq<UserRow>): (r: seq<User>)
    ensures |r| == |rows|
    ensures forall i :: 0 <= i < |rows| ==> r[i] == ToUser(rows[i])
  {
    seq(|rows|, i requires 0 <= i < |rows| => ToUser(rows[i]))
  }

  // ------------------------------------------------------ WHERE conditions

  function IdIs(id: int): UserRow -> bool { (x: UserRow) => x.id == id }
  function IdIsNot(id: int): UserRow -> bool { (x: UserRow) => x.id != id }
  /** `username = ?`; a null parameter matches nothing. */
  function UsernameIs(username: Option<Str>): UserRow -> bool {
    (x: UserRow) => username.Some? && x.username == username
  }
  /** `email = ?`; a null parameter matches nothing. */
  function EmailIs(email: Option<Str>): UserRow -> bool {
    (x: UserRow) => email.Some? && x.email == email
  }
  /** `username = ? OR email = ?` with the same parameter twice. */
  function LoginIs(login: Option<Str>): UserRow -> bool {
    (x: UserRow) => login.Some? && (x.username == login || x.email == login)
  }

  /** `ORDER BY created_at DESC` */
  predicate CreatedDesc(a: UserRow, b: UserRow) { a.createdAt >= b.createdAt }

  lemma CreatedDescIsPreorder()
    ensures TotalPreorder(CreatedDesc)
  {
  }

  // --------------------------------------------------------------- finders

  /** `getById`: null when no row has that key. */
  function GetById(t: Table, id: int): (r: Option<User>)
    ensures r.Some? <==> HasId(t, id)
    ensures r.Some? ==>
      exists i :: 0 <= i < |t.rows| && t.rows[i].id == id && r.value == ToUser(t.rows[i])
  {
    match First(IdIs(id), t.rows)
    case None => None
    case Some(x) => Some(ToUser(x))
  }

  /** `getByUsername`. */
  function GetByUsername(t: Table, username: Option<Str>): (r: Option<User>)
    ensures r.Some? ==>
      username.Some? && r.value.username == username && exists i :: 0 <= i < |t.rows| && r.value == ToUser(t.rows[i])
    ensures r.None? <==> forall i :: 0 <= i < |t.rows| ==> !(username.Some? && t.rows[i].username == username)
  {
    match First(UsernameIs(username), t.rows)
    case None => None
    case Some(x) => Some(ToUser(x))
  }

  /** `getByEmail`. */
  function GetByEmail(t: Table, email: Option<Str>): (r: Option<User>)
    ensures r.Some? ==>
      email.Some? && r.value.email == email && exists i :: 0 <= i < |t.rows| && r.value == ToUser(t.rows[i])
    ensures r.None? <==> forall i :: 0 <= i < |t.rows| ==> !(email.Some? && t.rows[i].email == email)
  {
    match First(EmailIs(email), t.rows)
    case None => None
    case Some(x) => Some(ToUser(x))
  }

  /** `getAll`: every user, newest first. */
  function GetAll(t: Table): (r: seq<User>)
    ensures |r| == |t.rows|
    ensures forall i :: 0 <= i < |t.rows| ==> ToUser(t.rows[i]) in r
    ensures forall i :: 0 <= i < |r| ==> exists k :: 0 <= k < |t.rows| && r[i] == ToUser(t.rows[k])
    ensures exists rows :: Sorted(CreatedDesc, rows) && multiset(rows) == multiset(t.rows) && r == ToUsers(rows)
  {
    CreatedDescIsPreorder();
    var rows := OrderBy(CreatedDesc, t.rows);
    AllUsersFacts(rows, t.rows);
    ToUsers(rows)
  }

  /** A reordering of the table lists every user once per row. */
  lemma AllUsersFacts(rows: seq<UserRow>, table: seq<UserRow>)
    requires multiset(rows) == multiset(table)
    ensures |ToUsers(rows)| == |table|
    ensures forall i :: 0 <= i < |rows| ==> exists k :: 0 <= k < |table| && ToUsers(rows)[i] == ToUser(table[k])
    ensures forall k :: 0 <= k < |table| ==> ToUser(table[k]) in ToUsers(rows)
  {
    assert |rows| == |multiset(rows)| == |table|;
    forall i | 0 <= i < |rows| ensures exists k :: 0 <= k < |table| && ToUsers(rows)[i] == ToUser(table[k]) {
      assert rows[i] in multiset(table);
      var k :| 0 <= k < |table| && table[k] == rows[i];
    }
    forall k | 0 <= k < |table| ensures ToUser(table[k]) in ToUsers(rows) {
      assert table[k] in multiset(rows);
      var i :| 0 <= i < |rows| && rows[i] == table[k];
      assert ToUsers(rows)[i] == ToUser(table[k]);
    }
  }

  /** `usernameExists`: `COUNT(*) > 0` for that username. */
  function UsernameExists(t: Table, username: Option<Str>): (r: bool)
    ensures r <==> GetByUsername(t, username).Some?
  {
    CountPositive(UsernameIs(username), t.rows);
    Count(UsernameIs(username), t.rows) > 0
  }

  /** `emailExists`: `COUNT(*) > 0` for that email. */
  function EmailExists(t: Table, email: Option<Str>): (r: bool)
    ensures r <==> GetByEmail(t, email).Some?
  {
    CountPositive(EmailIs(email), t.rows);
    Count(EmailIs(email), t.rows) > 0
  }

  /** `authenticate`: looks at the first row whose username or email is the
      login, and returns it when `verify` accepts the password against its
      stored hash. With a matching row, a null password throws. */
  function Authenticate(t: Table, login: Option<Str>, password: Option<Str>,
                        verify: (Str, Str) -> bool): (r: Result<Option<User>>)
    ensures (forall i :: 0 <= i < |t.rows| ==> !LoginIs(login)(t.rows[i])) ==> r == Ok(None)
    ensures r.Err? ==> r.error == NullPointer && password.None?
    ensures password.None? && (exists i :: 0 <= i < |t.rows| && LoginIs(login)(t.rows[i])) ==> r == Err(NullPointer)
    ensures r.Ok? && r.value.Some? ==>
      password.Some? && login.Some?
      && exists i :: 0 <= i < |t.rows| && (t.rows[i].username == login || t.rows[i].email == login) && r.value.value == ToUser(t.rows[i]) && verify(password.value, t.rows[i].passwordHash)
  {
    match First(LoginIs(login), t.rows)
    case None => Ok(None)
    case Some(x) =>
      if password.None? then Err(NullPointer)
      else if verify(password.value, x.passwordHash) then Ok(Some(ToUser(x)))
      else Ok(None)
  }

  // -------------------------------------------------------------- updates

  /** `create`: inserts the user with the HASH of its password under a
      fresh key and returns that key. A null password throws inside
      `hashPassword`. */
  function Create(t: Table, u: User, hash: Str -> Str, now: int): (r: Result<(Table, int)>)
    ensures r.Err? <==> u.password.None?
    ensures r.Err? ==> r.error == NullPointer
    ensures r.Ok? ==>
      var (t', id) := r.value;
      && id == t.nextId && |t'.rows| == |t.rows| + 1 && t'.rows[..|t.rows|] == t.rows
      && t'.rows[|t.rows|].passwordHash == hash(u.password.value)
      && ToUser(t'.rows[|t.rows|]) == u.(id := Some(id), password := Some(hash(u.password.value)))
    ensures r.Ok? && Valid(t) ==> Valid(r.value.0) && !HasId(t, r.value.1)
  {
    if u.password.None? then Err(NullPointer)
    else
      var row := UserRow(t.nextId, u.username, u.email, hash(u.password.value), u.fullName,
                         u.phone, u.role, now);
      Ok((Table(t.rows + [row], t.nextId + 1), t.nextId))
  }

  function EditUser(u: User): UserRow -> UserRow {
    (x: UserRow) => x.(username := u.username, email := u.email, fullName := u.fullName,
                       phone := u.phone, role := u.role)
  }

  /** `update`: rewrites username, email, full name, phone and role of the
      row whose key is the entity's id; never the password. A null id
      throws. */
  function Update(t: Table, u: User): (r: Result<(Table, bool)>)
    ensures r.Err? <==> u.id.None?
    ensures r.Ok? ==>
      var (t', affected) := r.value;
      && (affected <==> HasId(t, u.id.value))
      && t'.nextId == t.nextId && |t'.rows| == |t.rows|
      && (forall i :: 0 <= i < |t.rows| ==> t'.rows[i].passwordHash == t.rows[i].passwordHash)
      && (forall i :: 0 <= i < |t.rows| && t.rows[i].id == u.id.value ==>
            ToUser(t'.rows[i]) == u.(password := Some(t.rows[i].passwordHash)))
      && (forall i :: 0 <= i < |t.rows| && t.rows[i].id != u.id.value ==> t'.rows[i] == t.rows[i])
    ensures r.Ok? && Valid(t) ==> Valid(r.value.0)
  {
    if u.id.None? then Err(NullPointer)
    else
      CountPositive(IdIs(u.id.value), t.rows);
      Ok((Table(UpdateWhere(IdIs(u.id.value), EditUser(u), t.rows), t.nextId),
          Count(IdIs(u.id.value), t.rows) > 0))
  }

  function SetHash(h: Str): UserRow -> UserRow { (x: UserRow) => x.(passwordHash := h) }

  /** `updatePassword`: stores the hash of the new password in the row with
      that key and nothing else; a null password throws. */
  function UpdatePassword(t: Table, id: int, newPassword: Option<Str>, hash: Str -> Str): (r: Result<(Table, bool)>)
    ensures r.Err? <==> newPassword.None?
    ensures r.Ok? ==>
      var (t', affected) := r.value;
      && (affected <==> HasId(t, id))
      && t'.nextId == t.nextId && |t'.rows| == |t.rows|
      && (forall i :: 0 <= i < |t.rows| && t.rows[i].id == id ==>
            t'.rows[i] == t.rows[i].(passwordHash := hash(newPassword.value)))
      && (forall i :: 0 <= i < |t.rows| && t.rows[i].id != id ==> t'.rows[i] == t.rows[i])
  {
    if newPassword.None? then Err(NullPointer)
    else
      CountPositive(IdIs(id), t.rows);
      Ok((Table(UpdateWhere(IdIs(id), SetHash(hash(newPassword.value)), t.rows), t.nextId),
          Count(IdIs(id), t.rows) > 0))
  }

  /** `delete`: removes the row with that key and reports whether there was
      one. */
  function Delete(t: Table, id: int): (r: (Table, bool))
    ensures r.1 <==> HasId(t, id)
    ensures r.0.rows == Where(IdIsNot(id), t.rows) && !HasId(r.0, id)
    ensures !r.1 ==> r.0 == t
    ensures Valid(t) ==> Valid(r.0)
  {
    var rows := Where(IdIsNot(id), t.rows);
    assert !HasId(t, id) ==> rows == t.rows by {
      if !HasId(t, id) {
        WhereAll(IdIsNot(id), t.rows);
      }
    }
    assert Valid(t) ==> DistinctKeys(Key, rows) by {
      if Valid(t) {
        WhereKeepsDistinct(Key, IdIsNot(id), t.rows);
      }
    }
    (Table(rows, t.nextId), HasId(t, id))
  }

  // --------------------------------------------------------- properties

  /** When `verify` accepts every password against its own hash (what
      BCrypt promises), a user whose row is the first match for the login
      authenticates with the password last set by `updatePassword`. */
  lemma NewPasswordAuthenticates(t: Table, id: int, login: Str, password: Str,
                                 hash: Str -> Str, verify: (Str, Str) -> bool, k: int)
    requires forall p :: verify(p, hash(p))
    requires 0 <= k < |t.rows| && t.rows[k].id == id
    requires t.rows[k].username == Some(login) || t.rows[k].email == Some(login)
    requires forall i :: 0 <= i < k ==> !(t.rows[i].username == Some(login) || t.rows[i].email == Some(login))
    ensures var t' := UpdatePassword(t, id, Some(password), hash).value.0;
            Authenticate(t', Some(login), Some(password), verify).Ok?
            && Authenticate(t', Some(login), Some(password), verify).value.Some?
  {
    var t' := UpdatePassword(t, id, Some(password), hash).value.0;
    FirstAt(LoginIs(Some(login)), t'.rows, k);
  }

  /** A single-row SELECT returns the row at the first index that
      matches. */
  lemma {:induction false} FirstAt(p: UserRow -> bool, rows: seq<UserRow>, k: int)
    requires 0 <= k < |rows| && p(rows[k])
    requires forall i :: 0 <= i < k ==> !p(rows[i])
    ensures First(p, rows) == Some(rows[k])
  {
    if k > 0 {
      FirstAt(p, rows[1..], k - 1);
    }
  }

  /** The first row matching the login decides: a null password throws,
      a password its hash verifies returns that user, and any other gives
      null, whatever later rows hold. */
  lemma AuthenticateAtFirstMatch(t: Table, login: Str, password: Option<Str>, verify: (Str, Str) -> bool, k: int)
    requires 0 <= k < |t.rows|
    requires t.rows[k].username == Some(login) || t.rows[k].email == Some(login)
    requires forall i :: 0 <= i < k ==> !(t.rows[i].username == Some(login) || t.rows[i].email == Some(login))
    ensures Authenticate(t, Some(login), password, verify)
      == if password.None? then Err(NullPointer)
         else if verify(password.value, t.rows[k].passwordHash) then Ok(Some(ToUser(t.rows[k])))
         else Ok(None)
  {
    FirstAt(LoginIs(Some(login)), t.rows, k);
  }

  /** A wrong password never authenticates: if `verify` rejects it against
      the stored hash of the first matching row, the result is null. */
  lemma WrongPasswordRejected(t: Table, login: Str, password: Str, verify: (Str, Str) -> bool, k: int)
    requires 0 <= k < |t.rows|
    requires t.rows[k].username == Some(login) || t.rows[k].email == Some(login)
    requires forall i :: 0 <= i < k ==> !(t.rows[i].username == Some(login) || t.rows[i].email == Some(login))
    requires !verify(password, t.rows[k].passwordHash)
    ensures Authenticate(t, Some(login), Some(password), verify) == Ok(None)
  {
    FirstAt(LoginIs(Some(login)), t.rows, k);
  }

  /** After `update`, whatever the entity carries, `getById` reads back
      the same stored password hash as before. */
  lemma UpdateKeepsPassword(t: Table, u: User, id: int)
    requires Update(t, u).Ok?
    requires HasId(t, id)
    ensures GetById(Update(t, u).value.0, id).Some?
    ensures GetById(Update(t, u).value.0, id).value.password == GetById(t, id).value.password
  {
    var t' := Update(t, u).value.0;
    var i :| 0 <= i < |t.rows| && t.rows[i].id == id;
    assert t'.rows[i].id == id by {
      if t.rows[i].id == u.id.value {
        assert ToUser(t'.rows[i]).id == u.id;
      }
    }
    var j := FirstIndex(IdIs(id), t.rows);
    assert First(IdIs(id), t'.rows) == Some(t'.rows[j]) by {
      forall m | 0 <= m < j ensures !IdIs(id)(t'.rows[m]) {
        if t.rows[m].id == u.id.value {
          assert ToUser(t'.rows[m]).id == u.id;
        }
      }
      if t.rows[j].id == u.id.value {
        assert ToUser(t'.rows[j]).id == u.id;
      }
      FirstAt(IdIs(id), t'.rows, j);
    }
    FirstAt(IdIs(id), t.rows, j);
  }

  /** The index of the first row satisfying `p`. */
  function FirstIndex(p: UserRow -> bool, rows: seq<UserRow>): (k: int)
    requires exists i :: 0 <= i < |rows| && p(rows[i])
    ensures 0 <= k < |rows| && p(rows[k])
    ensures forall i :: 0 <= i < k ==> !p(rows[i])
  {
    if p(rows[0]) then 0
    else
      var k := FirstIndex(p, rows[1..]);
      k + 1
  }
}

=== FILE: validation_util.dfy ===
/** `ValidationUtil`: HTML escaping and sanitising, the e-mail and phone
    checks, emptiness, integer parsing with a default, and phone cleaning. */
module ValidationUtil {
  import opened Text

  // ---------------------------------------------------------- HTML escaping

  /** The six characters `escapeHtml` rewrites. */
  predicate IsHtmlSpecial(c: char) {
    c == '<' || c == '>' || c == '&' || c == '"' || c == '\'' || c == '/'
  }

  /** The characters that can never appear in escaped output (`&` still
      does, as the start of an entity). */
  predicate IsUnsafe(c: char) { c == '<' || c == '>' || c == '"' || c == '\'' || c == '/' }

  /** The replacement of one character. */
  function EscapeChar(c: char): (r: Str)
    ensures |r| >= 1
    ensures |r| == 1 <==> !IsHtmlSpecial(c)
    ensures !IsHtmlSpecial(c) ==> r == [c]
    ensures IsHtmlSpecial(c) ==> r[0] == '&' && r[|r| - 1] == ';'
    ensures forall i :: 0 <= i < |r| ==> !IsUnsafe(r[i])
  {
    match c
    case '<' => "&lt;"
    case '>' => "&gt;"
    case '&' => "&amp;"
    case '"' => "&quot;"
    case '\'' => "&#x27;"
    case '/' => "&#x2F;"
    case _ => [c]
  }

  /** `escapeHtml`: each character replaced independently. The output holds
      none of the unsafe characters, is at least as long as the input, and
      is exactly as long when the input has no special character. */
  function EscapeHtml(s: Str): (r: Str)
    ensures forall i :: 0 <= i < |r| ==> !IsUnsafe(r[i])
    ensures |r| >= |s|
    ensures |r| == |s| <==> forall i :: 0 <= i < |s| ==> !IsHtmlSpecial(s[i])
    ensures |s| > 0 ==> |r| > 0 && r[0] in {'&', s[0]} && r[|r| - 1] in {';', s[|s| - 1]}
  {
    if s == [] then []
    else
      var head := EscapeChar(s[0]);
      var tail := EscapeHtml(s[1..]);
      assert |head + tail| == |s| ==> forall i :: 0 <= i < |s| ==> !IsHtmlSpecial(s[i]) by {
        if |head + tail| == |s| {
          forall i | 0 <= i < |s| ensures !IsHtmlSpecial(s[i]) {
            if i > 0 {
              assert s[i] == s[1..][i - 1];
            }
          }
        }
      }
      assert |s| > 1 ==> tail[|tail| - 1] in {';', s[|s| - 1]} by {
        if |s| > 1 {
          assert s[1..][|s| - 2] == s[|s| - 1];
        }
      }
      head + tail
  }

  lemma {:induction false} EscapeAppend(a: Str, b: Str)
    ensures EscapeHtml(a + b) == EscapeHtml(a) + EscapeHtml(b)
  {
    if a == [] {
      assert a + b == b;
    } else {
      assert (a + b)[0] == a[0];
      assert (a + b)[1..] == a[1..] + b;
      EscapeAppend(a[1..], b);
    }
  }

  /** The inverse of `EscapeHtml`: decodes the six entities it produces and
      copies every other character. */
  function Unescape(s: Str): Str
    decreases |s|
  {
    if s == [] then []
    else if HasPrefix(s, "&lt;") then "<" + Unescape(s[4..])
    else if HasPrefix(s, "&gt;") then ">" + Unescape(s[4..])
    else if HasPrefix(s, "&amp;") then "&" + Unescape(s[5..])
    else if HasPrefix(s, "&quot;") then "\"" + Unescape(s[6..])
    else if HasPrefix(s, "&#x27;") then "'" + Unescape(s[6..])
    else if HasPrefix(s, "&#x2F;") then "/" + Unescape(s[6..])
    else [s[0]] + Unescape(s[1..])
  }

  predicate HasPrefix(s: Str, p: Str) { |p| <= |s| && forall i :: 0 <= i < |p| ==> s[i] == p[i] }

  lemma UnescapeStep(c: char, rest: Str)
    ensures Unescape(EscapeChar(c) + rest) == [c] + Unescape(rest)
  {
    var e := EscapeChar(c);
    var s := e + rest;
    assert s[|e|..] == rest;
    assert forall i :: 0 <= i < |e| ==> s[i] == e[i];
    if c == '<' {
      assert HasPrefix(s, "&lt;");
    } else if c == '>' {
      assert s[1] == 'g';
      assert HasPrefix(s, "&gt;");
    } else if c == '&' {
      assert s[1] == 'a';
      assert HasPrefix(s, "&amp;");
    } else if c == '"' {
      assert s[1] == 'q';
      assert HasPrefix(s, "&quot;");
    } else if c == '\'' {
      assert s[1] == '#' && s[3] == '2';
      assert HasPrefix(s, "&#x27;");
    } else if c == '/' {
      assert s[1] == '#' && s[3] == '2' && s[4] == 'F';
      assert HasPrefix(s, "&#x2F;");
    } else {
      assert s[0] == c && s[1..] == rest;
    }
  }

  /** Decoding undoes escaping, so escaping loses no information. */
  lemma {:induction false} UnescapeEscape(s: Str)
    ensures Unescape(EscapeHtml(s)) == s
  {
    if s != [] {
      UnescapeStep(s[0], EscapeHtml(s[1..]));
      UnescapeEscape(s[1..]);
    }
  }

  /** Escaping a text that `trim` leaves alone gives a text `trim` leaves
      alone: an escaped end is '&' or ';', neither of them trimmable. */
  lemma EscapeKeepsTrimmedEnds(t: Str)
    requires t == [] || (!IsJavaTrimmable(t[0]) && !IsJavaTrimmable(t[|t| - 1]))
    ensures var e := EscapeHtml(t);
      e == [] || (!IsJavaTrimmable(e[0]) && !IsJavaTrimmable(e[|e| - 1]))
  {
  }

  /** What `sanitize` promises of the escaped `trim` of a text. */
  lemma SanitizedText(s: Str, e: Str)
    requires e == EscapeHtml(JavaTrim(s))
    ensures forall i :: 0 <= i < |e| ==> !IsUnsafe(e[i])
    ensures e == [] || (!IsJavaTrimmable(e[0]) && !IsJavaTrimmable(e[|e| - 1]))
    ensures Unescape(e) == JavaTrim(s)
  {
    EscapeKeepsTrimmedEnds(JavaTrim(s));
    UnescapeEscape(JavaTrim(s));
  }

  /** `sanitize`: null stays null; otherwise the escaped `trim` of the
      input. */
  function Sanitize(input: Option<Str>): (r: Option<Str>)
    ensures r.None? <==> input.None?
    ensures r.Some? ==> forall i :: 0 <= i < |r.value| ==> !IsUnsafe(r.value[i])
    ensures r.Some? ==> r.value == [] || (!IsJavaTrimmable(r.value[0]) && !IsJavaTrimmable(r.value[|r.value| - 1]))
    ensures r.Some? ==> Unescape(r.value) == JavaTrim(input.value)
    ensures r.Some? ==> r.value == EscapeHtml(JavaTrim(input.value))
  {
    if input.None? then None
    else
      var e := EscapeHtml(JavaTrim(input.value));
      SanitizedText(input.value, e);
      Some(e)
  }

  // ---------------------------------------------------------------- e-mail

  /** `[A-Za-z0-9+_.-]` */
  predicate IsEmailLocal(c: char) { IsAlnum(c) || c == '+' || c == '_' || c == '.' || c == '-' }
  /** `[A-Za-z0-9.-]` */
  predicate IsEmailDomain(c: char) { IsAlnum(c) || c == '.' || c == '-' }

  /** One way for `^[A-Za-z0-9+_.-]+@[A-Za-z0-9.-]+\.[A-Za-z]{2,}$` to match
      all of `s`: the '@' at `a`, the last literal '.' at `d`. */
  predicate EmailSplit(s: Str, a: int, d: int) {
    && 0 < a && a + 1 < d && d + 3 <= |s|
    && s[a] == '@' && s[d] == '.'
    && All(IsEmailLocal, s[..a]) && All(IsEmailDomain, s[a + 1..d]) && All(IsLetter, s[d + 1..])
  }

  /** The regular expression, as the existence of a split. */
  predicate EmailPattern(s: Str) {
    exists a, d | 0 <= a < |s| && 0 <= d < |s| :: EmailSplit(s, a, d)
  }

  /** `isValidEmail`: the only split worth trying puts the '@' at its first
      occurrence and the '.' at its last. */
  function IsValidEmail(email: Option<Str>): (r: bool)
    ensures r <==> email.Some? && EmailPattern(email.value)
  {
    if email.None? then false
    else
      var s := email.value;
      var a := IndexOf(s, '@');
      var d := LastIndexOf(s, '.');
      assert EmailPattern(s) ==> a < |s| && d >= 0 && EmailSplit(s, a, d) by {
        if EmailPattern(s) {
          var a', d' :| 0 <= a' < |s| && 0 <= d' < |s| && EmailSplit(s, a', d');
          EmailSplitIsCanonical(s, a', d');
        }
      }
      a < |s| && d >= 0 && EmailSplit(s, a, d)
  }

  /** A split, when there is one, is at the first '@' and the last '.'. */
  lemma EmailSplitIsCanonical(s: Str, a: int, d: int)
    requires EmailSplit(s, a, d)
    ensures a == IndexOf(s, '@') && d == LastIndexOf(s, '.')
  {
    forall i | 0 <= i < a ensures s[i] != '@' {
      assert s[..a][i] == s[i];
    }
    forall i | d < i < |s| ensures s[i] != '.' {
      assert s[d + 1..][i - d - 1] == s[i];
    }
  }

  /** A valid address has exactly one '@', preceded by a non-empty local
      part over `[A-Za-z0-9+_.-]`, and at least two ASCII letters after its
      last '.'. */
  lemma ValidEmailShape(s: Str)
    requires IsValidEmail(Some(s))
    ensures exists a :: OnlyAt(s, '@', a) && a > 0 && All(IsEmailLocal, s[..a])
    ensures exists d :: LastAt(s, '.', d) && |s| - d - 1 >= 2 && All(IsLetter, s[d + 1..])
  {
    var a, d :| 0 <= a < |s| && 0 <= d < |s| && EmailSplit(s, a, d);
    forall i | 0 <= i < a ensures s[i] != '@' {
      assert s[..a][i] == s[i];
    }
    forall i | a < i < d ensures s[i] != '@' {
      assert s[a + 1..d][i - a - 1] == s[i];
    }
    forall i | d < i < |s| ensures s[i] != '@' && s[i] != '.' {
      assert s[d + 1..][i - d - 1] == s[i];
    }
    assert OnlyAt(s, '@', a);
    assert LastAt(s, '.', d);
  }

  // ----------------------------------------------------------------- phone

  /** `[\s\-]` of java.util.regex. */
  predicate IsPhoneSeparator(c: char) { IsJavaSpace(c) || c == '-' }
  predicate NotPhoneSeparator(c: char) { !IsPhoneSeparator(c) }

  /** `^[0-9]{10}$` */
  predicate IsTenDigits(s: Str) { |s| == 10 && AllDigits(s) }

  /** `isValidPhone`: null is invalid; otherwise delete every Java
      whitespace character and '-', and exactly ten ASCII digits must
      remain. */
  function IsValidPhone(phone: Option<Str>): (r: bool)
    ensures r ==> phone.Some? && |phone.value| >= 10
    ensures r <==> phone.Some? && IsTenDigits(Keep(NotPhoneSeparator, phone.value))
  {
    phone.Some? && IsTenDigits(Keep(NotPhoneSeparator, phone.value))
  }

  /** `cleanPhone`: the ASCII digits of the input in order; null gives the
      empty string. */
  function CleanPhone(phone: Option<Str>): (r: Str)
    ensures AllDigits(r)
    ensures phone.None? ==> r == []
    ensures phone.Some? ==> |r| <= |phone.value|
    ensures phone.Some? ==> forall c :: c in r <==> c in phone.value && IsDigit(c)
    ensures phone.Some? && AllDigits(phone.value) ==> r == phone.value
  {
    match phone
    case None => []
    case Some(p) =>
      assert AllDigits(p) ==> Keep(IsDigit, p) == p by {
        if AllDigits(p) {
          KeepAll(IsDigit, p);
        }
      }
      forall c ensures c in Keep(IsDigit, p) <==> c in p && IsDigit(c) {
        KeepMembers(IsDigit, p, c);
      }
      Keep(IsDigit, p)
  }

  /** Cleaning works piece by piece, so with the clause for an all-digit
      input it fixes the result: the digits of the input, in their order. */
  lemma CleanPhoneAppend(a: Str, b: Str)
    ensures CleanPhone(Some(a + b)) == CleanPhone(Some(a)) + CleanPhone(Some(b))
  {
    KeepAppend(IsDigit, a, b);
  }

  /** Cleaning a cleaned number changes nothing. */
  lemma CleanPhoneIdempotent(phone: Option<Str>)
    ensures CleanPhone(Some(CleanPhone(phone))) == CleanPhone(phone)
  {
    KeepAll(IsDigit, CleanPhone(phone));
  }

  /** A valid phone number cleans to its ten digits. */
  lemma ValidPhoneCleansToTenDigits(phone: Option<Str>)
    requires IsValidPhone(phone)
    ensures CleanPhone(phone) == Keep(NotPhoneSeparator, phone.value)
    ensures |CleanPhone(phone)| == 10
  {
    var p := phone.value;
    var k := Keep(NotPhoneSeparator, p);
    assert AllDigits(k);
    KeepKeep(IsDigit, NotPhoneSeparator, p);
    KeepAll(IsDigit, k);
  }

  // ------------------------------------------------------------- emptiness

  /** `isEmpty`: null, or nothing left after `trim`. */
  function IsEmpty(s: Option<Str>): (r: bool)
    ensures r <==> s.None? || forall i :: 0 <= i < |s.value| ==> IsJavaTrimmable(s.value[i])
  {
    s.None? || JavaTrim(s.value) == []
  }

  /** `isNotEmpty`: some character above U+0020. */
  function IsNotEmpty(s: Option<Str>): (r: bool)
    ensures r <==> s.Some? && exists i :: 0 <= i < |s.value| && !IsJavaTrimmable(s.value[i])
  {
    !IsEmpty(s)
  }

  // -------------------------------------------------------- integer parsing

  const MinInt: int := -0x8000_0000
  const MaxInt: int := 0x7FFF_FFFF

  predicate IsInt32(n: int) { MinInt <= n <= MaxInt }

  /** `Integer.parseInt`'s grammar: an optional '+' or '-' and then one or
      more digits, read as a mathematical integer. */
  function ParseDecimal(s: Str): (r: Option<int>)
    ensures r.Some? <==> (s != [] && (s[0] == '+' || s[0] == '-' ==> |s| >= 2 && AllDigits(s[1..]))
                                  && (s[0] != '+' && s[0] != '-' ==> AllDigits(s)))
    ensures r.Some? && s[0] == '-' ==> r.value <= 0
    ensures r.Some? && s[0] != '-' ==> r.value >= 0
  {
    if s == [] then None
    else if s[0] == '-' || s[0] == '+' then
      if |s| >= 2 && AllDigits(s[1..]) then
        var n: int := DecimalValue(s[1..]);
        Some(if s[0] == '-' then -n else n)
      else None
    else if AllDigits(s) then Some(DecimalValue(s))
    else None
  }

  /** `parseInt(str, defaultValue)`: the value of a well-formed decimal in
      the range of `int`, and the default for null, empty, malformed or
      overflowing text. */
  function ParseInt(s: Option<Str>, default: int): (r: int)
    requires IsInt32(default)
    ensures IsInt32(r)
    ensures s.None? ==> r == default
    ensures s.Some? && ParseDecimal(s.value).None? ==> r == default
    ensures r != default ==> s.Some? && ParseDecimal(s.value) == Some(r)
    ensures s.Some? && ParseDecimal(s.value).Some? && IsInt32(ParseDecimal(s.value).value) ==>
      r == ParseDecimal(s.value).value
    ensures s.Some? && ParseDecimal(s.value).Some? && !IsInt32(ParseDecimal(s.value).value) ==> r == default
  {
    if s.None? then default
    else
      match ParseDecimal(s.value)
      case Some(n) => if IsInt32(n) then n else default
      case None => default
  }

  /** A run of zeros. */
  predicate Zeros(z: Str) { forall i :: 0 <= i < |z| ==> z[i] == '0' }

  /** The value `ParseDecimal` reads: every accepted text is a sign (none,
      '+' or '-'), a run of zeros and the decimal notation of some `n`, and
      it reads as `n`, negated after '-'. So "+5" is 5, "007" is 7 and
      "-0" is 0. */
  lemma ParseDecimalValue(sign: Str, z: Str, n: nat)
    requires sign == "" || sign == "+" || sign == "-"
    requires Zeros(z)
    ensures ParseDecimal(sign + (z + NatToDecimal(n))) == Some(if sign == "-" then 0 - n else n as int)
  {
    var d := z + NatToDecimal(n);
    ZerosThenDecimal(z, n);
    ParseSigned(sign, d);
  }

  /** Zeros followed by the notation of `n` are digits worth `n`, starting
      with a digit. */
  lemma ZerosThenDecimal(z: Str, n: nat)
    requires Zeros(z)
    ensures var d := z + NatToDecimal(n); d != [] && AllDigits(d) && DecimalValue(d) == n
  {
    LeadingZeros(z, NatToDecimal(n));
    DecimalRoundTrip(n);
  }

  /** A sign (or none) before a non-empty run of digits. */
  lemma ParseSigned(sign: Str, d: Str)
    requires sign == "" || sign == "+" || sign == "-"
    requires d != [] && AllDigits(d)
    ensures ParseDecimal(sign + d) == Some(if sign == "-" then 0 - DecimalValue(d) else DecimalValue(d))
  {
    var s := sign + d;
    if sign == "" {
      assert s == d;
      assert IsDigit(s[0]);
    } else {
      assert s[0] == sign[0] && s[1..] == d;
    }
  }

  /** `parseInt` on such a text: its value when that fits in an `int`, the
      default otherwise. */
  lemma ParseIntValue(sign: Str, z: Str, n: nat, default: int)
    requires sign == "" || sign == "+" || sign == "-"
    requires Zeros(z) && IsInt32(default)
    ensures var v: int := if sign == "-" then 0 - n else n;
      ParseInt(Some(sign + (z + NatToDecimal(n))), default) == if IsInt32(v) then v else default
  {
    ParseDecimalValue(sign, z, n);
  }

  /** Every `int` printed in decimal parses back to itself, whatever the
      default. */
  lemma ParseIntRoundTrip(n: int, default: int)
    requires IsInt32(n) && IsInt32(default)
    ensures ParseInt(Some(IntToDecimal(n)), default) == n
  {
    var s := IntToDecimal(n);
    if n < 0 {
      assert s[1..] == NatToDecimal(-n);
      DecimalRoundTrip(-n);
    } else {
      DecimalRoundTrip(n);
      assert IsDigit(s[0]);
    }
  }

  /** One past the largest `int` falls back to the default, as do the empty
      string and a lone sign. */
  lemma ParseIntRejects(default: int)
    requires IsInt32(default)
    ensures ParseInt(Some(NatToDecimal(MaxInt + 1)), default) == default
    ensures ParseInt(Some(""), default) == default
    ensures ParseInt(Some("-"), default) == default
  {
    DecimalRoundTrip(MaxInt + 1);
    assert IsDigit(NatToDecimal(MaxInt + 1)[0]);
  }
}

=== FILE: volunteer.dfy ===
/** The `Volunteer` entity (model/Volunteer.java) and `isActive`. */
module VolunteerModel {
  import opened Text

  datatype Volunteer = Volunteer(
    id: Option<int>,
    userId: Option<int>,
    skills: Option<Str>,
    availability: Option<Str>,
    experience: Option<Str>,
    interests: Option<Str>,
    emergencyContact: Option<Str>,
    emergencyPhone: Option<Str>,
    status: Option<Str>)

  /** `isActive`: the status is "active" up to case. */
  function IsActive(v: Volunteer): (r: bool)
    ensures r <==> v.status.Some? && Lower(v.status.value) == "active"
  {
    if v.status.None? then false
    else
      IgnoreCaseWithLowerWord("active", v.status.value);
      EqualsIgnoreCase("active", v.status.value)
  }

  /** A null status is inactive, the upper-case "ACTIVE" the volunteer table
      stores is active, and no field but the status matters. */
  lemma ActiveDependsOnStatusOnly(v: Volunteer, w: Volunteer)
    ensures v.status.None? ==> !IsActive(v)
    ensures v.status == Some("ACTIVE") ==> IsActive(v)
    ensures v.status == w.status ==> IsActive(v) == IsActive(w)
  {
  }
}

=== FILE: volunteer_dao.dfy ===
/** `VolunteerDAO` over the `volunteers` table: the profile finders, the
    skill search, insert, update, status change and delete. The status
    column holds an enum constant name such as "ACTIVE". */
module VolunteerDao {
  import opened Text
  import opened Query
  import opened VolunteerModel

  /** One row of `volunteers`. The DAO writes `user_id` from an unboxed
      value and `status` from an enum name, so neither is null. The entity's
      `experience` and `interests` have no column. */
  datatype VolunteerRow = VolunteerRow(
    id: int,
    userId: int,
    skills: Option<Str>,
    availability: Option<Str>,
    emergencyContact: Option<Str>,
    emergencyPhone: Option<Str>,
    status: Str,
    createdAt: int)

  datatype Table = Table(rows: seq<VolunteerRow>, nextId: int)

  function Key(x: VolunteerRow): int { x.id }

  predicate Valid(t: Table) {
    && DistinctKeys(Key, t.rows)
    && (forall i :: 0 <= i < |t.rows| ==> t.rows[i].id < t.nextId)
  }

  predicate HasId(t: Table, id: int) {
    exists i :: 0 <= i < |t.rows| && t.rows[i].id == id
  }

  /** `mapResultSetToVolunteer`. */
  function ToVolunteer(x: VolunteerRow): (v: Volunteer)
    ensures v.id == Some(x.id) && v.userId == Some(x.userId) && v.skills == x.skills
    ensures v.status == Some(x.status)
    ensures v.experience.None? && v.interests.None?
  {
    Volunteer(Some(x.id), Some(x.userId), x.skills, x.availability, None, None,
              x.emergencyContact, x.emergencyPhone, Some(x.status))
  }

  function ToVolunteers(rows: seq<VolunteerRow>): (r: seq<Volunteer>)
    ensures |r| == |rows|
    ensures forall i :: 0 <= i < |rows| ==> r[i] == ToVolunteer(rows[i])
  {
    seq(|rows|, i requires 0 <= i < |rows| => ToVolunteer(rows[i]))
  }

  // ------------------------------------------------------ WHERE conditions

  function IdIs(id: int): VolunteerRow -> bool { (x: VolunteerRow) => x.id == id }
  function IdIsNot(id: int): VolunteerRow -> bool { (x: VolunteerRow) => x.id != id }
  function UserIs(userId: int): VolunteerRow -> bool { (x: VolunteerRow) => x.userId == userId }
  /** `status = 'ACTIVE'` */
  function ActiveRow(): VolunteerRow -> bool { (x: VolunteerRow) => x.status == "ACTIVE" }
  /** `skills LIKE ? AND status = 'ACTIVE'`; a null `skills` never matches. */
  function SkillActive(pattern: Str): VolunteerRow -> bool {
    (x: VolunteerRow) => x.skills.Some? && Like(x.skills.value, pattern) && x.status == "ACTIVE"
  }

  /** `"%" + skill + "%"`: Java's string concatenation writes a null
      reference as "null". */
  function SkillPattern(skill: Option<Str>): (p: Str)
    ensures p == "%" + (if skill.Some? then skill.value else "null") + "%"
  {
    "%" + (match skill case Some(k) => k case None => "null") + "%"
  }

  /** `ORDER BY created_at DESC` */
  predicate CreatedDesc(a: VolunteerRow, b: VolunteerRow) { a.createdAt >= b.createdAt }

  lemma CreatedDescIsPreorder()
    ensures TotalPreorder(CreatedDesc)
  {
  }

  // --------------------------------------------------------------- finders

  /** `findById`. */
  function FindById(t: Table, id: int): (r: Option<Volunteer>)
    ensures r.Some? <==> HasId(t, id)
    ensures r.Some? ==>
      exists i :: 0 <= i < |t.rows| && t.rows[i].id == id && r.value == ToVolunteer(t.rows[i])
  {
    match First(IdIs(id), t.rows)
    case None => None
    case Some(x) => Some(ToVolunteer(x))
  }

  /** `findByUserId`: some profile of that user, if there is one (nothing
      in the DAO keeps a user to one profile). */
  function FindByUserId(t: Table, userId: int): (r: Option<Volunteer>)
    ensures r.None? <==> forall i :: 0 <= i < |t.rows| ==> t.rows[i].userId != userId
    ensures r.Some? ==>
      exists i :: 0 <= i < |t.rows| && t.rows[i].userId == userId && r.value == ToVolunteer(t.rows[i])
  {
    match First(UserIs(userId), t.rows)
    case None => None
    case Some(x) => Some(ToVolunteer(x))
  }

  /** `findAllActive`: the rows whose status is exactly "ACTIVE", newest
      first. */
  function FindAllActive(t: Table): (r: seq<Volunteer>)
    ensures forall i :: 0 <= i < |r| ==>
      r[i].status == Some("ACTIVE") && exists k :: 0 <= k < |t.rows| && r[i] == ToVolunteer(t.rows[k])
    ensures forall k :: 0 <= k < |t.rows| && t.rows[k].status == "ACTIVE" ==> ToVolunteer(t.rows[k]) in r
    ensures exists rows ::
              && Sorted(CreatedDesc, rows)
              && multiset(rows) == multiset(Where(ActiveRow(), t.rows))
              && r == ToVolunteers(rows)
  {
    CreatedDescIsPreorder();
    var rows := Select(ActiveRow(), CreatedDesc, t.rows);
    ToVolunteers(rows)
  }

  /** `findBySkill`: the active rows whose skills match `%skill%`, newest
      first. The skill goes into the pattern unescaped, so its own `%`, `_`
      and backslashes act as wildcards and escapes. */
  function FindBySkill(t: Table, skill: Option<Str>): (r: seq<Volunteer>)
    ensures forall i :: 0 <= i < |r| ==>
      r[i].status == Some("ACTIVE") && r[i].skills.Some? && Like(r[i].skills.value, SkillPattern(skill))
      && exists k :: 0 <= k < |t.rows| && r[i] == ToVolunteer(t.rows[k])
    ensures forall k :: 0 <= k < |t.rows| && SkillActive(SkillPattern(skill))(t.rows[k]) ==>
      ToVolunteer(t.rows[k]) in r
    ensures exists rows ::
              && Sorted(CreatedDesc, rows)
              && multiset(rows) == multiset(Where(SkillActive(SkillPattern(skill)), t.rows))
              && r == ToVolunteers(rows)
  {
    CreatedDescIsPreorder();
    var rows := Select(SkillActive(SkillPattern(skill)), CreatedDesc, t.rows);
    ToVolunteers(rows)
  }

  // -------------------------------------------------------------- updates

  /** `create`: inserts the profile under a fresh key and returns it with
      its id set. Unboxing a null user id, or taking the name of a null
      status, throws before anything is written. */
  function Create(t: Table, v: Volunteer, now: int): (r: Result<(Table, Volunteer)>)
    ensures r.Err? <==> v.userId.None? || v.status.None?
    ensures r.Err? ==> r.error == NullPointer
    ensures r.Ok? ==>
      var (t', created) := r.value;
      && |t'.rows| == |t.rows| + 1 && t'.rows == t.rows + [t'.rows[|t.rows|]]
      && created == v.(id := Some(t.nextId))
      && ToVolunteer(t'.rows[|t.rows|]) == created.(experience := None, interests := None)
    ensures r.Ok? && Valid(t) ==> Valid(r.value.0) && !HasId(t, t.nextId)
  {
    if v.userId.None? || v.status.None? then Err(NullPointer)
    else
      var row := VolunteerRow(t.nextId, v.userId.value, v.skills, v.availability,
                              v.emergencyContact, v.emergencyPhone, v.status.value, now);
      Ok((Table(t.rows + [row], t.nextId + 1), v.(id := Some(t.nextId))))
  }

  function EditProfile(v: Volunteer): VolunteerRow -> VolunteerRow
    requires v.status.Some?
  {
    (x: VolunteerRow) => x.(skills := v.skills, availability := v.availability,
                            emergencyContact := v.emergencyContact,
                            emergencyPhone := v.emergencyPhone, status := v.status.value)
  }

  /** `update`: rewrites skills, availability, emergency contact and status
      of the row whose key is the entity's id, and reports whether a row
      was affected. A null status or id throws. */
  function Update(t: Table, v: Volunteer): (r: Result<(Table, bool)>)
    ensures r.Err? <==> v.status.None? || v.id.None?
    ensures r.Ok? ==>
      var (t', affected) := r.value;
      && (affected <==> HasId(t, v.id.value))
      && t'.nextId == t.nextId && |t'.rows| == |t.rows|
      && (forall i :: 0 <= i < |t.rows| && t.rows[i].id == v.id.value ==>
            ToVolunteer(t'.rows[i]) == v.(userId := Some(t.rows[i].userId), experience := None, interests := None)
            && t'.rows[i].createdAt == t.rows[i].createdAt)
      && (forall i :: 0 <= i < |t.rows| && t.rows[i].id != v.id.value ==> t'.rows[i] == t.rows[i])
    ensures r.Ok? && Valid(t) ==> Valid(r.value.0)
  {
    if v.status.None? || v.id.None? then Err(NullPointer)
    else
      CountPositive(IdIs(v.id.value), t.rows);
      Ok((Table(UpdateWhere(IdIs(v.id.value), EditProfile(v), t.rows), t.nextId),
          Count(IdIs(v.id.value), t.rows) > 0))
  }

  function SetStatus(status: Str): VolunteerRow -> VolunteerRow {
    (x: VolunteerRow) => x.(status := status)
  }

  /** `updateStatus`: sets the status name of the row with that key and
      reports whether a row was affected; a null status throws. */
  function UpdateStatus(t: Table, id: int, status: Option<Str>): (r: Result<(Table, bool)>)
    ensures r.Err? <==> status.None?
    ensures r.Ok? ==>
      var (t', affected) := r.value;
      && (affected <==> HasId(t, id))
      && t'.nextId == t.nextId && |t'.rows| == |t.rows|
      && (forall i :: 0 <= i < |t.rows| ==>
            t'.rows[i] == if t.rows[i].id == id then t.rows[i].(status := status.value) else t.rows[i])
    ensures r.Ok? && !r.value.1 ==> r.value.0 == t
  {
    if status.None? then Err(NullPointer)
    else
      CountPositive(IdIs(id), t.rows);
      if Count(IdIs(id), t.rows) == 0 then
        UpdateNothing(IdIs(id), SetStatus(status.value), t.rows);
        Ok((Table(UpdateWhere(IdIs(id), SetStatus(status.value), t.rows), t.nextId), false))
      else
        Ok((Table(UpdateWhere(IdIs(id), SetStatus(status.value), t.rows), t.nextId), true))
  }

  /** `delete`: removes the row with that key and reports whether there was
      one. */
  function Delete(t: Table, id: int): (r: (Table, bool))
    ensures r.1 <==> HasId(t, id)
    ensures r.0.rows == Where(IdIsNot(id), t.rows) && !HasId(r.0, id)
    ensures !r.1 ==> r.0 == t
    ensures Valid(t) ==> Valid(r.0)
  {
    var rows := Where(IdIsNot(id), t.rows);
    assert !HasId(t, id) ==> rows == t.rows by {
      if !HasId(t, id) {
        WhereAll(IdIsNot(id), t.rows);
      }
    }
    assert Valid(t) ==> DistinctKeys(Key, rows) by {
      if Valid(t) {
        WhereKeepsDistinct(Key, IdIsNot(id), t.rows);
      }
    }
    (Table(rows, t.nextId), HasId(t, id))
  }

  // --------------------------------------------------------- properties

  /** Each skill-search result is the mapping of an active row. */
  lemma SkillResultIsActiveRow(t: Table, skill: Option<Str>, i: int)
    requires 0 <= i < |FindBySkill(t, skill)|
    ensures exists k :: 0 <= k < |t.rows| && t.rows[k].status == "ACTIVE" && FindBySkill(t, skill)[i] == ToVolunteer(t.rows[k])
  {
    var v := FindBySkill(t, skill)[i];
    var k :| 0 <= k < |t.rows| && v == ToVolunteer(t.rows[k]);
    assert Some(t.rows[k].status) == v.status == Some("ACTIVE");
  }

  /** The skill search only ever returns active volunteers. */
  lemma SkillResultsAreActive(t: Table, skill: Option<Str>)
    ensures forall i :: 0 <= i < |FindBySkill(t, skill)| ==> FindBySkill(t, skill)[i] in FindAllActive(t)
  {
    var r := FindBySkill(t, skill);
    var a := FindAllActive(t);
    forall i | 0 <= i < |r| ensures r[i] in a {
      SkillResultIsActiveRow(t, skill, i);
      var k :| 0 <= k < |t.rows| && t.rows[k].status == "ACTIVE" && r[i] == ToVolunteer(t.rows[k]);
    }
  }

  /** For a skill with no wildcard characters, a row is found exactly when
      it is active and its skills contain the skill as a substring. */
  lemma SkillSearchIsSubstringSearch(t: Table, skill: Str, k: int)
    requires NoWildcards(skill)
    requires 0 <= k < |t.rows|
    ensures ToVolunteer(t.rows[k]) in FindBySkill(t, Some(skill)) <==>
      t.rows[k].status == "ACTIVE" && t.rows[k].skills.Some? && Contains(t.rows[k].skills.value, skill)
  {
    var r := FindBySkill(t, Some(skill));
    if t.rows[k].skills.Some? {
      LikeIsContains(t.rows[k].skills.value, skill);
    }
    if ToVolunteer(t.rows[k]) in r {
      var i :| 0 <= i < |r| && r[i] == ToVolunteer(t.rows[k]);
      assert r[i].skills == t.rows[k].skills;
    }
  }

  /** Searching for a null skill searches for the text "null". */
  lemma NullSkillSearchesForNull(t: Table)
    ensures FindBySkill(t, None) == FindBySkill(t, Some("null"))
  {
  }

  /** An underscore is a wildcard: searching for "_" finds every active
      volunteer whose skills are not empty. */
  lemma UnderscoreMatchesAnySkill(s: Str)
    requires s != []
    ensures Like(s, SkillPattern(Some("_")))
  {
    assert SkillPattern(Some("_")) == ['%'] + ("_" + "%");
    LikeLeadingPercent(s, "_" + "%");
    assert ("_" + "%")[1..] == "%";
    LikePercent(s[1..]);
    assert s[0..] == s;
  }

  /** Setting the status of an existing profile to "ACTIVE" puts it among
      the active volunteers; any other name takes it out. */
  lemma StatusDecidesActiveList(t: Table, id: int, status: Str, k: int)
    requires 0 <= k < |t.rows| && t.rows[k].id == id
    ensures var t' := UpdateStatus(t, id, Some(status)).value.0;
            ToVolunteer(t'.rows[k]) in FindAllActive(t') <==> status == "ACTIVE"
  {
    var t' := UpdateStatus(t, id, Some(status)).value.0;
    var a := FindAllActive(t');
    if ToVolunteer(t'.rows[k]) in a {
      var i :| 0 <= i < |a| && a[i] == ToVolunteer(t'.rows[k]);
      assert a[i].status == Some(status);
    }
  }

  /** A created profile is what `findByUserId` returns when the user had no
      profile before. */
  lemma CreateThenFindByUser(t: Table, v: Volunteer, now: int)
    requires Create(t, v, now).Ok?
    requires FindByUserId(t, v.userId.value).None?
    ensures var (t', created) := Create(t, v, now).value;
            FindByUserId(t', v.userId.value) == Some(created.(experience := None, interests := None))
  {
    var (t', created) := Create(t, v, now).value;
    var n := |t.rows|;
    FirstAppendMissing(UserIs(v.userId.value), t.rows, t'.rows[n]);
  }
}

=== FILE: volunteers_js.dfy ===
/** volunteers.js: the status toggle, the delete confirmation, the status
    filter of the volunteers table and the check of the profile form. The
    user's answer to `confirm` is a parameter; `getBaseUrl` in this file is
    the same function as in events.js and is `EventsJs.GetBaseUrl`. */
module VolunteersJs {
  import opened Text
  import EventsJs
  import MainJs

  // ---------------------------------------------------------- toggleStatus

  const Active: Str := "active"
  const Inactive: Str := "inactive"

  /** The status a toggle writes into the hidden form, and the verb of the
      confirmation question. */
  datatype Toggle = Toggle(newStatus: Str, action: Str)

  /** The first two lines of `toggleStatus(volunteerId, currentStatus)`. */
  function ToggleStatus(current: Str): (r: Toggle)
    ensures r.newStatus == Active || r.newStatus == Inactive
    ensures r.newStatus == Inactive <==> current == Active
    ensures r.action == "activate" <==> r.newStatus == Active
    ensures r.action == "deactivate" <==> r.newStatus == Inactive
  {
    var newStatus := if current == Active then Inactive else Active;
    var action := if newStatus == Active then "activate" else "deactivate";
    Toggle(newStatus, action)
  }

  /** Toggling a known status twice gives it back. */
  lemma ToggleTwice(current: Str)
    requires current == Active || current == Inactive
    ensures ToggleStatus(ToggleStatus(current).newStatus).newStatus == current
  {
  }

  /** Any status other than exactly "active" (including "Active" or an
      unexpected value) is toggled to "active". */
  lemma UnknownStatusBecomesActive(current: Str)
    requires current != Active
    ensures ToggleStatus(current) == Toggle(Active, "activate")
  {
  }

  function ToggleQuestion(action: Str): Str {
    "Are you sure you want to " + action + " this volunteer?"
  }

  /** The hidden status form as submitted. */
  datatype StatusForm = StatusForm(volunteerId: Str, status: Str)

  /** `toggleStatus(volunteerId, currentStatus)`, where `confirm` is the
      user's answer to each question: the form is submitted only on
      confirmation, carrying the new status. */
  function ToggleSubmit(volunteerId: Str, current: Str, confirm: Str -> bool): (r: Option<StatusForm>)
    ensures r.Some? <==> confirm(ToggleQuestion(ToggleStatus(current).action))
    ensures r.Some? ==> r.value.volunteerId == volunteerId
    ensures r.Some? ==> r.value.status != current || current !in {Active, Inactive}
    ensures r.Some? ==> r.value.status == (if current == Active then Inactive else Active)
  {
    var t := ToggleStatus(current);
    if confirm(ToggleQuestion(t.action)) then Some(StatusForm(volunteerId, t.newStatus)) else None
  }

  // -------------------------------------------------------- deleteVolunteer

  const DeletePath: Str := "controllers/VolunteerController.php?action=delete&id="

  function DeleteQuestion(name: Str): Str {
    "Are you sure you want to delete volunteer \"" + name
      + "\"? This will also delete their user account and cannot be undone."
  }

  /** `deleteVolunteer(volunteerId, volunteerName)` on the page at `path`:
      on confirmation, the address the browser is sent to. */
  function DeleteVolunteer(path: Str, volunteerId: Str, name: Str, confirm: Str -> bool): (r: Option<Str>)
    ensures r.Some? <==> confirm(DeleteQuestion(name))
    ensures r.Some? ==> |r.value| >= |volunteerId|
    ensures r.Some? ==> r.value[|r.value| - |volunteerId|..] == volunteerId
    ensures r.Some? ==> r.value == EventsJs.GetBaseUrl(path) + DeletePath + volunteerId
  {
    if confirm(DeleteQuestion(name)) then Some(EventsJs.GetBaseUrl(path) + DeletePath + volunteerId) else None
  }

  /** The delete address starts with the page's base URL. */
  lemma DeleteUrlStartsWithBase(path: Str, volunteerId: Str, name: Str, confirm: Str -> bool)
    requires confirm(DeleteQuestion(name))
    ensures var base := EventsJs.GetBaseUrl(path);
      var url := DeleteVolunteer(path, volunteerId, name, confirm).value;
      |base| <= |url| && url[..|base|] == base
  {
    var base := EventsJs.GetBaseUrl(path);
    var tail := DeletePath + volunteerId;
    assert base + DeletePath + volunteerId == base + tail;
    assert (base + tail)[..|base|] == base;
  }

  // ------------------------------------------------ filterVolunteersByStatus

  /** `filterVolunteersByStatus(status)`: for the badge text of each row,
      whether the row stays visible. */
  function FilterVolunteersByStatus(badges: seq<Str>, status: Str): (r: seq<bool>)
    ensures |r| == |badges|
    ensures status == [] ==> forall i :: 0 <= i < |r| ==> r[i]
  {
    seq(|badges|, i requires 0 <= i < |badges| => status == [] || JsTrim(Lower(badges[i])) == Lower(status))
  }

  /** With a status chosen, a row is visible exactly when its trimmed badge
      equals the status up to ASCII case. */
  lemma FilterMatchesIgnoringCase(badges: seq<Str>, status: Str)
    requires status != []
    ensures forall i :: 0 <= i < |badges| ==>
      (FilterVolunteersByStatus(badges, status)[i] <==> EqualsIgnoreCase(JsTrim(badges[i]), status))
  {
    forall i | 0 <= i < |badges|
      ensures FilterVolunteersByStatus(badges, status)[i] <==> EqualsIgnoreCase(JsTrim(badges[i]), status)
    {
      LowerTrimCommute(badges[i]);
      EqualsIgnoreCaseIsLowerEquality(JsTrim(badges[i]), status);
    }
  }

  /** The status is lower-cased but not trimmed: one that begins with
      whitespace hides every row. */
  lemma PaddedStatusHidesAll(badges: seq<Str>, status: Str)
    requires status != [] && IsJsSpace(status[0])
    ensures forall i :: 0 <= i < |badges| ==> !FilterVolunteersByStatus(badges, status)[i]
  {
    forall i | 0 <= i < |badges| ensures !FilterVolunteersByStatus(badges, status)[i] {
      var t := JsTrim(Lower(badges[i]));
      LowerCharKeepsSpace(status[0]);
      assert Lower(status)[0] == LowerChar(status[0]);
      assert t == [] || !IsJsSpace(t[0]);
    }
  }

  // ----------------------------------------------------- profile-form check

  /** The four fields of the volunteer profile form, as typed. */
  datatype ProfileForm = ProfileForm(skills: Str, availability: Str, emergencyContact: Str, emergencyPhone: Str)

  const SkillsMessage: Str := "Please enter your skills"
  const AvailabilityMessage: Str := "Please enter your availability"
  const ContactMessage: Str := "Please enter an emergency contact name"
  const ContactPhoneMessage: Str := "Please enter an emergency contact phone"

  function Fields(f: ProfileForm): seq<Str> {
    [f.skills, f.availability, f.emergencyContact, f.emergencyPhone]
  }

  const ProfileMessages: seq<Str> := [SkillsMessage, AvailabilityMessage, ContactMessage, ContactPhoneMessage]

  /** The position of the first field that is blank, that is, empty once
      trimmed (`MainJs.BlankIsTrimmedEmpty`), or `|fields|` when there is
      none. */
  function FirstBlank(fields: seq<Str>): (k: nat)
    ensures k <= |fields|
    ensures k < |fields| ==> MainJs.IsBlank(fields[k])
    ensures forall j :: 0 <= j < k ==> !MainJs.IsBlank(fields[j])
  {
    if fields == [] then 0
    else if MainJs.IsBlank(fields[0]) then 0
    else 1 + FirstBlank(fields[1..])
  }

  /** The submit handler of the profile form: `None` lets the form submit;
      `Some(alert)` is the alert shown before the submission is stopped. */
  function ValidateProfileForm(f: ProfileForm): (r: Option<Str>)
    ensures r.None? <==> forall j :: 0 <= j < 4 ==> !MainJs.IsBlank(Fields(f)[j])
  {
    assert Fields(f)[0] == f.skills && Fields(f)[1] == f.availability;
    assert Fields(f)[2] == f.emergencyContact && Fields(f)[3] == f.emergencyPhone;
    if MainJs.IsBlank(f.skills) then Some(SkillsMessage)
    else if MainJs.IsBlank(f.availability) then Some(AvailabilityMessage)
    else if MainJs.IsBlank(f.emergencyContact) then Some(ContactMessage)
    else if MainJs.IsBlank(f.emergencyPhone) then Some(ContactPhoneMessage)
    else None
  }

  /** The alert is the message of the first blank field, in form order. */
  lemma {:induction false} ProfileAlertIsFirstBlank(f: ProfileForm)
    ensures var k := FirstBlank(Fields(f));
      ValidateProfileForm(f) == if k < 4 then Some(ProfileMessages[k]) else None
  {
    var fs := Fields(f);
    var f1, f2, f3 := fs[1..], fs[1..][1..], fs[1..][1..][1..];
    assert f1 == [f.availability, f.emergencyContact, f.emergencyPhone];
    assert f2 == [f.emergencyContact, f.emergencyPhone];
    assert f3 == [f.emergencyPhone];
    assert f3[1..] == [];
    assert FirstBlank(f3) == if MainJs.IsBlank(f.emergencyPhone) then 0 else 1;
    assert FirstBlank(f2) == if MainJs.IsBlank(f.emergencyContact) then 0 else 1 + FirstBlank(f3);
    assert FirstBlank(f1) == if MainJs.IsBlank(f.availability) then 0 else 1 + FirstBlank(f2);
    assert FirstBlank(fs) == if MainJs.IsBlank(f.skills) then 0 else 1 + FirstBlank(f1);
  }
}
